=== FILE: README.md ===
# search_agent in Dafny

A model of the core of `search_agent`, a service that finds LinkedIn profiles
for a technology and location brief and enriches them. The pipeline runs like
this:

1. A language model turns the brief into search queries.
2. The queries go into a MySQL queue (`search_query_queue`).
3. A worker takes a batch of pending queries and runs each one through
   Serper.dev.
4. The worker stores the hits in `google_search_results` and marks each query
   done or failed.
5. Profile links are later enriched through SalesQL and upserted into
   `salesql_enriched_people`.
6. Two repositories answer people searches with dynamically built SQL.

A separate tool, `google_search`, pages through Google Custom Search. The
worker does not call it; it is modelled as a stand-alone operation.

Python values are modelled as a JSON-like datatype (`Json.JValue`, with `JNull`
standing for `None`). A raised exception becomes an `Err` of `Json.Error`.
Database tables are immutable maps and sequences.

SQL statements are sequences of tokens: fixed text without `%`, or a `%s`
placeholder (`Sql.Tok`). This lets the model state that the driver receives
exactly one parameter per placeholder. HTTP responses, the model's reply,
`json.loads` and UTF-8 decoding are parameters (oracles) of the operations
that use them. The worker's Serper response is given per queue row (row id,
query, result count): every row makes its own request, so two pending rows
with the same text can get different responses. A failing INSERT is a
fault position given as a parameter: the connections autocommit, so the rows
written before it stay and the error propagates.

Modules:

| module | file | models |
|---|---|---|
| `Wrappers` | wrappers.dfy | `Option` and `Result` |
| `Json` | json.dfy | Python values, truthiness, `dict.get`, raised errors |
| `Text` | text.dfy | `str.strip`, `lower`, `split`, `join`, `in`, and decimal digits |
| `Sql` | sql.dfy | statement tokens, `%s` counting, parameters, fetched cells |
| `GoogleSearch` | google_search.dfy | paginated Google Custom Search |
| `SerperSearch` | serper_search.dfy | Serper search filtered to profile links |
| `SearchResults` | search_results.dfy | `save_search_results` |
| `QueryQueue` | query_queue.dfy | the query queue: enqueue, pending, done and failed |
| `SearchWorker` | search_worker.dfy | the LinkedIn search worker |
| `QueryGenerator` | query_generator.dfy | the query generator agent: tech stack parsing, reply parsing, enqueue |
| `SalesqlClient` | salesql_client.dfy | the SalesQL client: key, headers, URL normalisation, enrich |
| `SalesqlResults` | salesql_results.dfy | profile-link selection, value coercion, the person upsert |
| `PeopleRepo` | people_repo.dfy | the filtered, sorted, paged people query |
| `PeopleSearch` | people_search.dfy | the keyword/location people search and its match semantics |

Four behaviours of the code are easy to miss:

- A Serper outage is swallowed by the search tool. The worker therefore
  counts the query as processed with 0 results, not as failed.
- `_to_int` accepts a signed number inside a range dict, but not as a top-level
  string.
- `_normalize_url` is not idempotent.
- The worker stores no error message on the failed queue row.

## Model

| member | source | states |
|---|---|---|
| GoogleSearch.NumStarts | agent/tools/google_search.py:20 | the number of page starts `range(1, max_results + 1, 10)` yields: none below 1, otherwise the least n with 10·n ≥ max_results |
| GoogleSearch.StartInRange | agent/tools/google_search.py:20 | start 1 + 10·i is requested exactly when it does not exceed max_results |
| GoogleSearch.Entry | agent/tools/google_search.py:41-46 | a result holds exactly title, link and snippet; title and link are copied or None, a missing snippet becomes "" |
| GoogleSearch.Entries | agent/tools/google_search.py:41-46 | one entry per item, in item order |
| GoogleSearch.PageStep | agent/tools/google_search.py:29-49 | a failed request stops paging with nothing added; a non-dict body raises; paging continues only after a full page of 10 |
| GoogleSearch.Steps | agent/tools/google_search.py:20-49 | one loop step per page served, in request order: step k is what page k does to the loop |
| GoogleSearch.StepAtPages | agent/tools/google_search.py:29-31 | the step of request n is the step of the page served for it, and a failed request once the pages run out |
| GoogleSearch.Collect | agent/tools/google_search.py:19-51 | the requests sent are the consecutive pages 1, 11, 21, … up to the first failed, empty, short or malformed page; the result is their entries in order, and it is an error exactly when the last page requested has a body that is not a dict, with that page's error |
| GoogleSearch.AsksCons | agent/tools/google_search.py:20-27 | a page that continues is followed by the requests for the next start |
| GoogleSearch.YieldsCons | agent/tools/google_search.py:41-49 | a page that continues contributes its entries before those of later pages, and the run's error, if any, is the error of the last page requested |
| GoogleSearch.RequestsCons | agent/tools/google_search.py:21-27 | request k of a run starting at page i asks for start 1 + 10·(i + k) with num 10 |
| GoogleSearch.ContinuesCons | agent/tools/google_search.py:48-49 | pages that all continue, extended by one more continuing page, still all continue |
| GoogleSearch.CollectStep | agent/tools/google_search.py:20-49 | one loop iteration: the request for page i, then its entries, then the rest of the run |
| GoogleSearch.GoogleSearch | agent/tools/google_search.py:9-51 | the loop sends exactly the requests `Collect` describes and returns its results; every start is at most max_results; no request is sent for max_results < 1 |
| GoogleSearch.StartsBounded | agent/tools/google_search.py:20 | no more than NumStarts requests, the k-th with start 1 + 10·k ≤ max_results |
| GoogleSearch.FullPageStep | agent/tools/google_search.py:37-49 | a page with 10 dict items yields 10 entries and continues |
| GoogleSearch.OverFetch | agent/tools/google_search.py:17-20 | with max_results = 15 and two full pages, two requests are sent and 20 results returned: the page size is not clipped to max_results |
| Json.GetOr | agent/tools/google_search.py:45 | `dict.get(key, default)`: the stored value if present, the default otherwise |
| Json.ListDicts | agent/tools/google_search.py:41-46 | a list converts to dicts exactly when every element is a dict; otherwise `.get` raises AttributeError |
| Json.DictItems | agent/tools/serper_linkedin_search.py:31-32 | iterating a value and calling `.get` on each item, as `for item in data.get("organic", [])` does here and the loop at google_search.py:41 does after its emptiness check: a list of dicts gives its items; "" and {} give an empty page; None, numbers and bools raise TypeError; a non-empty string or dict, or a list holding a non-dict, raises AttributeError |
| Text.Strip | agent/tools/query_queue.py:28 | `str.strip`: the result has no whitespace at either end, and is empty exactly when the input is all whitespace |
| Text.StripWithin | agent/tools/query_queue.py:28 | a character absent from the input is absent from the stripped text |
| Text.StripPadded | agent/tools/query_queue.py:28 | whitespace padding around stripped text strips back to that text |
| Text.StripOfStripped | agent/tools/query_queue.py:28 | text that is already stripped is unchanged, so stripping is idempotent |
| Text.StripChar | agent/query_generator_agent.py:45 | `strip` of a single character c, as `strip("```")` does with the backtick: the result has no c at either end, is no longer than the input, and text without c is unchanged |
| Text.StripCharSlice | agent/query_generator_agent.py:45 | the result is a contiguous slice of the input, and everything cut from the front and the back is c |
| Text.StripCharPadded | agent/query_generator_agent.py:45 | runs of c around text that neither starts nor ends with c strip back to that text |
| Text.Split | agent/query_generator_agent.py:14 | `str.split(sep)`: at least one piece, and no piece contains the separator |
| Text.SplitJoin | agent/query_generator_agent.py:14 | joining the pieces of a split with the separator gives back the input |
| Text.Join | db/people_repo.py:49 | `sep.join(xs)`: the first piece starts the result |
| Text.JoinLength | db/people_repo.py:49 | the joined text is as long as the pieces plus one separator between each two |
| Text.Lower | agent/tools/serper_linkedin_search.py:33 | `str.lower` on ASCII: same length, upper-case letters mapped to lower case, everything else kept |
| Text.ContainsAt | agent/tools/serper_linkedin_search.py:33 | the substring test holds exactly when the pattern occurs at some position |
| Text.Before | services/salesql_client.py:34-37 | `split(c, 1)[0]`: a prefix without c that is the whole text when c is absent and otherwise ends exactly at the first c |
| Text.DropTrailing | services/salesql_client.py:39-40 | the `while endswith(c)` loop: a prefix that does not end in c, and everything dropped is c |
| Text.Take | agent/tools/query_queue.py:102 | `s[:n]`: a prefix of length n, or the whole text when it is shorter |
| Text.RemoveAll | db/salesql_results.py:84 | `replace(c, "")`: no c is left, and text without c is unchanged |
| Text.RemoveAllAppend | db/salesql_results.py:84 | removing c from a + b is removing it from a and from b, so the other characters keep their order |
| Text.Decimal | db/salesql_results.py:83-87 | the decimal rendering of n is a digit string |
| Text.DecimalValue | db/salesql_results.py:83-87 | the digits of the decimal rendering of n have value n |
| Sql.RenderCount | db/people_repo.py:118-123 | the rendered statement consumes one argument per placeholder |
| Sql.Placeholders | db/people_repo.py:118-123 | the `%s` count: zero for text without `%`, and at most one per two characters |
| Sql.PlaceholdersSkipText | db/people_repo.py:118-123 | text without `%` adds no placeholder in front of a statement |
| Sql.JoinToks | db/people_repo.py:91 | `" AND ".join` of fragments has the sum of their placeholders |
| Sql.RenderJoin | db/people_repo.py:91 | joining fragments and then rendering equals rendering them and joining the text |
| SerperSearch.IsProfileLink | agent/tools/serper_linkedin_search.py:33 | the profile test on the lower-cased link (its meaning stated by ProfileLinkAt) |
| SerperSearch.ProfileLinkAt | agent/tools/serper_linkedin_search.py:33 | a link is a profile link exactly when "linkedin.com/in" occurs at some position of its lower-cased form, so the test ignores case |
| SerperSearch.FilterOrganic | agent/tools/serper_linkedin_search.py:31-38 | the call succeeds exactly when every organic item has a string link or none; every hit then carries a link containing "linkedin.com/in" case-insensitively, and there are no more hits than items; otherwise `.lower()` raises AttributeError |
| SerperSearch.Hit | agent/tools/serper_linkedin_search.py:34-38 | a hit holds exactly title, link and snippet: the title or None, the matched link, and the snippet or "" |
| SerperSearch.HitIsEntry | agent/tools/serper_linkedin_search.py:34-38 | for an item whose link is that string, a hit is built exactly like a Google result entry |
| SerperSearch.FilterOrganicOne | agent/tools/serper_linkedin_search.py:32-38 | one item: no link gives no hit, a profile link gives one hit, another string gives none, a non-string raises |
| SerperSearch.FilterOrganicAppend | agent/tools/serper_linkedin_search.py:31 | filtering distributes over concatenation, so hits keep the response order |
| SerperSearch.MissingLinkExcluded | agent/tools/serper_linkedin_search.py:32-33 | the default "" link never counts as a profile |
| SerperSearch.Search | agent/tools/serper_linkedin_search.py:9-40 | a failed request yields []; a body that is not a dict raises AttributeError at `data.get`; otherwise every hit carries a profile link and there are no more hits than organic items |
| SerperSearch.SearchOrganic | agent/tools/serper_linkedin_search.py:31-40 | for a dict body whose organic results are a list of dicts, the call returns exactly what the item filter returns, so the per-item and order lemmas of the filter hold for the call |
| SerperSearch.SearchNoOrganic | agent/tools/serper_linkedin_search.py:31 | a body without organic results gives no hits |
| SerperSearch.SearchOrganicMalformed | agent/tools/serper_linkedin_search.py:31-32 | organic results holding a non-dict, or a None, number or bool in their place, make the call raise |
| SearchResults.RowFor | agent/tools/save_search_results.py:17-25 | the inserted row carries the search id and query it is saved under, and the item's title, link and snippet, each NULL when the item lacks that key |
| SearchResults.SaveSearchResults | agent/tools/save_search_results.py:4-27 | no results write nothing; otherwise one row per result is appended in order with fresh ids and existing rows are kept |
| SearchResults.SaveInTwoCalls | agent/tools/save_search_results.py:14-27 | saving a then b equals saving a + b |
| SearchResults.Tag | agent/tools/save_search_results.py:14-26 | each result paired with the search id and query it is saved under, in order |
| SearchResults.SaveTagged | agent/tools/save_search_results.py:14-27 | one row per tagged result is appended in order with fresh ids, each carrying its own search id and query; existing rows are kept |
| SearchResults.SaveIsTagged | agent/tools/save_search_results.py:4-27 | saving a query's results is saving them tagged with that query |
| SearchResults.SaveTaggedAppend | agent/tools/save_search_results.py:14-27 | saving a then b equals saving a + b, whatever queries they belong to |
| QueryQueue.CleanQueries | agent/tools/query_queue.py:28 | the kept queries are non-empty and stripped, and there are no more of them than inputs |
| QueryQueue.CleanQueriesAppend | agent/tools/query_queue.py:28 | cleaning distributes over concatenation, so input order is kept |
| QueryQueue.CleanQueriesOne | agent/tools/query_queue.py:28 | None and blank strings are dropped; any other string is kept stripped |
| QueryQueue.CleanKeepsDuplicates | agent/tools/query_queue.py:28 | a padded query and the bare query both survive, so duplicates are not removed |
| QueryQueue.InsertAll | agent/tools/query_queue.py:38-49 | each query becomes a new pending row under consecutive fresh ids; old rows are untouched |
| QueryQueue.Stored | agent/tools/query_queue.py:38-49 | the rows written before a failing INSERT: all of them when no INSERT fails, else exactly the position of the failing one |
| QueryQueue.EnqueueWithParsed | agent/tools/query_queue.py:18-51 | with no failing INSERT the call returns the number of cleaned queries and stores each as a new pending row, with `or []` defaults for the lists; an empty cleaned list returns 0 and changes nothing; when the INSERT of cleaned query k fails the call raises and, the connection being autocommit (db/async_mysql.py:15), the first k rows stay |
| QueryQueue.EnqueueQueries | agent/tools/query_queue.py:11-15 | the plain enqueue inserts the cleaned queries with empty lists and no parser version, raising on a failing INSERT after keeping the rows before it |
| QueryQueue.EnqueueFaultKeepsPrefix | agent/tools/query_queue.py:38-49 | a failing INSERT at position k leaves exactly the insert of the first k cleaned queries, and the call raises |
| QueryQueue.Ids | agent/tools/query_queue.py:68-73 | the ids of the selected rows, in order |
| QueryQueue.PendingFrom | agent/tools/query_queue.py:62-66 | exactly the pending ids at or above a bound, ascending |
| QueryQueue.Project | agent/tools/query_queue.py:68-73 | each selected id is returned with its query text |
| QueryQueue.GetPendingQueries | agent/tools/query_queue.py:54-73 | at most `limit` pending rows, oldest first; a pending row is left out only when the limit is full and it is newer than all returned rows |
| QueryQueue.PendingPrefix | agent/tools/query_queue.py:62-66 | the first n pending ids are pending, ascending, and older than any pending row left out |
| QueryQueue.PrefixSkips | agent/tools/query_queue.py:64-66 | a pending id missing from the LIMIT prefix is newer than every id in it |
| QueryQueue.MarkDone | agent/tools/query_queue.py:76-85 | only the status of that row becomes done; a missing id changes nothing |
| QueryQueue.MarkFailed | agent/tools/query_queue.py:88-110 | the row becomes failed; its error message is the first 2000 characters when the write succeeds and is kept otherwise; nothing else changes |
| QueryQueue.MarkDoneIdempotent | agent/tools/query_queue.py:76-85 | marking done twice is marking done once |
| QueryQueue.MarkFailedIdempotent | agent/tools/query_queue.py:88-110 | marking failed twice is marking failed once |
| QueryQueue.TerminalStatesAreOverwritten | agent/tools/query_queue.py:80-83 | the UPDATEs have no status guard: done overwrites failed and failed overwrites done |
| QueryQueue.MarksPreserveValid | agent/tools/query_queue.py:76-110 | marking never adds rows or breaks the id invariant |
| SearchWorker.AppendedTrans | agent/workers/linkedin_search_worker.py:18-25 | the appended-for relation on result tables composes over successive queries |
| SearchWorker.SavedRowsBelong | agent/workers/linkedin_search_worker.py:23 | saving a query's results only appends rows carrying that query's id |
| SearchWorker.Saved | agent/workers/linkedin_search_worker.py:22-23 | the hits a row leaves in the table: none when the search fails, all of them when the row succeeds, and otherwise the prefix written before the insert failed |
| SearchWorker.HandleRow | agent/workers/linkedin_search_worker.py:18-28 | one row: ok exactly when search, save and mark-done all succeed, with the number of hits; the row ends done or failed accordingly and no other row changes; the table gains exactly the row's saved hits, under its id and query |
| SearchWorker.FirstIsSmallest | agent/tools/query_queue.py:64 | in an ascending batch the first id is below all later ones |
| SearchWorker.MarkedStep | agent/workers/linkedin_search_worker.py:18-28 | marking the head row and then the rest marks the whole batch |
| SearchWorker.Fold | agent/workers/linkedin_search_worker.py:18-28 | the loop: each row's outcome is its own success with its hit count, all rows are marked, and the table gains exactly each row's saved hits, row after row, tagged with its id and query |
| SearchWorker.Written | agent/workers/linkedin_search_worker.py:18-23 | the rows the batch writes all carry ids of the batch |
| SearchWorker.IdSetCons | agent/workers/linkedin_search_worker.py:18-19 | the batch ids are the head id plus the tail ids |
| SearchWorker.Summarize | agent/workers/linkedin_search_worker.py:14-30 | every row lands in exactly one of processed and failed |
| SearchWorker.SearchIds | agent/workers/linkedin_search_worker.py:25-28 | the search ids of the processed or failed entries, in order |
| SearchWorker.SummaryIdsHandled | agent/workers/linkedin_search_worker.py:25-28 | every reported id belongs to the batch |
| SearchWorker.SummaryOrdered | agent/workers/linkedin_search_worker.py:18 | both lists keep the batch order |
| SearchWorker.SummaryPartition | agent/workers/linkedin_search_worker.py:21-28 | a row is in processed exactly when its outcome is ok, and in failed exactly when it is an error |
| SearchWorker.SummaryEntries | agent/workers/linkedin_search_worker.py:25-28 | processed entries report query and saved count, failed entries report query and error |
| SearchWorker.PartitionBySuccess | agent/workers/linkedin_search_worker.py:21-28 | a handled row is reported as processed exactly when search, save and mark-done succeed, and as failed exactly when one of them fails |
| SearchWorker.ProcessedSavedAll | agent/workers/linkedin_search_worker.py:22-25 | a processed query had a successful search and every hit of it saved |
| SearchWorker.SummaryQueueFacts | agent/workers/linkedin_search_worker.py:24-28 | each processed entry names a batch row now done, with its query and its hit count; each failed entry names a batch row now failed, with its query and an error |
| SearchWorker.RunBatch | agent/workers/linkedin_search_worker.py:14-30 | for a given batch: each row is reported once, in the list its success selects and in batch order; processed rows are done with their hit count and all hits saved; failed rows are failed; other rows are untouched; the table gains exactly the batch's saved hits |
| SearchWorker.RunWorker | agent/workers/linkedin_search_worker.py:6-30 | the batch is the 5 oldest pending queries; each is reported once and marked done with its hit count or failed; other rows are untouched; the table gains exactly the saved hits of the batch, row after row |
| QueryGenerator.KeepStripped | agent/query_generator_agent.py:14 | the kept pieces are non-empty and stripped |
| QueryGenerator.ParseTechStack | agent/query_generator_agent.py:14 | the parsed technologies are non-empty, stripped and comma-free |
| QueryGenerator.KeepStrippedCons | agent/query_generator_agent.py:14 | a blank piece is dropped and a non-blank one kept stripped, in order |
| QueryGenerator.ParseJoined | agent/query_generator_agent.py:14 | parsing the ", "-joined list of tidy names gives back the list |
| QueryGenerator.TechStackRoundTrip | agent/agent_base.py:63 | the round trip of the tech stack through `", ".join` and the constructor's split is the identity |
| QueryGenerator.NewAgent | agent/query_generator_agent.py:10-15 | the agent holds the parsed tech stack, and the given locations or the defaults when none or empty |
| QueryGenerator.ReplyText | agent/query_generator_agent.py:39 | an empty or missing reply is read as the empty list "[]"; a non-empty one is used as is; the text is never empty |
| QueryGenerator.Unfenced | agent/query_generator_agent.py:45 | removing the code fence leaves stripped text no longer than the reply |
| QueryGenerator.UnfencedFence | agent/query_generator_agent.py:45 | a reply of the form whitespace, three backticks, whitespace, text, whitespace, three backticks, whitespace unfences to that text, when the text is stripped and neither starts nor ends with a backtick |
| QueryGenerator.ParseReply | agent/query_generator_agent.py:41-47 | the reply is parsed as is, and only when that fails, without its fence |
| QueryGenerator.ParseFailure | agent/query_generator_agent.py:49 | the failure value is a one-item list holding a dict with exactly the keys error and raw, raw is the reply as received, and it carries no "query" |
| QueryGenerator.QueryOf | agent/query_generator_agent.py:52 | a dict item yields its "query" value if it has one and is skipped otherwise; a string raises TypeError exactly when it contains "query"; a list raises exactly when it holds the string "query"; any other value raises TypeError |
| QueryGenerator.QueriesOf | agent/query_generator_agent.py:52 | the comprehension succeeds exactly when no item raises |
| QueryGenerator.QueriesOfValues | agent/query_generator_agent.py:52 | on success the extracted values are exactly the "query" fields in order |
| QueryGenerator.DictsNeverRaise | agent/query_generator_agent.py:52 | a list of dicts never raises during extraction |
| QueryGenerator.ExtractQueries | agent/query_generator_agent.py:48-52 | a list is scanned; iterating a dict runs `in` on its key strings and raises only when a key contains "query"; a string gives no queries; other values raise |
| QueryGenerator.QueryArg | agent/tools/query_queue.py:28 | a string query is kept; a falsy non-string becomes None; a truthy non-string raises on `.strip` |
| QueryGenerator.QueryArgs | agent/tools/query_queue.py:28 | all queries convert exactly when each does, position by position |
| QueryGenerator.Strings | agent/query_generator_agent.py:52-53 | string queries pass through unchanged |
| QueryGenerator.Run | agent/query_generator_agent.py:38-56 | an unparsable reply returns the failure item and leaves the queue alone; a returned value is the parsed reply; existing rows are kept and every added row is a new pending row; an extraction error leaves the queue unchanged, and so does every error when no INSERT fails; a failing INSERT propagates out of `run` |
| QueryGenerator.RunOnStrings | agent/query_generator_agent.py:38-56 | a parsed list of dicts with string queries enqueues exactly those queries and returns the list, or raises the store's error when an INSERT fails |
| QueryGenerator.RunInsertFault | agent/query_generator_agent.py:52-56 | an INSERT failing at cleaned query k makes `run` raise, and the queue keeps the first k queries as new pending rows |
| QueryGenerator.ArgsOfStrings | agent/query_generator_agent.py:53 | string queries convert without error |
| QueryGenerator.NoQueriesNoRows | agent/query_generator_agent.py:52-56 | a list of dicts without "query" enqueues nothing |
| QueryGenerator.NoQueryValues | agent/query_generator_agent.py:52 | such a list yields no query values |
| SalesqlClient.ResolveApiKey | services/salesql_client.py:10-14 | the first truthy of SALESQL_API_KEY, SALESQL_TOKEN and SALESQL_KEY |
| SalesqlClient.AuthHeader | services/salesql_client.py:23-28 | no key raises the missing-key error; otherwise "Bearer " followed by the key |
| SalesqlClient.NormalizeUrl | services/salesql_client.py:31-41 | the result is a prefix of the stripped URL without query, fragment or trailing slash, cut at its first `?` or `#` (or its end) with only slashes dropped before that cut; a URL already in that form is unchanged |
| SalesqlClient.CutPoint | services/salesql_client.py:34-40 | what is left after the two splits and the slash loop ends at the first `?` or `#`, and only slashes lie between it and that point |
| SalesqlClient.NormalizeStable | services/salesql_client.py:31-41 | normalizing twice equals once when the result does not end in whitespace |
| SalesqlClient.NormalizeSlashAfterSpace | services/salesql_client.py:38-40 | a URL ending in " /" normalizes to one ending in a space |
| SalesqlClient.NormalizeTrailingSpace | services/salesql_client.py:33 | a trailing space is stripped by a second pass |
| SalesqlClient.NotIdempotent | services/salesql_client.py:31-41 | for every such URL, one pass and two passes differ |
| SalesqlClient.Enrich | services/salesql_client.py:44-66 | without a key nothing is sent; otherwise the normalized URL and the bearer header are sent; 200 gives the JSON, 404 the not-found marker, any other status raises with that status |
| SalesqlClient.ErrorDetail | services/salesql_client.py:62-66 | the error carries the JSON body, or `{"text": body}` when the body is not JSON |
| SalesqlResults.LooksLikeProfile | db/salesql_results.py:11-13 | true exactly for a URL whose lower-cased form contains "linkedin.com/in" |
| SalesqlResults.LowerTwice | db/salesql_results.py:13 | lower-casing is idempotent |
| SalesqlResults.LooksLikeProfileIgnoresCase | db/salesql_results.py:11-13 | the profile test ignores case |
| SalesqlResults.ProfileLinks | db/salesql_results.py:16-33 | exactly the profile links stored for the search id, with their row ids |
| SalesqlResults.Selected | db/salesql_results.py:20-31 | a row is selected exactly when it belongs to the search and its link is text that matches `LIKE '%linkedin.com/in%'` after lower-casing, so the `_looks_like_profile` recheck keeps every row the SQL returns |
| SalesqlResults.ProfileLinksCount | db/salesql_results.py:16-33 | each link row occurs in the result exactly as often as selected rows carry it: none is repeated or dropped |
| SalesqlResults.SelectedLinkShift | db/salesql_results.py:16-33 | a link selected from later rows is selected from all rows |
| SalesqlResults.ExistingUrls | db/salesql_results.py:36-47 | exactly the URLs already saved for the search id |
| SalesqlResults.GetNested | db/salesql_results.py:50-56 | the empty path is the value itself; a missing key or a non-dict gives None; a present key continues with the rest of the path from its value |
| SalesqlResults.GetNestedConcat | db/salesql_results.py:50-56 | following a + b is following a, then b |
| SalesqlResults.GetNestedNull | db/salesql_results.py:53-55 | any path from None is None |
| SalesqlResults.ScalarOrNone | db/salesql_results.py:59-69 | scalars pass through; lists, dicts and None become None |
| SalesqlResults.ScalarOrNoneSettles | db/salesql_results.py:59-69 | the result is None or a scalar, and applying it again changes nothing |
| SalesqlResults.UnderscoredChars | db/salesql_results.py:83-87 | a literal `int()` accepts contains only digits and underscores |
| SalesqlResults.DigitsUnderscored | db/salesql_results.py:83-87 | every plain digit string is such a literal |
| SalesqlResults.UnderscoredValuePlain | db/salesql_results.py:83-87 | without underscores the literal's value is its decimal value |
| SalesqlResults.ParseInt | db/salesql_results.py:91-93 | `int(str)` succeeds only on text that is not blank |
| SalesqlResults.PyInt | db/salesql_results.py:91-93 | `int(v)`: integers unchanged, booleans 0/1, None and containers fail |
| SalesqlResults.FirstConverting | db/salesql_results.py:88-95 | the first range key, at or after i, whose value converts |
| SalesqlResults.FirstInt | db/salesql_results.py:88-95 | the value of the first key in order whose value converts, or none when no key converts |
| SalesqlResults.ToInt | db/salesql_results.py:72-96 | None and lists give None; bools and ints convert; a string converts exactly when it is digits once commas are removed, to the value of those digits, so never to a negative; a dict tries its range keys in order |
| SalesqlResults.ToIntDecimal | db/salesql_results.py:83-87 | the decimal text of n converts to n |
| SalesqlResults.ToIntCommas | db/salesql_results.py:84-87 | a thousands comma is ignored |
| SalesqlResults.Negative | db/salesql_results.py:85 | a signed decimal string: "-" then the digits of n, with no comma or whitespace |
| SalesqlResults.ToIntSignedString | db/salesql_results.py:85-87 | a signed top-level string is rejected by the digit check |
| SalesqlResults.ParseIntNegative | db/salesql_results.py:91-93 | `int()` itself accepts the signed string |
| SalesqlResults.MaxOnly | db/salesql_results.py:88-95 | a dict with only "max" converts through that key |
| SalesqlResults.ToIntSignedInDict | db/salesql_results.py:88-95 | the same signed string inside a range dict converts to a negative number |
| SalesqlResults.Optional | db/salesql_results.py:193-209 | the JSON column is NULL exactly when the key is missing or null |
| SalesqlResults.Normalize | db/salesql_results.py:110-141 | a truthy non-dict organization raises; otherwise each person column holds its payload key sanitized by `_scalar_or_none`, the five location columns come from `location`, a dict organization fills each organization column from its key with the head count through `_to_int`, a falsy organization gives NULL organization columns, and raw_json is the whole payload |
| SalesqlResults.ScalarStored | db/salesql_results.py:110-117 | a scalar payload value is stored in its person column unchanged |
| SalesqlResults.OrgStored | db/salesql_results.py:125-132 | a scalar organization value is stored in its column unchanged, and a head count such as "1,200" is stored as the number |
| SalesqlResults.SavePerson | db/salesql_results.py:99-214 | an upsert on (search_id, linkedin_url): the row takes the payload's columns, google_result_id keeps its first value, other rows are untouched |
| SalesqlResults.LastWriteWins | db/salesql_results.py:162-190 | a second save keeps the first google_result_id and takes the second payload |
| SalesqlResults.SaveIdempotent | db/salesql_results.py:162-190 | saving the same payload twice equals saving it once |
| PeopleRepo.Targets | db/people_repo.py:60-66 | the searched columns are those preferred columns that exist, in preference order |
| PeopleRepo.QTargets | db/people_repo.py:60-66 | the free-text columns: the preferred columns that exist, all of them, in preference order |
| PeopleRepo.ParenFacts | db/people_repo.py:32-34 | parentheses add no placeholder |
| PeopleRepo.LikeTexts | db/people_repo.py:32-34 | one `col LIKE %s` per column |
| PeopleRepo.LikeTermFacts | db/people_repo.py:32-34 | each LIKE term has exactly one placeholder |
| PeopleRepo.LikeTerms | db/people_repo.py:32-34 | one LIKE term per column, one placeholder each |
| PeopleRepo.BuildLikeClause | db/people_repo.py:32-34 | the OR-joined, parenthesised clause has one placeholder per column |
| PeopleRepo.JsonContainsTermHoles | db/people_repo.py:74-79 | each JSON_CONTAINS term has one placeholder |
| PeopleRepo.JsonParams | db/people_repo.py:74-79 | each value is passed as its JSON string encoding |
| PeopleRepo.Repeat | db/people_repo.py:74-79 | one JSON_CONTAINS term per value; n copies of a term hold n times its placeholders |
| PeopleRepo.JsonContainsAny | db/people_repo.py:74-79 | one placeholder and one JSON parameter per value |
| PeopleRepo.SumHolesSnoc | db/people_repo.py:52-91 | adding a condition adds its placeholders |
| PeopleRepo.AddIf | db/people_repo.py:55-89 | an active filter appends its text and parameters together; an inactive one changes nothing |
| PeopleRepo.SearchIdCondition | db/people_repo.py:55-57 | the search-id filter has as many placeholders as parameters |
| Sql.Copies | db/people_repo.py:67-70 | n copies of one parameter: the LIKE pattern once per target column, the keyword and location patterns once per test |
| PeopleRepo.TextCondition | db/people_repo.py:60-70 | the text filter has as many placeholders as parameters |
| PeopleRepo.ListCondition | db/people_repo.py:81-89 | the tech-stack and location filters have as many placeholders as parameters |
| PeopleRepo.BuildWhere | db/people_repo.py:52-91 | the parameters are those of the active filters in order; placeholders match them; with no filter the clause is `1=1` |
| PeopleRepo.SelectList | db/people_repo.py:49 | the select list is the quoted column references joined by ", " |
| PeopleRepo.ColumnRefs | db/people_repo.py:49 | one quoted ``p.`c` `` reference per column, in order |
| PeopleRepo.OrderBy | db/people_repo.py:94-101 | sort by full_name ascending exactly when asked for "name" and available; otherwise newest first by created_at, or by id when created_at is missing; unordered only when none of these exists |
| PeopleRepo.OrderText | db/people_repo.py:94-101 | the ORDER BY text is "1" exactly for the unordered case |
| PeopleRepo.OrderSql | db/people_repo.py:94-101 | the ORDER BY text is ``p.`full_name` ASC``, ``p.`created_at` DESC``, ``p.`id` DESC`` or `1`, under the same conditions as the sort choice |
| PeopleRepo.FramedHoles | db/people_repo.py:104-113 | the fixed framing adds no placeholder, and LIMIT/OFFSET add two |
| PeopleRepo.CountSql | db/people_repo.py:104 | the count query has the WHERE clause's placeholders |
| PeopleRepo.DataSql | db/people_repo.py:107-113 | the data query has two more, for LIMIT and OFFSET |
| PeopleRepo.SearchPeople | db/people_repo.py:37-127 | both statements are executable; the count takes the filter parameters and the data query adds limit and offset |
| PeopleRepo.ParseJson | db/people_repo.py:129-137 | text or bytes that decode are replaced by the decoded value; anything else is kept |
| PeopleRepo.ParseJsonSettles | db/people_repo.py:129-137 | once the result is not text, decoding again changes nothing |
| PeopleRepo.DecodeRow | db/people_repo.py:139-145 | only the three JSON columns are decoded; every other column is kept |
| PeopleSearch.Norm | db/people_search.py:8-10 | None stays None; a string becomes stripped, lower-case and no longer |
| PeopleSearch.LikeMatch | db/people_search.py:68-74 | the LIKE match: a pattern without wildcards matches exactly the equal string |
| PeopleSearch.LowerKeepsStripped | db/people_search.py:8-10 | lower-casing keeps stripped text stripped |
| PeopleSearch.LowerNoUpper | db/people_search.py:8-10 | lower-case text is unchanged by lower-casing |
| PeopleSearch.NormIdempotent | db/people_search.py:8-10 | normalizing twice equals normalizing once |
| PeopleSearch.NormPadded | db/people_search.py:8-10 | whitespace padding around stripped text normalizes to that text lower-cased |
| PeopleSearch.PercentMatchesAll | db/people_search.py:68-74 | the LIKE pattern "%" matches every string |
| PeopleSearch.PrefixLike | db/people_search.py:68-74 | `p%` matches exactly the strings that start with a wildcard-free p |
| PeopleSearch.ContainsLike | db/people_search.py:68-74 | `%p%` matches exactly the strings that contain a wildcard-free p |
| PeopleSearch.Expanded | db/people_search.py:62-67 | the LEFT JOIN over a JSON array yields its elements, or a single NULL when it is empty |
| PeopleSearch.TextTestSome | db/people_search.py:62-74 | some joined row passes the keyword test exactly when a text column or a technology contains the keyword |
| PeopleSearch.LocationTestSome | db/people_search.py:41-53 | some joined row passes the location test exactly when a location column or listed location equals it |
| PeopleSearch.Matches | db/people_search.py:56-78 | a person is returned exactly when some row of the technology expansion passes the keyword test and, if a location is given, some row of the location expansion passes the location test: the two LEFT JOINs are independent |
| PeopleSearch.JoinSplits | db/people_search.py:62-78 | a joined row passing both tests exists exactly when each expansion has a row passing its own test |
| PeopleSearch.MatchesIff | db/people_search.py:56-78 | a person is selected exactly when the keyword occurs and, if given, the location matches |
| PeopleSearch.WildcardKeyword | db/people_search.py:80 | an unescaped `_` in the keyword matches any character |
| PeopleSearch.Tests | db/people_search.py:68-74 | one test with one placeholder per column |
| PeopleSearch.KeywordBlock | db/people_search.py:68-74 | the keyword block has one placeholder per keyword test |
| PeopleSearch.LocationBlock | db/people_search.py:41-53 | the location block has placeholders only when a location is given |
| PeopleSearch.TailBlock | db/people_search.py:75-77 | LIMIT and OFFSET take two placeholders |
| PeopleSearch.KeywordSql | db/people_search.py:56-78 | the statement's placeholders are the keyword tests, the location tests if any, and two |
| PeopleSearch.KeywordParams | db/people_search.py:80-81 | the keyword pattern fills each keyword test, the location fills each location test, then limit and offset |
| PeopleSearch.KeywordSearch | db/people_search.py:28-86 | a blank keyword runs nothing; otherwise the statement is executable with 7 or 14 parameters in that layout |
| PeopleSearch.KeywordSearchMeans | db/people_search.py:28-86 | for a wildcard-free keyword the statement runs with its `%qn%` pattern, and that pattern selects exactly the people whose data contains the keyword and, if given, match the location |
| PeopleSearch.DecodeCell | db/people_search.py:89-103 | text, or bytes that decode as UTF-8, holding valid JSON become the decoded value; anything else is kept |
| PeopleSearch.DecodeCellAgrees | db/people_search.py:89-103 | the cell decoding agrees with the people repository's `_parse_json` |
| PeopleSearch.DecodeRow | db/people_search.py:89-103 | only the three JSON columns are decoded |
| PeopleSearch.DecodeRowAgrees | db/people_search.py:89-103 | the row decoding agrees with the people repository's |

## Left out

- I/O: HTTP calls, MySQL connections, environment reads, the OpenAI call, `json.loads`, UTF-8 decoding and logging are parameters or oracles. Connection handling, `conn.commit()`, `conn.close()` and async scheduling are not modelled.
- Concurrency: two workers can claim the same pending row, because there is no processing state or lease. The model covers one worker run.
- `_get_columns` of the people repository: the column list is a parameter, and its caching is not modelled.
- `ParserAgent`, and `BaseAgent` beyond the `", ".join` of the tech stack: prompt text and model configuration carry no logic worth proving.
- Text.IsSpace: the whitespace that `str.strip` removes is modelled for code points up to 32 only (tab to carriage return, the four separators 28-31, and space); Unicode whitespace such as U+00A0 or U+2003 is not modelled.
- Text.IsDigit: `str.isdigit` is modelled as ASCII '0'-'9'; Python also accepts other Unicode digits, which the model treats as non-digits.
- Sql.SqlText: fixed statement text and the column names the people repository interpolates are assumed to contain no `%`; a column name with `%` would be misread by the driver's formatting, and that case is not modelled.
- Floats are opaque values: `int()` on a float is given as its truncation, not computed.
- MySQL collation, people search: LIKE and `=` are modelled as exact, case-sensitive comparisons of the `LOWER(...)` text the query builds. Both sides are lower-case, so a case-insensitive NO PAD collation (MySQL 8's default `utf8mb4_0900_ai_ci`) gives the same answer. Under a PAD SPACE collation such as `utf8mb4_general_ci`, `=` ignores trailing spaces, so `LOWER(city) = 'paris'` also matches `'paris '`, which the model does not; accent-insensitive matching is not modelled either. Lower-casing is ASCII-only.
- SalesqlResults.Selected: the profile-link filter `link LIKE '%linkedin.com/in%'` is modelled as case-insensitive, which assumes a case-insensitive collation (MySQL's default) on `google_search_results.link`. Under a binary collation the SQL would drop a link such as "LinkedIn.com/in/x" that the model keeps; the schema is not part of this model.
- PeopleSearch.MatchesIff: requires a keyword without LIKE wildcards. `%` and `_` are not escaped in the source, so for such keywords the match is wider, as `WildcardKeyword` shows.
- PeopleSearch.KeywordSearchMeans: requires the same wildcard-free keyword, for the same reason, and a location that is not blank after normalizing. A blank location compares equal to the empty text that `COALESCE` puts in place of NULL columns, so it matches people with missing location data, and that case is not characterised.
- QueryQueue.EnqueueWithParsed: queries are not de-duplicated; the source inserts every cleaned query, as `CleanKeepsDuplicates` shows.
- QueryQueue.TerminalStatesAreOverwritten: the source's marks have no status guard, so a done query can be failed again and vice versa.
- SearchWorker.RunWorker: a Serper outage is swallowed by the search tool, so it counts as processed with 0 results, not failed. The failed queue row gets no error message, because the worker calls `mark_query_failed(qid)` without one.
- SearchWorker.RunWorker: failures of `mark_query_failed` and of `get_pending_queries` propagate out of the worker and are not modelled.
- SerperSearch.Search: `num_results` is only sent to the server; the response is not truncated locally, so the model places no bound from it.
- SalesqlResults.ProfileLinks: the source query has no ORDER BY, so the model states membership and multiplicity (ProfileLinksCount) but not order.
- SalesqlResults.SavePerson: the unique key (search_id, linkedin_url) behind ON DUPLICATE KEY UPDATE is inferred from the upsert; the schema is not part of this model.
- SalesqlResults.ScalarOrNone: the separate bool branch is dead in the source, since a bool is already an int there; the model keeps the value either way.
- SalesqlResults.ParseInt: only states that blank text fails; Python's full `int()` grammar is modelled for digits, underscores, a sign and surrounding whitespace only.
- SalesqlClient.NormalizeStable: holds only when the result does not end in whitespace; `NotIdempotent` shows the source's `_normalize_url` is not idempotent in general.
- PeopleRepo.ParseJsonSettles: holds only once the result is not text; a JSON string decodes to text, which a second pass decodes again.
- The batch orchestration that feeds stored profile links to SalesQL enrichment is not in the source and is not modelled.
- `google_search`'s API key and engine id are module-level environment reads; they are left out of the request.


=== FILE: google_search.dfy ===
/** Google Custom Search pagination: requests of ten results at start offsets
    1, 11, 21, ... up to `max_results`, stopping at the first failed request,
    empty page or short page. */
module GoogleSearch {
  import opened Wrappers
  import opened Json

  /** `results_per_page`: every request asks for this many results. */
  const PageSize: nat := 10

  /** The query parameters of one request; the API key and engine id are
      fixed for the whole call and left out. */
  datatype Request = Request(q: string, num: nat, start: int)

  /** What one request produced: any failure of the request, of the status
      check or of JSON decoding, or the decoded body. */
  datatype Page = RequestFailed | Body(data: JValue)

  /** The page served to request number `n`; requests past the end fail. */
  function PageAt(pages: seq<Page>, n: nat): Page {
    if n < |pages| then pages[n] else RequestFailed
  }

  /** Number of start offsets `range(1, max_results + 1, 10)` produces. */
  function NumStarts(maxResults: int): (n: nat)
    ensures maxResults < 1 ==> n == 0
    ensures maxResults >= 1 ==> 10 * (n - 1) < maxResults <= 10 * n
  {
    if maxResults < 1 then 0 else (maxResults - 1) / PageSize + 1
  }

  /** The offset `range` yields `i`-th is within bounds exactly for the first
      `NumStarts` values of `i`. */
  lemma StartInRange(maxResults: int, i: nat)
    ensures 1 + PageSize * i <= maxResults <==> i < NumStarts(maxResults)
  {
  }

  /** The result entry built from one search item. */
  function Entry(item: Dict): (r: Dict)
    ensures r.Keys == {"title", "link", "snippet"}
    ensures r["title"] == Get(item, "title") && r["link"] == Get(item, "link")
    ensures r["snippet"] == (if "snippet" in item then item["snippet"] else JStr(""))
  {
    map["title" := Get(item, "title"), "link" := Get(item, "link"), "snippet" := GetOr(item, "snippet", JStr(""))]
  }

  function Entries(items: seq<Dict>): (r: seq<Dict>)
    ensures |r| == |items| && forall k | 0 <= k < |items| :: r[k] == Entry(items[k])
  {
    if items == [] then [] else [Entry(items[0])] + Entries(items[1..])
  }

  /** What a page contributes and whether the loop goes on. */
  datatype Step = Step(entries: seq<Dict>, more: bool)

  /** One iteration after the request: `data.get("items", [])` on a body
      that is not an object raises; a falsy `items` stops the loop; a truthy
      one is iterated, and an element that is not an object raises. */
  function PageStep(page: Page): (r: Result<Step, Error>)
    ensures page.RequestFailed? ==> r == Ok(Step([], false))
    ensures page.Body? && !page.data.JObj? ==> r == Err(AttributeError)
    ensures r.Ok? && r.value.more ==> |r.value.entries| >= PageSize
  {
    match page
    case RequestFailed => Ok(Step([], false))
    case Body(data) =>
      if !data.JObj? then Err(AttributeError)
      else
        var items := GetOr(data.fields, "items", JList([]));
        if !Truthy(items) then Ok(Step([], false))
        else
          match DictItems(items)
          case Err(e) => Err(e)
          case Ok(ds) => Ok(Step(Entries(ds), |ds| >= PageSize))
  }

  /** What each page served does: `PageStep` of every page, in order. */
  function Steps(pages: seq<Page>): (r: seq<Result<Step, Error>>)
    ensures |r| == |pages| && forall k | 0 <= k < |pages| :: r[k] == PageStep(pages[k])
  {
    if pages == [] then [] else [PageStep(pages[0])] + Steps(pages[1..])
  }

  /** The step of request number `n`: requests past the pages served fail,
      which ends the loop with nothing added. */
  function StepAt(steps: seq<Result<Step, Error>>, n: nat): Result<Step, Error> {
    if n < |steps| then steps[n] else Ok(Step([], false))
  }

  lemma StepAtPages(pages: seq<Page>, n: nat)
    ensures StepAt(Steps(pages), n) == PageStep(PageAt(pages, n))
  {
  }

  /** The entries request `n` contributes, none when it raises. */
  function Contribution(steps: seq<Result<Step, Error>>, n: nat): seq<Dict> {
    var s := StepAt(steps, n);
    if s.Ok? then s.value.entries else []
  }

  /** The entries of requests `lo` up to `hi`, in page order. */
  function Fetched(steps: seq<Result<Step, Error>>, lo: nat, hi: nat): seq<Dict>
    decreases hi - lo
  {
    if hi <= lo then [] else Contribution(steps, lo) + Fetched(steps, lo + 1, hi)
  }

  predicate Continues(steps: seq<Result<Step, Error>>, n: nat) {
    var s := StepAt(steps, n);
    s.Ok? && s.value.more
  }

  /** A whole search call. */
  datatype Outcome = Outcome(requests: seq<Request>, result: Result<seq<Dict>, Error>)

  /** The requests of the pagination loop from request `i` on, of `n`
      possible ones: consecutive pages of ten; every request but the last
      answered by a full page; an early end only at a page that stops it. */
  predicate Asks(query: string, steps: seq<Result<Step, Error>>, i: nat, n: nat, requests: seq<Request>) {
    && |requests| <= n - i
    && (i < n <==> requests != [])
    && (forall k | 0 <= k < |requests| :: requests[k] == Request(query, PageSize, 1 + PageSize * (i + k)))
    && (forall k | i <= k < i + |requests| - 1 :: Continues(steps, k))
    && (requests != [] && i + |requests| < n ==> !Continues(steps, i + |requests| - 1))
  }

  /** The result after the requests made from `i` on: the entries of the
      pages fetched, or, exactly when the last page raises, its error. */
  predicate Yields(steps: seq<Result<Step, Error>>, i: nat, o: Outcome) {
    && (o.result.Ok? ==> o.result.value == Fetched(steps, i, i + |o.requests|))
    && (o.result.Err? <==> o.requests != [] && StepAt(steps, i + |o.requests| - 1).Err?)
    && (o.result.Err? ==> o.result.error == StepAt(steps, i + |o.requests| - 1).error)
  }

  predicate Describes(query: string, steps: seq<Result<Step, Error>>, i: nat, n: nat, o: Outcome) {
    Asks(query, steps, i, n, o.requests) && Yields(steps, i, o)
  }

  /** The pagination loop from request `i` on, of `n` possible requests. */
  function Collect(query: string, steps: seq<Result<Step, Error>>, i: nat, n: nat): (r: Outcome)
    requires i <= n
    ensures Describes(query, steps, i, n, r)
    decreases n - i
  {
    if i == n then Outcome([], Ok([]))
    else
      var req := Request(query, PageSize, 1 + PageSize * i);
      var s := StepAt(steps, i);
      if s.Err? then Outcome([req], Err(s.error))
      else if !s.value.more then
        assert Fetched(steps, i + 1, i + 1) == [];
        Outcome([req], Ok(s.value.entries))
      else
        var rest := Collect(query, steps, i + 1, n);
        AsksCons(query, steps, i, n, rest.requests);
        YieldsCons(steps, i, s.value.entries, req, rest);
        Prefixed([req], s.value.entries, rest)
  }

  /** A full page at `i` followed by the requests from `i + 1`. */
  lemma AsksCons(query: string, steps: seq<Result<Step, Error>>, i: nat, n: nat, rest: seq<Request>)
    requires i < n && Continues(steps, i) && Asks(query, steps, i + 1, n, rest)
    ensures Asks(query, steps, i, n, [Request(query, PageSize, 1 + PageSize * i)] + rest)
  {
    var all := [Request(query, PageSize, 1 + PageSize * i)] + rest;
    assert all[1..] == rest;
    RequestsCons(query, i, all);
    ContinuesCons(steps, i, |rest|);
  }

  /** The entries of a full page at `i` ahead of the result from `i + 1`. */
  lemma YieldsCons(steps: seq<Result<Step, Error>>, i: nat, entries: seq<Dict>, req: Request, rest: Outcome)
    requires Continues(steps, i) && entries == StepAt(steps, i).value.entries
    requires Yields(steps, i + 1, rest)
    ensures Yields(steps, i, Prefixed([req], entries, rest))
  {
    var m := |rest.requests|;
    var o := Prefixed([req], entries, rest);
    assert |o.requests| == 1 + m;
    if m > 0 {
      assert i + |o.requests| - 1 == (i + 1) + m - 1;
    }
    if rest.result.Ok? {
      assert Fetched(steps, i, i + 1 + m) == Contribution(steps, i) + Fetched(steps, i + 1, i + 1 + m);
    }
  }

  lemma RequestsCons(query: string, i: nat, all: seq<Request>)
    requires all != [] && all[0] == Request(query, PageSize, 1 + PageSize * i)
    requires forall k | 0 <= k < |all[1..]| :: all[1..][k] == Request(query, PageSize, 1 + PageSize * (i + 1 + k))
    ensures forall k | 0 <= k < |all| :: all[k] == Request(query, PageSize, 1 + PageSize * (i + k))
  {
    forall k | 0 < k < |all| ensures all[k] == Request(query, PageSize, 1 + PageSize * (i + k)) {
      assert all[k] == all[1..][k - 1];
    }
  }

  lemma ContinuesCons(steps: seq<Result<Step, Error>>, i: nat, m: nat)
    requires Continues(steps, i)
    requires forall k | i + 1 <= k < i + 1 + m - 1 :: Continues(steps, k)
    ensures forall k | i <= k < i + (1 + m) - 1 :: Continues(steps, k)
  {
  }

  /** `o` preceded by requests already made and entries already gathered. */
  function Prefixed(requests: seq<Request>, entries: seq<Dict>, o: Outcome): Outcome {
    Outcome(requests + o.requests, if o.result.Ok? then Ok(entries + o.result.value) else o.result)
  }

  /** A request answered by a full page is followed by the rest of the loop. */
  lemma CollectStep(query: string, steps: seq<Result<Step, Error>>, i: nat, n: nat)
    requires i < n && Continues(steps, i)
    ensures Collect(query, steps, i, n)
         == Prefixed([Request(query, PageSize, 1 + PageSize * i)], StepAt(steps, i).value.entries,
                     Collect(query, steps, i + 1, n))
  {
  }

  lemma PrefixedNothing(o: Outcome)
    ensures Prefixed([], [], o) == o
  {
    assert [] + o.requests == o.requests;
    if o.result.Ok? {
      assert [] + o.result.value == o.result.value;
    }
  }

  lemma PrefixedTwice(a: seq<Request>, x: seq<Dict>, b: seq<Request>, y: seq<Dict>, o: Outcome)
    ensures Prefixed(a, x, Prefixed(b, y, o)) == Prefixed(a + b, x + y, o)
  {
    assert a + (b + o.requests) == (a + b) + o.requests;
    if o.result.Ok? {
      assert x + (y + o.result.value) == (x + y) + o.result.value;
    }
  }

  /** `google_search(query, max_results)`. The loop keeps the requests made
      and the entries gathered; what is still to come is `Collect` from the
      current request on. */
  method GoogleSearch(query: string, maxResults: int, pages: seq<Page>) returns (requests: seq<Request>, r: Result<seq<Dict>, Error>)
    ensures Outcome(requests, r) == Collect(query, Steps(pages), 0, NumStarts(maxResults))
    ensures forall k | 0 <= k < |requests| :: requests[k].start == 1 + PageSize * k && requests[k].start <= maxResults
    ensures |requests| <= NumStarts(maxResults)
    ensures maxResults < 1 ==> requests == [] && r == Ok([])
  {
    var n := NumStarts(maxResults);
    requests := [];
    var results: seq<Dict> := [];
    var start := 1;
    var i: nat := 0;
    ghost var steps := Steps(pages);
    ghost var all := Collect(query, steps, 0, n);
    PrefixedNothing(all);
    while start <= maxResults
      invariant i <= n && start == 1 + PageSize * i
      invariant all == Prefixed(requests, results, Collect(query, steps, i, n))
      decreases n - i
    {
      StartInRange(maxResults, i);
      var req := Request(query, PageSize, start);
      var page := PageStep(PageAt(pages, i));
      StepAtPages(pages, i);
      if page.Err? {
        requests, r := requests + [req], Err(page.error);
        StartsBounded(query, steps, n, requests, maxResults);
        return;
      }
      var step := page.value;
      if !step.more {
        requests, r := requests + [req], Ok(results + step.entries);
        StartsBounded(query, steps, n, requests, maxResults);
        return;
      }
      ghost var rest := Collect(query, steps, i + 1, n);
      CollectStep(query, steps, i, n);
      PrefixedTwice(requests, results, [req], step.entries, rest);
      requests, results := requests + [req], results + step.entries;
      assert all == Prefixed(requests, results, rest);
      start := start + PageSize;
      i := i + 1;
    }
    StartInRange(maxResults, i);
    assert requests + [] == requests && results + [] == results;
    r := Ok(results);
    StartsBounded(query, steps, n, requests, maxResults);
  }

  /** The requests of a whole call start at offsets within `max_results`. */
  lemma StartsBounded(query: string, steps: seq<Result<Step, Error>>, n: nat, requests: seq<Request>, maxResults: int)
    requires n == NumStarts(maxResults)
    requires requests == Collect(query, steps, 0, n).requests
    ensures |requests| <= n
    ensures forall k | 0 <= k < |requests| :: requests[k].start == 1 + PageSize * k && requests[k].start <= maxResults
  {
    forall k | 0 <= k < |requests| ensures requests[k].start <= maxResults {
      StartInRange(maxResults, k);
    }
  }

  /** Pages of exactly ten object items. */
  predicate FullPage(page: Page) {
    && page.Body? && page.data.JObj? && "items" in page.data.fields
    && var items := page.data.fields["items"];
    && items.JList? && |items.items| == PageSize
    && forall k | 0 <= k < |items.items| :: items.items[k].JObj?
  }

  lemma FullPageStep(page: Page)
    requires FullPage(page)
    ensures PageStep(page).Ok? && PageStep(page).value.more && |PageStep(page).value.entries| == PageSize
  {
  }

  /** Each request asks for ten results, so `max_results = 15` with two full
      pages returns twenty entries, more than asked for. */
  lemma {:induction false} OverFetch(query: string, pages: seq<Page>)
    requires |pages| == 2 && FullPage(pages[0]) && FullPage(pages[1])
    ensures NumStarts(15) == 2
    ensures |Collect(query, Steps(pages), 0, NumStarts(15)).requests| == 2
    ensures Collect(query, Steps(pages), 0, NumStarts(15)).result.Ok?
    ensures |Collect(query, Steps(pages), 0, NumStarts(15)).result.value| == 20
  {
    FullPageStep(pages[0]);
    FullPageStep(pages[1]);
    var steps := Steps(pages);
    assert StepAt(steps, 0) == PageStep(pages[0]) && StepAt(steps, 1) == PageStep(pages[1]);
    var last := Collect(query, steps, 2, 2);
    assert last == Outcome([], Ok([]));
    var second := Collect(query, steps, 1, 2);
    assert |second.result.value| == 10;
  }
}

=== FILE: json.dfy ===
/** The Python values the modelled code handles: decoded JSON, dict lookups,
    truthiness, and the exceptions that type mismatches raise. */
module Json {
  import opened Wrappers

  /** A Python float, seen only through what the code asks of it: what `int()`
      gives for it (`None` for inf and nan, where `int()` raises) and whether it
      is non-zero (its truthiness). */
  datatype Float = Float(truncated: Option<int>, nonZero: bool)

  /** A Python value as produced by `json.loads`; `JNull` is `None`. */
  datatype JValue =
    | JNull
    | JBool(b: bool)
    | JInt(i: int)
    | JFloat(f: Float)
    | JStr(s: string)
    | JList(items: seq<JValue>)
    | JObj(fields: map<string, JValue>)

  /** A Python dict with string keys. */
  type Dict = map<string, JValue>

  /** The exceptions the modelled code raises or lets through. */
  datatype Error =
    | AttributeError                          // `.get` on a non-dict, `.lower`/`.strip` on a non-string
    | TypeError                               // iterating or indexing a value that does not support it
    | JsonDecodeError                         // `response.json()` on a body that is not JSON
    | DatabaseError                           // a statement the store rejects
    | TransportError                          // an HTTP request that gets no response
    | SalesQLMissingKey                       // SalesQLError: no API key configured
    | SalesQLStatus(status: int, detail: JValue)  // SalesQLError: unexpected HTTP status

  /** `d.get(key, default)` */
  function GetOr(d: Dict, key: string, default: JValue): (r: JValue)
    ensures key in d ==> r == d[key]
    ensures key !in d ==> r == default
  {
    if key in d then d[key] else default
  }

  /** `d.get(key)`: a missing key reads as `None`. */
  function Get(d: Dict, key: string): JValue {
    GetOr(d, key, JNull)
  }

  /** Python truthiness: `None`, `False`, zero, and empty strings, lists and dicts are falsy. */
  predicate Truthy(v: JValue) {
    match v
    case JNull => false
    case JBool(b) => b
    case JInt(i) => i != 0
    case JFloat(f) => f.nonZero
    case JStr(s) => s != []
    case JList(xs) => xs != []
    case JObj(m) => |m| != 0
  }

  /** The elements of a list, each required to be a dict. */
  function ListDicts(xs: seq<JValue>): (r: Result<seq<Dict>, Error>)
    ensures r.Ok? <==> forall k | 0 <= k < |xs| :: xs[k].JObj?
    ensures r.Ok? ==> |r.value| == |xs| && forall k | 0 <= k < |xs| :: xs[k] == JObj(r.value[k])
    ensures r.Err? ==> r.error == AttributeError
  {
    if xs == [] then Ok([])
    else if !xs[0].JObj? then Err(AttributeError)
    else match ListDicts(xs[1..])
      case Ok(rest) => Ok([xs[0].fields] + rest)
      case Err(e) => Err(e)
  }

  /** `for item in v: item.get(...)`: iterates `v` as Python does and fails
      as soon as an element is not a dict. A string iterates over one-character
      strings and a dict over its (string) keys, so only their empty forms get
      through; `None`, numbers and booleans are not iterable. */
  function DictItems(v: JValue): (r: Result<seq<Dict>, Error>)
    ensures v.JList? ==> r == ListDicts(v.items)
    ensures r.Ok? ==> v.JList? || !Truthy(v)
    ensures r.Ok? && !v.JList? ==> r.value == []
    ensures r.Ok? <==> (v.JList? && ListDicts(v.items).Ok?) || v == JStr("") || v == JObj(map[])
    ensures (v.JStr? || v.JObj?) && r.Err? ==> r.error == AttributeError
    ensures !v.JList? && !v.JStr? && !v.JObj? ==> r == Err(TypeError)
  {
    match v
    case JList(xs) => ListDicts(xs)
    case JStr(s) => if s == [] then Ok([]) else Err(AttributeError)
    case JObj(m) => if |m| == 0 then Ok([]) else Err(AttributeError)
    case _ => Err(TypeError)
  }
}

=== FILE: people_repo.dfy ===
/** Listing enriched people (`search_people`): a WHERE clause and parameter
    list assembled from whichever filters apply to the table's actual
    columns, an ORDER BY chosen from the columns present, and JSON decoding
    of the fetched rows. The column list, which the code reads from the
    schema, is an input; column names are taken to contain no `%`. */
module PeopleRepo {
  import opened Wrappers
  import opened Json
  import opened Sql
  import Text

  /** The columns free text is matched against, in order of preference. */
  const QTargetPreference: seq<string> := [
    "full_name", "first_name", "last_name", "title", "headline",
    "person_industry", "person_city", "person_state", "person_country",
    "org_name", "org_industry", "org_city", "org_state", "org_country",
    "linkedin_url", "org_website", "org_domain"]

  /** `a` keeps some of the elements of `b`, in `b`'s order. */
  predicate Subsequence(a: seq<string>, b: seq<string>)
    decreases |b|
  {
    if b == [] then a == []
    else (a != [] && a[0] == b[0] && Subsequence(a[1..], b[1..])) || Subsequence(a, b[1..])
  }

  /** The preferred columns the table has, in order of preference. */
  function Targets(preference: seq<string>, cols: seq<SqlText>): (r: seq<SqlText>)
    ensures forall k | 0 <= k < |r| :: r[k] in cols && r[k] in preference
    ensures forall c | c in preference && c in cols :: c in r
    ensures Subsequence(r, preference)
  {
    if preference == [] then []
    else
      var rest := Targets(preference[1..], cols);
      if preference[0] in cols then
        var k :| 0 <= k < |cols| && cols[k] == preference[0];
        var r := [cols[k]] + rest;
        assert r[1..] == rest;
        r
      else
        rest
  }

  /** `q_targets` */
  function QTargets(cols: seq<SqlText>): (r: seq<SqlText>)
    ensures forall k | 0 <= k < |r| :: r[k] in cols && r[k] in QTargetPreference
    ensures forall c | c in QTargetPreference && c in cols :: c in r
    ensures Subsequence(r, QTargetPreference)
  {
    Targets(QTargetPreference, cols)
  }

  /** `` p.`c` `` */
  function ColumnRef(c: SqlText): SqlText {
    "p.`" + c + "`"
  }

  /** `"(" + inner + ")"` */
  function Paren(inner: seq<Tok>): seq<Tok> {
    [Text("(")] + inner + [Text(")")]
  }

  lemma ParenFacts(inner: seq<Tok>)
    ensures Holes(Paren(inner)) == Holes(inner)
    ensures Render(Paren(inner)) == "(" + Render(inner) + ")"
  {
    HolesAppend([Text("(")], inner);
    HolesAppend([Text("(")] + inner, [Text(")")]);
    RenderAppend([Text("(")], inner);
    RenderAppend([Text("(")] + inner, [Text(")")]);
    assert [Text("(")][1..] == [] && [Text(")")][1..] == [];
  }

  const LikeKw: SqlText := " LIKE "
  const OrSep: SqlText := " OR "

  /** The text of the test of one column against the pattern. */
  function LikeText(c: string): string {
    "p.`" + c + "` LIKE %s"
  }

  function LikeTexts(cols: seq<string>): (r: seq<string>)
    ensures |r| == |cols| && forall k | 0 <= k < |cols| :: r[k] == LikeText(cols[k])
  {
    if cols == [] then [] else [LikeText(cols[0])] + LikeTexts(cols[1..])
  }

  function LikeTerm(c: SqlText): seq<Tok> {
    [Text(ColumnRef(c) + LikeKw), Hole]
  }

  lemma LikeTermFacts(c: SqlText)
    ensures Holes(LikeTerm(c)) == 1
    ensures Render(LikeTerm(c)) == LikeText(c)
  {
    var t := LikeTerm(c);
    assert t[1..] == [Hole] && [Hole][1..] == [];
    assert Render(t) == ("p.`" + c + "`" + " LIKE ") + ("%s" + "");
    assert ("p.`" + c + "`" + " LIKE ") + ("%s" + "") == "p.`" + c + "`" + (" LIKE " + "%s");
    assert " LIKE " + "%s" == "` LIKE %s"[1..];
  }

  function LikeTerms(cols: seq<SqlText>): (r: seq<seq<Tok>>)
    ensures |r| == |cols| && forall k | 0 <= k < |cols| :: r[k] == LikeTerm(cols[k])
    ensures SumHoles(r) == |cols|
    ensures RenderAll(r) == LikeTexts(cols)
  {
    if cols == [] then []
    else
      var rest := LikeTerms(cols[1..]);
      var r := [LikeTerm(cols[0])] + rest;
      LikeTermFacts(cols[0]);
      assert r[1..] == rest;
      r
  }

  /** `_build_like_clause(cols)`: one LIKE test per column, in the given
      order, joined by OR and parenthesised, with one placeholder each. */
  function BuildLikeClause(cols: seq<SqlText>): (r: seq<Tok>)
    ensures Holes(r) == |cols|
    ensures Render(r) == "(" + Text.Join(" OR ", LikeTexts(cols)) + ")"
  {
    var inner := JoinToks(OrSep, LikeTerms(cols));
    ParenFacts(inner);
    RenderJoin(OrSep, LikeTerms(cols));
    Paren(inner)
  }

  /** One `JSON_CONTAINS` test of `column` against a value. */
  function JsonContainsTerm(column: SqlText): seq<Tok> {
    [Text("JSON_CONTAINS(" + ColumnRef(column) + ", "), Hole, Text(", '$')")]
  }

  lemma JsonContainsTermHoles(column: SqlText)
    ensures Holes(JsonContainsTerm(column)) == 1
  {
    var t := JsonContainsTerm(column);
    assert t[2..][1..] == [] && Holes(t[2..]) == 0;
    assert t[1..][1..] == t[2..] && Holes(t[1..]) == 1;
  }

  function JsonParams(values: seq<string>): (r: seq<Param>)
    ensures |r| == |values| && forall k | 0 <= k < |values| :: r[k] == PJsonString(values[k])
  {
    if values == [] then [] else [PJsonString(values[0])] + JsonParams(values[1..])
  }

  function Repeat(n: nat, term: seq<Tok>): (r: seq<seq<Tok>>)
    ensures |r| == n && forall k | 0 <= k < n :: r[k] == term
    ensures SumHoles(r) == n * Holes(term)
  {
    if n == 0 then []
    else
      var r := [term] + Repeat(n - 1, term);
      assert r[1..] == Repeat(n - 1, term);
      r
  }

  /** `_json_contains_any(column, values)`: one test per value, OR-ed and
      parenthesised, and the values JSON-encoded as its parameters. */
  function JsonContainsAny(column: SqlText, values: seq<string>): (r: (seq<Tok>, seq<Param>))
    ensures Holes(r.0) == |r.1| == |values|
    ensures forall k | 0 <= k < |values| :: r.1[k] == PJsonString(values[k])
  {
    var inner := JoinToks(OrSep, Repeat(|values|, JsonContainsTerm(column)));
    JsonContainsTermHoles(column);
    ParenFacts(inner);
    (Paren(inner), JsonParams(values))
  }

  /** One WHERE condition and the parameters it consumes. */
  datatype Condition = Condition(clause: seq<Tok>, params: seq<Param>)

  predicate Consistent(c: Condition) {
    Holes(c.clause) == |c.params|
  }

  /** The conditions so far and their parameters. */
  datatype Where = Where(clauses: seq<seq<Tok>>, params: seq<Param>)

  predicate Agrees(w: Where) {
    SumHoles(w.clauses) == |w.params|
  }

  lemma {:induction false} SumHolesSnoc(parts: seq<seq<Tok>>, x: seq<Tok>)
    ensures SumHoles(parts + [x]) == SumHoles(parts) + Holes(x)
  {
    if parts == [] {
      assert parts + [x] == [x] && [x][1..] == [];
    } else {
      assert (parts + [x])[1..] == parts[1..] + [x];
      SumHolesSnoc(parts[1..], x);
    }
  }

  /** `where.append(clause); params.extend(p)` when the filter applies. */
  function AddIf(w: Where, active: bool, c: Condition): (r: Where)
    requires Agrees(w) && Consistent(c)
    ensures Agrees(r)
    ensures r.params == w.params + (if active then c.params else [])
    ensures !active ==> r == w
  {
    if active then
      SumHolesSnoc(w.clauses, c.clause);
      Where(w.clauses + [c.clause], w.params + c.params)
    else
      assert w.params + [] == w.params;
      w
  }

  const SearchIdEq: SqlText := "p.`search_id` = "

  function SearchIdCondition(id: int): (r: Condition)
    ensures Consistent(r)
  {
    var t := [Text(SearchIdEq), Hole];
    assert t[1..] == [Hole] && [Hole][1..] == [];
    Condition(t, [PInt(id)])
  }

  /** `f"%{q}%"` */
  function Like(q: string): Param {
    PStr("%" + q + "%")
  }

  function TextCondition(cols: seq<SqlText>, q: string): (r: Condition)
    ensures Consistent(r)
  {
    var targets := QTargets(cols);
    Condition(BuildLikeClause(targets), Copies(|targets|, Like(q)))
  }

  function ListCondition(column: SqlText, values: seq<string>): (r: Condition)
    ensures Consistent(r)
  {
    var (clause, p) := JsonContainsAny(column, values);
    Condition(clause, p)
  }

  /** Which filters apply. */
  predicate SearchIdActive(cols: seq<SqlText>, searchId: Option<int>) {
    searchId.Some? && "search_id" in cols
  }

  predicate TextActive(cols: seq<SqlText>, q: Option<string>) {
    q.Some? && q.value != [] && QTargets(cols) != []
  }

  predicate ListActive(cols: seq<SqlText>, column: string, values: seq<string>) {
    values != [] && column in cols
  }

  const TechColumn: SqlText := "tech_stack"
  const LocationsColumn: SqlText := "locations"
  const AndSep: SqlText := " AND "
  const Always: SqlText := "1=1"

  /** `where_sql` and `params`: `1=1` and then the search id, free-text,
      tech-stack and location conditions that apply, AND-ed; the parameters
      are those of the applied conditions, in the same order, one per
      placeholder. */
  function BuildWhere(cols: seq<SqlText>, searchId: Option<int>, q: Option<string>,
                      techStack: seq<string>, locations: seq<string>): (r: (seq<Tok>, seq<Param>))
    ensures Holes(r.0) == |r.1|
    ensures r.1 == (if SearchIdActive(cols, searchId) then [PInt(searchId.value)] else [])
                 + (if TextActive(cols, q) then Copies(|QTargets(cols)|, Like(q.value)) else [])
                 + (if ListActive(cols, "tech_stack", techStack) then JsonParams(techStack) else [])
                 + (if ListActive(cols, "locations", locations) then JsonParams(locations) else [])
    ensures (!SearchIdActive(cols, searchId) && !TextActive(cols, q) && !ListActive(cols, "tech_stack", techStack)
             && !ListActive(cols, "locations", locations)) ==> Render(r.0) == "1=1"
  {
    var w0 := Where([[Text(Always)]], []);
    assert [Text(Always)][1..] == [] && Holes([Text(Always)]) == 0;
    assert [[Text(Always)]][1..] == [] && SumHoles(w0.clauses) == 0;
    var w1 := AddIf(w0, SearchIdActive(cols, searchId), SearchIdCondition(searchId.GetOr(0)));
    var w2 := AddIf(w1, TextActive(cols, q), TextCondition(cols, q.GetOr("")));
    var w3 := AddIf(w2, ListActive(cols, "tech_stack", techStack), ListCondition(TechColumn, techStack));
    var w4 := AddIf(w3, ListActive(cols, "locations", locations), ListCondition(LocationsColumn, locations));
    var p1: seq<Param> := if SearchIdActive(cols, searchId) then [PInt(searchId.value)] else [];
    var p2 := if TextActive(cols, q) then Copies(|QTargets(cols)|, Like(q.value)) else [];
    var p3 := if ListActive(cols, "tech_stack", techStack) then JsonParams(techStack) else [];
    var p4 := if ListActive(cols, "locations", locations) then JsonParams(locations) else [];
    assert w1.params == p1 by { assert [] + p1 == p1; }
    assert w2.params == p1 + p2;
    assert w3.params == p1 + p2 + p3;
    assert w4.params == p1 + p2 + p3 + p4;
    (JoinToks(AndSep, w4.clauses), w4.params)
  }

  /** The ORDER BY expression. */
  datatype Order = ByColumn(column: SqlText, descending: bool) | Unordered

  /** `full_name` ascending when sorting by name and the column exists,
      otherwise newest first by `created_at`, otherwise by `id` descending,
      otherwise the constant `1`. */
  function OrderBy(cols: seq<SqlText>, sort: string): (r: Order)
    ensures r.ByColumn? ==> r.column in cols
    ensures r == Unordered <==> "created_at" !in cols && "id" !in cols && !(sort == "name" && "full_name" in cols)
    ensures r.ByColumn? && !r.descending <==> sort == "name" && "full_name" in cols
    ensures r.ByColumn? && !r.descending ==> r.column == "full_name"
    ensures r.ByColumn? && r.descending ==> r.column == (if "created_at" in cols then "created_at" else "id")
  {
    if sort == "name" && "full_name" in cols then ByColumn("full_name", false)
    else if "created_at" in cols then ByColumn("created_at", true)
    else if "id" in cols then ByColumn("id", true)
    else Unordered
  }

  function OrderText(o: Order): (r: SqlText)
    ensures o.Unordered? <==> r == "1"
  {
    match o
    case ByColumn(c, desc) => ColumnRef(c) + (if desc then " DESC" else " ASC")
    case Unordered => "1"
  }

  /** `select_sql` */
  function SelectList(cols: seq<SqlText>): (r: SqlText)
    ensures r == Text.Join(", ", ColumnRefs(cols))
  {
    if cols == [] then ""
    else if |cols| == 1 then ColumnRef(cols[0])
    else
      assert ColumnRefs(cols)[1..] == ColumnRefs(cols[1..]);
      ColumnRef(cols[0]) + ", " + SelectList(cols[1..])
  }

  /** `[f"p.`{c}`" for c in cols]` */
  function ColumnRefs(cols: seq<SqlText>): (r: seq<string>)
    ensures |r| == |cols| && forall k | 0 <= k < |cols| :: r[k] == ColumnRef(cols[k])
  {
    if cols == [] then [] else [ColumnRef(cols[0])] + ColumnRefs(cols[1..])
  }

  /** The ORDER BY text for each case of the sort choice. */
  lemma OrderSql(cols: seq<SqlText>, sort: string)
    ensures OrderText(OrderBy(cols, sort)) ==
      if sort == "name" && "full_name" in cols then "p.`full_name` ASC"
      else if "created_at" in cols then "p.`created_at` DESC"
      else if "id" in cols then "p.`id` DESC"
      else "1"
  {
    var o := OrderBy(cols, sort);
    if sort == "name" && "full_name" in cols {
      assert o == ByColumn("full_name", false);
      NameAscText();
    } else if "created_at" in cols {
      assert o == ByColumn("created_at", true);
      CreatedDescText();
    } else if "id" in cols {
      assert o == ByColumn("id", true);
      IdDescText();
    }
  }

  /** The text of each column ordering, spelled out. */
  lemma NameAscText()
    ensures OrderText(ByColumn("full_name", false)) == "p.`full_name` ASC"
  {
  }

  lemma CreatedDescText()
    ensures OrderText(ByColumn("created_at", true)) == "p.`created_at` DESC"
  {
  }

  lemma IdDescText()
    ensures OrderText(ByColumn("id", true)) == "p.`id` DESC"
  {
  }

  const CountHead: SqlText := "SELECT COUNT(*) FROM "
  const TableAlias: SqlText := "`salesql_enriched_people` p"
  const WhereKw: SqlText := " WHERE "
  const OrderKw: SqlText := " ORDER BY "
  const LimitKw: SqlText := " LIMIT "
  const OffsetKw: SqlText := " OFFSET "

  /** The two statements `search_people` executes. */
  datatype PeopleQuery = PeopleQuery(count: Statement, data: Statement)

  /** Fixed text, a fragment, then fixed text around two placeholders. */
  lemma FramedHoles(head: SqlText, mid: seq<Tok>, a: SqlText, b: SqlText)
    ensures Holes([Text(head)] + mid) == Holes(mid)
    ensures Holes([Text(head)] + mid + [Text(a), Hole, Text(b), Hole]) == Holes(mid) + 2
  {
    var tail: seq<Tok> := [Text(a), Hole, Text(b), Hole];
    assert ([Text(head)] + mid)[1..] == mid;
    HolesAppend([Text(head)] + mid, tail);
    assert tail[3..][1..] == [] && Holes(tail[3..]) == 1;
    assert tail[2..][1..] == tail[3..] && Holes(tail[2..]) == 1;
    assert tail[1..][1..] == tail[2..] && Holes(tail[1..]) == 2;
    assert Holes(tail) == 2;
  }

  /** `count_sql` */
  function CountSql(where: seq<Tok>): (r: seq<Tok>)
    ensures Holes(r) == Holes(where)
  {
    FramedHoles(CountHead + TableAlias + WhereKw, where, OrderKw, OffsetKw);
    [Text(CountHead + TableAlias + WhereKw)] + where
  }

  /** `data_sql`: the selected columns, the filter, the order and two
      placeholders for `LIMIT` and `OFFSET`. */
  function DataSql(cols: seq<SqlText>, where: seq<Tok>, order: Order): (r: seq<Tok>)
    ensures Holes(r) == Holes(where) + 2
  {
    var head: SqlText := "SELECT " + SelectList(cols) + " FROM " + TableAlias + WhereKw;
    var tail: SqlText := OrderKw + OrderText(order) + LimitKw;
    FramedHoles(head, where, tail, OffsetKw);
    [Text(head)] + where + [Text(tail), Hole, Text(OffsetKw), Hole]
  }

  /** `search_people` up to execution: the count statement with the filter
      parameters and the page statement with `limit` and `offset` after
      them, each with as many placeholders as parameters. */
  function SearchPeople(cols: seq<SqlText>, searchId: Option<int>, q: Option<string>,
                        techStack: seq<string>, locations: seq<string>, sort: string,
                        limit: int, offset: int): (r: PeopleQuery)
    ensures Executable(r.count) && Executable(r.data)
    ensures r.count.params == BuildWhere(cols, searchId, q, techStack, locations).1
    ensures r.data.params == r.count.params + [PInt(limit), PInt(offset)]
  {
    var (where, params) := BuildWhere(cols, searchId, q, techStack, locations);
    var countSql := CountSql(where);
    var dataSql := DataSql(cols, where, OrderBy(cols, sort));
    RenderCount(countSql);
    RenderCount(dataSql);
    PeopleQuery(Statement(countSql, params), Statement(dataSql, params + [PInt(limit), PInt(offset)]))
  }

  /** `_parse_json`: `None` stays `None`; text and bytes are replaced by what
      they decode to when they are valid JSON and kept otherwise; anything
      else makes `json.loads` raise and is kept. */
  function ParseJson(cell: Cell, loads: string -> Option<JValue>, loadsBytes: seq<bv8> -> Option<JValue>): (r: Cell)
    ensures cell.CText? && loads(cell.s).Some? ==> r == FromJson(loads(cell.s).value)
    ensures cell.CBytes? && loadsBytes(cell.b).Some? ==> r == FromJson(loadsBytes(cell.b).value)
    ensures !(cell.CText? && loads(cell.s).Some?) && !(cell.CBytes? && loadsBytes(cell.b).Some?) ==> r == cell
  {
    match cell
    case CText(s) => if loads(s).Some? then FromJson(loads(s).value) else cell
    case CBytes(b) => if loadsBytes(b).Some? then FromJson(loadsBytes(b).value) else cell
    case _ => cell
  }

  /** A value that decoded to an object, a list or a number is left alone by
      a second decoding; only a decoded string is text again. */
  lemma ParseJsonSettles(cell: Cell, loads: string -> Option<JValue>, loadsBytes: seq<bv8> -> Option<JValue>)
    requires !ParseJson(cell, loads, loadsBytes).CText?
    ensures ParseJson(ParseJson(cell, loads, loadsBytes), loads, loadsBytes) == ParseJson(cell, loads, loadsBytes)
  {
  }

  /** The post-fetch loop: each of the three JSON columns the row has is
      decoded; every other column and the set of columns stay. */
  function DecodeRow(row: Row, loads: string -> Option<JValue>, loadsBytes: seq<bv8> -> Option<JValue>): (r: Row)
    ensures r.Keys == row.Keys
    ensures forall k | k in row && k !in JsonColumns :: r[k] == row[k]
    ensures forall k | k in row && k in JsonColumns :: r[k] == ParseJson(row[k], loads, loadsBytes)
  {
    map k | k in row :: if k in JsonColumns then ParseJson(row[k], loads, loadsBytes) else row[k]
  }
}

=== FILE: people_search.dfy ===
/** Keyword search over enriched people (`search_people_by_keyword`): the
    keyword and location are normalised, the statement matches the keyword
    against four person columns and the technologies parsed for the search
    that found the person, optionally filters by location, and JSON columns
    of the fetched rows are decoded. The statement's meaning is modelled by
    `Matches`, the way MySQL evaluates its WHERE clause. */
module PeopleSearch {
  import opened Wrappers
  import opened Json
  import opened Sql
  import Text
  import PeopleRepo

  /** `_norm`: a string trimmed and lower-cased; `None` for anything that is
      not a string. */
  function Norm(s: Option<string>): (r: Option<string>)
    ensures r.Some? <==> s.Some?
    ensures r.Some? ==> Text.IsStripped(r.value) && NoUpper(r.value)
    ensures r.Some? ==> |r.value| <= |s.value|
  {
    match s
    case None => None
    case Some(t) =>
      var st := Text.Strip(t);
      LowerKeepsStripped(st);
      Some(Text.Lower(st))
  }

  predicate NoUpper(s: string) {
    forall k | 0 <= k < |s| :: !('A' <= s[k] <= 'Z')
  }

  lemma LowerKeepsStripped(s: string)
    requires Text.IsStripped(s)
    ensures Text.IsStripped(Text.Lower(s)) && NoUpper(Text.Lower(s))
  {
  }

  /** Lower-casing a string without capitals changes nothing. */
  lemma LowerNoUpper(s: string)
    requires NoUpper(s)
    ensures Text.Lower(s) == s
  {
  }

  /** `_norm` trims the surrounding whitespace and lower-cases what is left. */
  lemma NormPadded(pre: string, t: string, post: string)
    requires Text.AllSpace(pre) && Text.AllSpace(post) && Text.IsStripped(t)
    ensures Norm(Some(pre + t + post)) == Some(Text.Lower(t))
  {
    Text.StripPadded(pre, t, post);
  }

  /** Normalising twice is normalising once. */
  lemma NormIdempotent(s: Option<string>)
    ensures Norm(Norm(s)) == Norm(s)
  {
    if s.Some? {
      var n := Norm(s).value;
      Text.StripOfStripped(n);
      LowerNoUpper(n);
    }
  }

  /** SQL `LIKE`: `%` matches any run of characters, `_` any one character,
      a backslash makes the next character literal. */
  function LikeMatch(s: string, p: string): (r: bool)
    ensures Plain(p) ==> (r <==> s == p)
    decreases |s| + |p|
  {
    if p == [] then s == []
    else if p[0] == '%' then LikeMatch(s, p[1..]) || (s != [] && LikeMatch(s[1..], p))
    else if p[0] == '_' then s != [] && LikeMatch(s[1..], p[1..])
    else if p[0] == '\\' && |p| >= 2 then s != [] && s[0] == p[1] && LikeMatch(s[1..], p[2..])
    else s != [] && s[0] == p[0] && LikeMatch(s[1..], p[1..])
  }

  /** Text `LIKE` reads literally. */
  predicate Plain(p: string) {
    '%' !in p && '_' !in p && '\\' !in p
  }

  lemma {:induction false} PercentMatchesAll(s: string)
    ensures LikeMatch(s, "%")
  {
    if s != [] {
      PercentMatchesAll(s[1..]);
    }
  }

  /** `p%` matches exactly the strings `p` begins. */
  lemma {:induction false} PrefixLike(s: string, p: string)
    requires Plain(p)
    ensures LikeMatch(s, p + "%") <==> p <= s
  {
    if p == [] {
      assert p + "%" == "%";
      PercentMatchesAll(s);
    } else {
      assert (p + "%")[1..] == p[1..] + "%";
      if s != [] {
        PrefixLike(s[1..], p[1..]);
        if s[0] == p[0] && p[1..] <= s[1..] {
          assert p == [p[0]] + p[1..] && s == [s[0]] + s[1..];
        }
      }
    }
  }

  /** `%p%` matches exactly the strings `p` occurs in. */
  lemma {:induction false} ContainsLike(s: string, p: string)
    requires Plain(p)
    ensures LikeMatch(s, "%" + p + "%") <==> Text.Contains(s, p)
    decreases |s|
  {
    assert ("%" + p + "%")[1..] == p + "%";
    PrefixLike(s, p);
    if s != [] {
      ContainsLike(s[1..], p);
    }
  }

  /** `LOWER(COALESCE(x, ''))` */
  function Lowered(x: Option<string>): string {
    Text.Lower(x.GetOr(""))
  }

  /** A person row with the technologies and locations parsed for its
      search; `None` where a column is NULL or an array element is not a
      string. */
  datatype Candidate = Candidate(
    title: Option<string>, headline: Option<string>,
    personIndustry: Option<string>, orgIndustry: Option<string>,
    personCity: Option<string>, personState: Option<string>, personCountry: Option<string>,
    orgCity: Option<string>, orgState: Option<string>, orgCountry: Option<string>,
    techs: seq<Option<string>>, locs: seq<Option<string>>)

  /** A `LEFT JOIN` with `JSON_TABLE` yields one row per array element, or a
      single NULL row when there are none. */
  function Expanded(xs: seq<Option<string>>): (r: seq<Option<string>>)
    ensures r != []
    ensures forall x | x in xs :: x in r
    ensures forall x | x in r :: x in xs || x == None
  {
    if xs == [] then [None] else xs
  }

  /** The keyword test on one joined row. */
  predicate TextTest(c: Candidate, tech: Option<string>, pattern: string) {
    || LikeMatch(Lowered(c.title), pattern)
    || LikeMatch(Lowered(c.headline), pattern)
    || LikeMatch(Lowered(c.personIndustry), pattern)
    || LikeMatch(Lowered(c.orgIndustry), pattern)
    || LikeMatch(Lowered(tech), pattern)
  }

  /** The location test on one joined row. */
  predicate LocationTest(c: Candidate, loc: Option<string>, locn: string) {
    || Lowered(c.personCity) == locn
    || Lowered(c.personState) == locn
    || Lowered(c.personCountry) == locn
    || Lowered(c.orgCity) == locn
    || Lowered(c.orgState) == locn
    || Lowered(c.orgCountry) == locn
    || Lowered(loc) == locn
  }

  /** Some joined row passes the WHERE clause: the cross join of the two
      expansions, each test on its own expansion. */
  predicate JoinedRow(c: Candidate, pattern: string, locn: Option<string>) {
    exists i, j | 0 <= i < |Expanded(c.techs)| && 0 <= j < |Expanded(c.locs)| ::
      TextTest(c, Expanded(c.techs)[i], pattern)
      && (locn.None? || LocationTest(c, Expanded(c.locs)[j], locn.value))
  }

  /** Some row of the technology expansion passes the keyword test. */
  predicate KeywordRow(c: Candidate, pattern: string) {
    exists i | 0 <= i < |Expanded(c.techs)| :: TextTest(c, Expanded(c.techs)[i], pattern)
  }

  /** Some row of the location expansion passes the location test. */
  predicate LocationRow(c: Candidate, locn: string) {
    exists j | 0 <= j < |Expanded(c.locs)| :: LocationTest(c, Expanded(c.locs)[j], locn)
  }

  /** The statement returns the candidate (once, by `DISTINCT`) when some
      joined row passes the WHERE clause. The two expansions are joined
      independently, so the keyword and the location may be met by different
      joined rows. */
  predicate Matches(c: Candidate, pattern: string, locn: Option<string>): (r: bool)
    ensures r <==> KeywordRow(c, pattern) && (locn.None? || LocationRow(c, locn.value))
  {
    JoinSplits(c, pattern, locn);
    JoinedRow(c, pattern, locn)
  }

  /** A row of the cross join passes both tests exactly when some technology
      row passes the keyword test and some location row the location test. */
  lemma JoinSplits(c: Candidate, pattern: string, locn: Option<string>)
    ensures JoinedRow(c, pattern, locn) <==> KeywordRow(c, pattern) && (locn.None? || LocationRow(c, locn.value))
  {
    var ts, ls := Expanded(c.techs), Expanded(c.locs);
    if KeywordRow(c, pattern) && (locn.None? || LocationRow(c, locn.value)) {
      var i :| 0 <= i < |ts| && TextTest(c, ts[i], pattern);
      if locn.None? {
        assert ls[0] in ls && TextTest(c, ts[i], pattern);
      } else {
        var j :| 0 <= j < |ls| && LocationTest(c, ls[j], locn.value);
        assert TextTest(c, ts[i], pattern) && (locn.None? || LocationTest(c, ls[j], locn.value));
      }
    }
  }

  /** The keyword occurs in one of the four lowered columns or in one of the
      parsed technologies. */
  predicate KeywordIn(c: Candidate, qn: string) {
    || Text.Contains(Lowered(c.title), qn)
    || Text.Contains(Lowered(c.headline), qn)
    || Text.Contains(Lowered(c.personIndustry), qn)
    || Text.Contains(Lowered(c.orgIndustry), qn)
    || exists i | 0 <= i < |c.techs| :: c.techs[i].Some? && Text.Contains(Text.Lower(c.techs[i].value), qn)
  }

  /** The location equals one of the six lowered place columns or one of the
      parsed locations. */
  predicate LocationIn(c: Candidate, locn: string) {
    || Lowered(c.personCity) == locn || Lowered(c.personState) == locn
    || Lowered(c.personCountry) == locn || Lowered(c.orgCity) == locn
    || Lowered(c.orgState) == locn || Lowered(c.orgCountry) == locn
    || exists j | 0 <= j < |c.locs| :: Lowered(c.locs[j]) == locn
  }

  /** A one-row test applies to some expanded element exactly when it
      applies to the row alone or to some element of the array. */
  lemma TextTestSome(c: Candidate, qn: string)
    requires Plain(qn) && qn != []
    ensures (exists i | 0 <= i < |Expanded(c.techs)| :: TextTest(c, Expanded(c.techs)[i], "%" + qn + "%"))
            <==> KeywordIn(c, qn)
  {
    var pattern := "%" + qn + "%";
    var e := Expanded(c.techs);
    ContainsLike(Lowered(c.title), qn);
    ContainsLike(Lowered(c.headline), qn);
    ContainsLike(Lowered(c.personIndustry), qn);
    ContainsLike(Lowered(c.orgIndustry), qn);
    forall i | 0 <= i < |e| ensures LikeMatch(Lowered(e[i]), pattern) <==> Text.Contains(Lowered(e[i]), qn) {
      ContainsLike(Lowered(e[i]), qn);
    }
    assert !Text.Contains("", qn);
    if exists i | 0 <= i < |c.techs| :: c.techs[i].Some? && Text.Contains(Text.Lower(c.techs[i].value), qn) {
      var i :| 0 <= i < |c.techs| && c.techs[i].Some? && Text.Contains(Text.Lower(c.techs[i].value), qn);
      assert e[i] == c.techs[i];
    }
    if exists i | 0 <= i < |e| :: Text.Contains(Lowered(e[i]), qn) {
      var i :| 0 <= i < |e| && Text.Contains(Lowered(e[i]), qn);
      if c.techs != [] {
        assert c.techs[i] == e[i];
      }
    }
  }

  lemma LocationTestSome(c: Candidate, locn: string)
    requires locn != []
    ensures (exists j | 0 <= j < |Expanded(c.locs)| :: LocationTest(c, Expanded(c.locs)[j], locn))
            <==> LocationIn(c, locn)
  {
    var e := Expanded(c.locs);
    if exists j | 0 <= j < |c.locs| :: Lowered(c.locs[j]) == locn {
      var j :| 0 <= j < |c.locs| && Lowered(c.locs[j]) == locn;
      assert e[j] == c.locs[j];
    }
    if exists j | 0 <= j < |e| :: Lowered(e[j]) == locn {
      var j :| 0 <= j < |e| && Lowered(e[j]) == locn;
      if c.locs != [] {
        assert c.locs[j] == e[j];
      }
    }
    assert LocationTest(c, e[0], locn) <== LocationIn(c, locn) && !(exists j | 0 <= j < |c.locs| :: Lowered(c.locs[j]) == locn);
  }

  /** The statement's condition read in words: a candidate is returned
      exactly when the keyword occurs in one of its four columns or parsed
      technologies and, with a location, that location is one of its places,
      for a keyword without `LIKE` wildcards and a non-empty location. */
  lemma {:induction false} MatchesIff(c: Candidate, qn: string, locn: Option<string>)
    requires Plain(qn) && qn != []
    requires locn.Some? ==> locn.value != []
    ensures Matches(c, "%" + qn + "%", locn) <==> KeywordIn(c, qn) && (locn.None? || LocationIn(c, locn.value))
  {
    var pattern := "%" + qn + "%";
    var et := Expanded(c.techs);
    var el := Expanded(c.locs);
    TextTestSome(c, qn);
    if locn.Some? {
      LocationTestSome(c, locn.value);
    }
    if Matches(c, pattern, locn) {
      var i, j :| 0 <= i < |et| && 0 <= j < |el| && TextTest(c, et[i], pattern)
                  && (locn.None? || LocationTest(c, el[j], locn.value));
      assert exists i' | 0 <= i' < |et| :: TextTest(c, et[i'], pattern);
      if locn.Some? {
        assert exists j' | 0 <= j' < |el| :: LocationTest(c, el[j'], locn.value);
      }
    }
    if KeywordIn(c, qn) && (locn.None? || LocationIn(c, locn.value)) {
      var i :| 0 <= i < |et| && TextTest(c, et[i], pattern);
      var j: int := 0;
      if locn.Some? {
        j :| 0 <= j < |el| && LocationTest(c, el[j], locn.value);
      }
      assert 0 <= i < |Expanded(c.techs)| && 0 <= j < |Expanded(c.locs)|;
      var tech, loc := Expanded(c.techs)[i], Expanded(c.locs)[j];
      assert TextTest(c, Expanded(c.techs)[i], pattern)
             && (locn.None? || LocationTest(c, Expanded(c.locs)[j], locn.value));
      assert Matches(c, pattern, locn);
    }
  }

  /** The keyword is not escaped, so `_` in it matches any character: the
      keyword `a_c` selects a title `abc` in which it does not occur. */
  lemma WildcardKeyword()
    ensures LikeMatch("abc", "%a_c%") && !Text.Contains("abc", "a_c")
  {
    assert "%a_c%"[1..] == "a_c%" && "a_c%"[1..] == "_c%" && "_c%"[1..] == "c%" && "c%"[1..] == "%";
    assert "abc"[1..] == "bc" && "bc"[1..] == "c" && "c"[1..] == "";
    assert LikeMatch("", "%"[1..]);
    assert LikeMatch("c", "c%");
    assert LikeMatch("bc", "_c%");
    assert LikeMatch("abc", "a_c%");
    assert !("a_c" <= "abc") by { assert "abc"[1] != "a_c"[1]; }
    assert !Text.Contains("bc", "a_c") by {
      assert !Text.Contains("c", "a_c") by { assert !Text.Contains("", "a_c"); }
    }
  }

  /** The number of keyword and location tests. */
  const KeywordTests: nat := 5
  const LocationTests: nat := 7

  const Prefix1: SqlText := "SELECT DISTINCT sep.* "
  const Prefix2: SqlText := "FROM salesql_enriched_people AS sep "
  const Prefix3: SqlText := "LEFT JOIN search_query_queue AS s "
  const Prefix4: SqlText := "ON s.id = sep.search_id "
  const Prefix5: SqlText := "LEFT JOIN JSON_TABLE(CAST("
  const Prefix6: SqlText := "s.parsed_technologies_json AS JSON), "
  const Prefix7: SqlText := "'$[*]' COLUMNS (tech VARCHAR(128) "
  const Prefix8: SqlText := "PATH '$')) jt ON TRUE "
  const Prefix9: SqlText := "s.parsed_locations_json AS JSON), "
  const Prefix10: SqlText := "'$[*]' COLUMNS (loc VARCHAR(128) "
  const Prefix11: SqlText := "PATH '$')) jl ON TRUE WHERE "

  /** Everything before the keyword tests. */
  const Head: seq<Tok> := [Text(Prefix1), Text(Prefix2), Text(Prefix3), Text(Prefix4),
                           Text(Prefix5), Text(Prefix6), Text(Prefix7), Text(Prefix8),
                           Text(Prefix5), Text(Prefix9), Text(Prefix10), Text(Prefix11)]

  /** `LOWER(COALESCE(column,''))` */
  function LoweredColumn(column: SqlText): SqlText {
    "LOWER(COALESCE(" + column + ",''))"
  }

  const KeywordColumns: seq<SqlText> := ["sep.title", "sep.headline", "sep.person_industry", "sep.org_industry", "jt.tech"]
  const LocationColumns: seq<SqlText> := ["sep.person_city", "sep.person_state", "sep.person_country",
                                          "sep.org_city", "sep.org_state", "sep.org_country", "jl.loc"]

  /** `LOWER(COALESCE(c,'')) <op> %s` for each column, joined by `OR`. */
  function Tests(columns: seq<SqlText>, op: SqlText): (r: seq<seq<Tok>>)
    ensures |r| == |columns|
    ensures SumHoles(r) == |columns|
  {
    if columns == [] then []
    else
      var t := [Text(LoweredColumn(columns[0]) + op), Hole];
      assert t[1..] == [Hole] && [Hole][1..] == [];
      assert Holes(t) == 1;
      var r := [t] + Tests(columns[1..], op);
      assert r[1..] == Tests(columns[1..], op);
      r
  }

  const LikeOp: SqlText := " LIKE "
  const EqOp: SqlText := " = "
  const OrSep: SqlText := " OR "
  const AndKw: SqlText := " AND "
  const Tail: SqlText := " ORDER BY sep.id DESC LIMIT "
  const OffsetKw: SqlText := " OFFSET "

  /** The keyword tests, OR-ed and parenthesised. */
  function KeywordBlock(): (r: seq<Tok>)
    ensures Holes(r) == KeywordTests
  {
    PeopleRepo.ParenFacts(JoinToks(OrSep, Tests(KeywordColumns, LikeOp)));
    PeopleRepo.Paren(JoinToks(OrSep, Tests(KeywordColumns, LikeOp)))
  }

  /** `location_filter_sql`: nothing, or the location tests after `AND`. */
  function LocationBlock(hasLocation: bool): (r: seq<Tok>)
    ensures Holes(r) == if hasLocation then LocationTests else 0
  {
    if hasLocation then
      var tests := PeopleRepo.Paren(JoinToks(OrSep, Tests(LocationColumns, EqOp)));
      PeopleRepo.ParenFacts(JoinToks(OrSep, Tests(LocationColumns, EqOp)));
      HolesAppend([Text(AndKw)], tests);
      assert [Text(AndKw)][1..] == [];
      [Text(AndKw)] + tests
    else []
  }

  /** The order and two placeholders for `LIMIT` and `OFFSET`. */
  function TailBlock(): (r: seq<Tok>)
    ensures Holes(r) == 2
  {
    var tail: seq<Tok> := [Text(Tail), Hole, Text(OffsetKw), Hole];
    assert tail[3..][1..] == [] && Holes(tail[3..]) == 1;
    assert tail[2..][1..] == tail[3..] && Holes(tail[2..]) == 1;
    assert tail[1..][1..] == tail[2..] && Holes(tail[1..]) == 2;
    tail
  }

  /** The statement text: the keyword tests, the location tests when a
      location is given, the order and two placeholders for `LIMIT` and
      `OFFSET`. */
  function KeywordSql(hasLocation: bool): (r: seq<Tok>)
    ensures Holes(r) == KeywordTests + (if hasLocation then LocationTests else 0) + 2
  {
    NoHoles(Head);
    HolesAppend(Head, KeywordBlock());
    HolesAppend(Head + KeywordBlock(), LocationBlock(hasLocation));
    HolesAppend(Head + KeywordBlock() + LocationBlock(hasLocation), TailBlock());
    Head + KeywordBlock() + LocationBlock(hasLocation) + TailBlock()
  }

  /** `params`: `%qn%` for each keyword test, `locn` for each location
      test when there is a location, then `limit` and `offset`. */
  function KeywordParams(qn: string, locn: Option<string>, limit: int, offset: int): (r: seq<Param>)
    ensures |r| == KeywordTests + (if locn.Some? then LocationTests else 0) + 2
    ensures forall k | 0 <= k < KeywordTests :: r[k] == PStr("%" + qn + "%")
    ensures locn.Some? ==> forall k | KeywordTests <= k < KeywordTests + LocationTests :: r[k] == PStr(locn.value)
    ensures r[|r| - 2] == PInt(limit) && r[|r| - 1] == PInt(offset)
  {
    var locParams := if locn.Some? then Copies(LocationTests, PStr(locn.value)) else [];
    Copies(KeywordTests, PStr("%" + qn + "%")) + locParams + [PInt(limit), PInt(offset)]
  }

  /** `search_people_by_keyword` up to execution: no statement at all for a
      keyword that normalises to nothing; otherwise a statement with one
      parameter per placeholder, 7 without a location and 14 with one. */
  function KeywordSearch(q: Option<string>, location: Option<string>, limit: int, offset: int): (r: Option<Statement>)
    ensures r.None? <==> Norm(q).None? || Norm(q).value == []
    ensures r.Some? ==> Executable(r.value)
    ensures r.Some? ==> |r.value.params| == if location.Some? then 14 else 7
    ensures r.Some? ==> r.value.params == KeywordParams(Norm(q).value, Norm(location), limit, offset)
  {
    var qn := Norm(q);
    if qn.None? || qn.value == [] then None
    else
      var sql := KeywordSql(Norm(location).Some?);
      RenderCount(sql);
      Some(Statement(sql, KeywordParams(qn.value, Norm(location), limit, offset)))
  }

  /** For a keyword that normalises to wildcard-free text, the statement
      runs with that keyword's `%qn%` pattern, and the pattern selects a
      person exactly when the keyword occurs in their data and, when a
      location is given, the location matches. */
  lemma KeywordSearchMeans(q: Option<string>, location: Option<string>, limit: int, offset: int, c: Candidate)
    requires Norm(q).Some? && Norm(q).value != [] && Plain(Norm(q).value)
    requires location.Some? ==> Norm(location).value != []
    ensures var st := KeywordSearch(q, location, limit, offset);
      st.Some? && st.value.params[0] == PStr("%" + Norm(q).value + "%")
    ensures Matches(c, "%" + Norm(q).value + "%", Norm(location))
            <==> KeywordIn(c, Norm(q).value) && (location.None? || LocationIn(c, Norm(location).value))
  {
    MatchesIff(c, Norm(q).value, Norm(location));
  }

  /** The text of a cell to decode: a string, or bytes that are valid UTF-8. */
  function TextOf(cell: Cell, utf8: seq<bv8> -> Option<string>): Option<string> {
    match cell
    case CText(s) => Some(s)
    case CBytes(b) => utf8(b)
    case _ => None
  }

  /** One JSON column after fetching: bytes are decoded to text, text that
      is valid JSON becomes its value; otherwise the column keeps the value
      it was fetched with, bytes included. */
  function DecodeCell(cell: Cell, utf8: seq<bv8> -> Option<string>, loads: string -> Option<JValue>): (r: Cell)
    ensures TextOf(cell, utf8).Some? && loads(TextOf(cell, utf8).value).Some?
            ==> r == FromJson(loads(TextOf(cell, utf8).value).value)
    ensures TextOf(cell, utf8).None? || loads(TextOf(cell, utf8).value).None? ==> r == cell
    ensures !cell.CText? && !cell.CBytes? ==> r == cell
  {
    var t := TextOf(cell, utf8);
    if t.Some? && loads(t.value).Some? then FromJson(loads(t.value).value) else cell
  }

  /** The keyword search decodes a JSON column as the people listing does,
      when decoding bytes as JSON is decoding them as UTF-8 text first. */
  lemma DecodeCellAgrees(cell: Cell, utf8: seq<bv8> -> Option<string>, loads: string -> Option<JValue>,
                         loadsBytes: seq<bv8> -> Option<JValue>)
    requires forall b :: loadsBytes(b) == (if utf8(b).Some? then loads(utf8(b).value) else None)
    ensures DecodeCell(cell, utf8, loads) == PeopleRepo.ParseJson(cell, loads, loadsBytes)
  {
  }

  /** The post-fetch loop over one row: the three JSON columns it has are
      decoded; every other column and the set of columns stay. */
  function DecodeRow(row: Row, utf8: seq<bv8> -> Option<string>, loads: string -> Option<JValue>): (r: Row)
    ensures r.Keys == row.Keys
    ensures forall k | k in row && k !in JsonColumns :: r[k] == row[k]
    ensures forall k | k in row && k in JsonColumns :: r[k] == DecodeCell(row[k], utf8, loads)
  {
    map k | k in row :: if k in JsonColumns then DecodeCell(row[k], utf8, loads) else row[k]
  }

  /** Both searches leave a fetched row in the same state. */
  lemma DecodeRowAgrees(row: Row, utf8: seq<bv8> -> Option<string>, loads: string -> Option<JValue>,
                        loadsBytes: seq<bv8> -> Option<JValue>)
    requires forall b :: loadsBytes(b) == (if utf8(b).Some? then loads(utf8(b).value) else None)
    ensures DecodeRow(row, utf8, loads) == PeopleRepo.DecodeRow(row, loads, loadsBytes)
  {
    forall k | k in row {
      DecodeCellAgrees(row[k], utf8, loads, loadsBytes);
    }
  }
}

=== FILE: query_generator.dfy ===
/** The query generator agent around its language-model call: the tech stack
    and locations it is built with, and what it does with the model's reply —
    parse it as JSON, tolerating a fenced reply once, pick out the `query`
    value of every item that has one and enqueue those. The reply text is an
    input and `json.loads` an oracle. */
module QueryGenerator {
  import opened Wrappers
  import opened Json
  import Text
  import QueryQueue

  /** The comma-split pieces `if t.strip()` keeps, stripped, in order. */
  function KeepStripped(pieces: seq<string>): (r: seq<string>)
    ensures |r| <= |pieces|
    ensures forall k | 0 <= k < |r| :: r[k] != [] && Text.IsStripped(r[k])
    ensures (forall k | 0 <= k < |pieces| :: ',' !in pieces[k]) ==> forall k | 0 <= k < |r| :: ',' !in r[k]
  {
    if pieces == [] then []
    else
      var rest := KeepStripped(pieces[1..]);
      var t := Text.Strip(pieces[0]);
      assert ',' !in pieces[0] ==> ',' !in t by {
        if ',' !in pieces[0] {
          Text.StripWithin(pieces[0], ',');
        }
      }
      assert forall k | 1 <= k < |pieces| :: pieces[k] == pieces[1..][k - 1];
      if t == [] then rest else [t] + rest
  }

  /** `[t.strip() for t in tech_stack.split(",") if t.strip()]`: every entry
      non-empty, stripped and free of commas. */
  function ParseTechStack(s: string): (r: seq<string>)
    ensures forall k | 0 <= k < |r| :: r[k] != [] && Text.IsStripped(r[k]) && ',' !in r[k]
  {
    KeepStripped(Text.Split(s, ','))
  }

  /** A tech-stack list as the parser hands it on. */
  predicate Tidy(xs: seq<string>) {
    forall k | 0 <= k < |xs| :: xs[k] != [] && Text.IsStripped(xs[k]) && ',' !in xs[k]
  }

  /** The filter on a first piece and the rest. */
  lemma KeepStrippedCons(a: string, rest: seq<string>)
    ensures KeepStripped([a] + rest)
         == (if Text.Strip(a) == [] then [] else [Text.Strip(a)]) + KeepStripped(rest)
  {
    assert ([a] + rest)[1..] == rest;
    assert [] + KeepStripped(rest) == KeepStripped(rest);
  }

  /** The text of a list of two or more: its first item, a comma, then a
      space and the rest. */
  lemma JoinedFirst(pre: string, xs: seq<string>)
    requires |xs| > 1
    ensures pre + Text.Join(", ", xs) == (pre + xs[0]) + [','] + (" " + Text.Join(", ", xs[1..]))
  {
    var rest := Text.Join(", ", xs[1..]);
    var sep: string := ", ";
    assert Text.Join(sep, xs) == xs[0] + sep + rest;
    assert sep == [',', ' '];
    Regroup(pre, xs[0], ',', ' ', rest);
  }

  /** Moving the brackets around a two-character separator. */
  lemma Regroup(pre: string, a: string, c: char, d: char, rest: string)
    ensures pre + (a + [c, d] + rest) == (pre + a) + [c] + ([d] + rest)
  {
    assert [c, d] == [c] + [d];
  }

  /** Whitespace contains no comma. */
  lemma SpaceNoComma(pre: string)
    requires Text.AllSpace(pre)
    ensures ',' !in pre
  {
    forall k | 0 <= k < |pre| ensures pre[k] != ',' {
      assert Text.IsSpace(pre[k]);
    }
  }

  /** The last item, after its padding. */
  lemma ParseLast(pre: string, x: string)
    requires Text.AllSpace(pre) && x != [] && Text.IsStripped(x) && ',' !in x
    ensures KeepStripped(Text.Split(pre + x, ',')) == [x]
  {
    SpaceNoComma(pre);
    Text.SplitNoSep(pre + x, ',');
    Text.StripPadded(pre, x, []);
    assert pre + x + [] == pre + x;
    KeepStrippedCons(pre + x, []);
  }

  /** The first of several items, after its padding. */
  lemma ParseFirst(pre: string, xs: seq<string>)
    requires Text.AllSpace(pre) && |xs| > 1 && xs[0] != [] && Text.IsStripped(xs[0]) && ',' !in xs[0]
    ensures KeepStripped(Text.Split(pre + Text.Join(", ", xs), ','))
         == [xs[0]] + KeepStripped(Text.Split(" " + Text.Join(", ", xs[1..]), ','))
  {
    SpaceNoComma(pre);
    var rest := Text.Join(", ", xs[1..]);
    JoinedFirst(pre, xs);
    Text.SplitAtFirst(pre + xs[0], ',', " " + rest);
    Text.StripPadded(pre, xs[0], []);
    assert pre + xs[0] + [] == pre + xs[0];
    KeepStrippedCons(pre + xs[0], Text.Split(" " + rest, ','));
  }

  /** Whitespace alone parses to nothing. */
  lemma ParseNothing(pre: string)
    requires Text.AllSpace(pre)
    ensures KeepStripped(Text.Split(pre + Text.Join(", ", []), ',')) == []
  {
    SpaceNoComma(pre);
    assert pre + Text.Join(", ", []) == pre;
    Text.SplitNoSep(pre, ',');
    KeepStrippedCons(pre, []);
  }

  /** Whitespace ahead of a comma-joined list is stripped away with the rest. */
  lemma {:induction false} ParseJoined(pre: string, xs: seq<string>)
    requires Text.AllSpace(pre) && Tidy(xs)
    ensures KeepStripped(Text.Split(pre + Text.Join(", ", xs), ',')) == xs
    decreases |xs|, 1
  {
    if xs == [] {
      ParseNothing(pre);
    } else if |xs| == 1 {
      ParseLast(pre, xs[0]);
    } else {
      ParseSeveral(pre, xs);
    }
  }

  lemma {:induction false} ParseSeveral(pre: string, xs: seq<string>)
    requires Text.AllSpace(pre) && Tidy(xs) && |xs| > 1
    ensures KeepStripped(Text.Split(pre + Text.Join(", ", xs), ',')) == xs
    decreases |xs|, 0
  {
    ParseFirst(pre, xs);
    var tail := xs[1..];
    assert Text.AllSpace(" ") by { assert Text.IsSpace(" "[0]); }
    assert Tidy(tail) by {
      forall k | 0 <= k < |tail| ensures tail[k] != [] && Text.IsStripped(tail[k]) && ',' !in tail[k] {
        assert tail[k] == xs[k + 1];
      }
    }
    ParseJoined(" ", tail);
    assert xs == [xs[0]] + tail;
  }

  /** Joining a tidy list with `", "`, as the parser-driven pipeline does
      before building the agent, and parsing it back gives the list. */
  lemma TechStackRoundTrip(xs: seq<string>)
    requires Tidy(xs)
    ensures ParseTechStack(Text.Join(", ", xs)) == xs
  {
    assert [] + Text.Join(", ", xs) == Text.Join(", ", xs);
    ParseJoined([], xs);
  }

  /** `DEFAULT_LOCATIONS` */
  const DefaultLocations: seq<string> := ["Bangalore", "Hyderabad", "Mumbai", "Delhi", "Pune"]

  /** The agent's inputs after construction. */
  datatype Agent = Agent(techStack: seq<string>, locations: seq<string>)

  /** `QueryGeneratorAgent(tech_stack, locations)`: the stack parsed from its
      comma-separated text; the given locations, or the defaults when none or
      an empty list is given. */
  function NewAgent(techStack: string, locations: Option<seq<string>>): (r: Agent)
    ensures r.techStack == ParseTechStack(techStack)
    ensures r.locations != []
    ensures locations.Some? && locations.value != [] ==> r.locations == locations.value
    ensures locations.None? || locations.value == [] ==> r.locations == DefaultLocations
  {
    Agent(ParseTechStack(techStack), if locations.Some? && locations.value != [] then locations.value else DefaultLocations)
  }

  /** `resp.choices[0].message.content or "[]"` */
  function ReplyText(content: Option<string>): (r: string)
    ensures r != []
    ensures content.Some? && content.value != [] ==> r == content.value
    ensures content.None? || content.value == [] ==> r == "[]"
  {
    if content.Some? && content.value != [] then content.value else "[]"
  }

  /** `output.strip().strip("```").strip()`: surrounding whitespace and
      backticks removed. */
  function Unfenced(output: string): (r: string)
    ensures Text.IsStripped(r)
    ensures |r| <= |output|
  {
    Text.Strip(Text.StripChar(Text.Strip(output), '`'))
  }

  /** A reply wrapped in a Markdown code fence, with any whitespace around
      and inside the fence, unwraps to its text. */
  lemma UnfencedFence(w1: string, u1: string, t: string, u2: string, w2: string)
    requires Text.AllSpace(w1) && Text.AllSpace(u1) && Text.AllSpace(u2) && Text.AllSpace(w2)
    requires Text.IsStripped(t) && (t == [] || (t[0] != '`' && t[|t| - 1] != '`'))
    ensures Unfenced(w1 + "```" + u1 + t + u2 + "```" + w2) == t
  {
    var fence: string := "```";
    var mid := u1 + t + u2;
    var inner := fence + mid + fence;
    assert w1 + fence + u1 + t + u2 + fence + w2 == w1 + inner + w2;
    Text.StripPadded(w1, inner, w2);
    assert mid == [] || (mid[0] != '`' && mid[|mid| - 1] != '`') by {
      if mid != [] {
        assert mid[0] == if u1 != [] then u1[0] else if t != [] then t[0] else u2[0];
        assert mid[|mid| - 1] == if u2 != [] then u2[|u2| - 1] else if t != [] then t[|t| - 1] else u1[|u1| - 1];
      }
    }
    Text.StripCharPadded(fence, mid, fence, '`');
    Text.StripPadded(u1, t, u2);
  }

  /** The reply parsed as it stands, or else with its fence removed. */
  function ParseReply(output: string, loads: string -> Option<JValue>): (r: Option<JValue>)
    ensures loads(output).Some? ==> r == loads(output)
    ensures loads(output).None? ==> r == loads(Unfenced(output))
  {
    if loads(output).Some? then loads(output) else loads(Unfenced(output))
  }

  /** What `"query" in item` and `item["query"]` do with one element of the
      parsed reply: a dict yields its `query` value when it has one; a string
      or list that contains `query` cannot be indexed by it; a string or
      list without it is skipped; other values are not iterable. */
  function QueryOf(item: JValue): (r: Result<Option<JValue>, Error>)
    ensures r.Ok? && r.value.Some? <==> item.JObj? && "query" in item.fields
    ensures r.Ok? && r.value.Some? ==> r.value.value == item.fields["query"]
    ensures r.Err? ==> r.error == TypeError
    ensures item.JObj? ==> r.Ok?
    ensures item.JStr? ==> (r.Err? <==> Text.Contains(item.s, "query"))
    ensures item.JList? ==> (r.Err? <==> JStr("query") in item.items)
    ensures !item.JObj? && !item.JStr? && !item.JList? ==> r.Err?
  {
    match item
    case JObj(m) => Ok(if "query" in m then Some(m["query"]) else None)
    case JStr(s) => if Text.Contains(s, "query") then Err(TypeError) else Ok(None)
    case JList(xs) => if JStr("query") in xs then Err(TypeError) else Ok(None)
    case _ => Err(TypeError)
  }

  /** The comprehension over a list reply: items in order, the first item
      that raises ends it. */
  function QueriesOf(items: seq<JValue>): (r: Result<seq<JValue>, Error>)
    ensures r.Ok? <==> forall k | 0 <= k < |items| :: QueryOf(items[k]).Ok?
    ensures r.Ok? ==> |r.value| <= |items|
  {
    if items == [] then Ok([])
    else
      match QueryOf(items[0])
      case Err(e) => Err(e)
      case Ok(x) =>
        var rest := QueriesOf(items[1..]);
        assert forall k | 1 <= k < |items| :: items[k] == items[1..][k - 1];
        if rest.Err? then rest
        else if x.Some? then Ok([x.value] + rest.value)
        else rest
  }

  /** The reference reading: the `query` values of the dict items that have
      one, in order. */
  function QueryValues(items: seq<JValue>): seq<JValue> {
    if items == [] then []
    else if items[0].JObj? && "query" in items[0].fields then [items[0].fields["query"]] + QueryValues(items[1..])
    else QueryValues(items[1..])
  }

  /** When nothing raises, the comprehension picks exactly the reference
      values. */
  lemma {:induction false} QueriesOfValues(items: seq<JValue>)
    requires QueriesOf(items).Ok?
    ensures QueriesOf(items).value == QueryValues(items)
  {
    if items != [] {
      assert QueryOf(items[0]).Ok?;
      QueriesOfValues(items[1..]);
    }
  }

  /** A reply made only of dicts never raises. */
  lemma DictsNeverRaise(items: seq<JValue>)
    requires forall k | 0 <= k < |items| :: items[k].JObj?
    ensures QueriesOf(items).Ok?
  {
  }

  /** `[item["query"] for item in queries_data if "query" in item]` over any
      parsed reply: iterating a dict visits its keys, which raise when they
      contain `query`; iterating a string visits single characters, which
      never do; scalars and `None` cannot be iterated. */
  function ExtractQueries(data: JValue): (r: Result<seq<JValue>, Error>)
    ensures data.JList? ==> r == QueriesOf(data.items)
    ensures data.JObj? ==> (r.Ok? <==> forall key | key in data.fields :: !Text.Contains(key, "query"))
    ensures data.JStr? ==> r == Ok([])
    ensures r.Ok? && !data.JList? ==> r.value == []
    ensures data.JNull? || data.JBool? || data.JInt? || data.JFloat? ==> r == Err(TypeError)
  {
    match data
    case JList(items) => QueriesOf(items)
    case JObj(m) => if exists key | key in m :: Text.Contains(key, "query") then Err(TypeError) else Ok([])
    case JStr(_) => Ok([])
    case _ => Err(TypeError)
  }

  /** `if q and q.strip()` on a value that came out of the reply: a string is
      kept for the cleaning filter, a falsy value is dropped, and any other
      value has no `strip`. */
  function QueryArg(v: JValue): (r: Result<Option<string>, Error>)
    ensures v.JStr? ==> r == Ok(Some(v.s))
    ensures !v.JStr? && !Truthy(v) ==> r == Ok(None)
    ensures !v.JStr? && Truthy(v) ==> r == Err(AttributeError)
  {
    if v.JStr? then Ok(Some(v.s)) else if !Truthy(v) then Ok(None) else Err(AttributeError)
  }

  function QueryArgs(vs: seq<JValue>): (r: Result<seq<Option<string>>, Error>)
    ensures r.Ok? <==> forall k | 0 <= k < |vs| :: QueryArg(vs[k]).Ok?
    ensures r.Ok? ==> |r.value| == |vs| && forall k | 0 <= k < |vs| :: r.value[k] == QueryArg(vs[k]).value
  {
    if vs == [] then Ok([])
    else
      var rest := QueryArgs(vs[1..]);
      assert forall k | 1 <= k < |vs| :: vs[k] == vs[1..][k - 1];
      match QueryArg(vs[0])
      case Err(e) => Err(e)
      case Ok(x) => if rest.Err? then rest else Ok([x] + rest.value)
  }

  /** What `run` returns and the queue it leaves. */
  datatype RunOutcome = RunOutcome(returned: Result<JValue, Error>, queue: QueryQueue.Queue)

  /** The single item returned for a reply that is not JSON. */
  function ParseFailure(output: string): (r: JValue)
    ensures r.JList? && |r.items| == 1 && r.items[0].JObj?
    ensures r.items[0].fields.Keys == {"error", "raw"} && r.items[0].fields["raw"] == JStr(output)
    ensures "query" !in r.items[0].fields
  {
    JList([JObj(map["error" := JStr("Failed to parse JSON"), "raw" := JStr(output)])])
  }

  /** `run` after the model call: an unparseable reply returns one error item
      and enqueues nothing; a reply the extraction raises on enqueues nothing;
      otherwise the extracted queries are enqueued when there are any and the
      parsed reply is returned. `fault` is the enqueue's failing INSERT: the
      error then propagates out of `run`, after the rows before it were
      written. */
  function Run(content: Option<string>, loads: string -> Option<JValue>, q: QueryQueue.Queue,
               fault: Option<nat>): (r: RunOutcome)
    requires QueryQueue.Valid(q)
    ensures QueryQueue.Valid(r.queue)
    ensures forall id | id in q.rows :: id in r.queue.rows && r.queue.rows[id] == q.rows[id]
    ensures forall id | id in r.queue.rows && id !in q.rows ::
      q.nextId <= id && r.queue.rows[id].status == QueryQueue.Pending
    ensures ParseReply(ReplyText(content), loads).None? ==> r == RunOutcome(Ok(ParseFailure(ReplyText(content))), q)
    ensures ParseReply(ReplyText(content), loads).Some? && r.returned.Ok? ==> r.returned.value == ParseReply(ReplyText(content), loads).value
    ensures r.returned.Err? && r.returned.error != DatabaseError ==> r.queue == q
    ensures fault.None? && r.returned.Err? ==> r.queue == q
  {
    var output := ReplyText(content);
    match ParseReply(output, loads)
    case None => RunOutcome(Ok(ParseFailure(output)), q)
    case Some(data) =>
      match ExtractQueries(data)
      case Err(e) => RunOutcome(Err(e), q)
      case Ok(queries) =>
        if queries == [] then RunOutcome(Ok(data), q)
        else
          match QueryArgs(queries)
          case Err(e) => RunOutcome(Err(e), q)
          case Ok(args) =>
            var e := QueryQueue.EnqueueQueries(q, args, fault);
            assert forall id | id in e.queue.rows && id !in q.rows :: e.queue.rows[id].status == QueryQueue.Pending by {
              forall id | id in e.queue.rows && id !in q.rows
                ensures e.queue.rows[id].status == QueryQueue.Pending
              {
                var k := id - q.nextId;
                assert e.queue.rows[q.nextId + k] == QueryQueue.NewRow(QueryQueue.CleanQueries(args)[k], [], [], None);
              }
            }
            RunOutcome(if e.returned.Ok? then Ok(data) else Err(e.returned.error), e.queue)
  }

  /** The strings of a list of `query` values that are all strings. */
  function Strings(vs: seq<JValue>): (r: seq<Option<string>>)
    requires forall k | 0 <= k < |vs| :: vs[k].JStr?
    ensures |r| == |vs| && forall k | 0 <= k < |vs| :: r[k] == Some(vs[k].s)
  {
    if vs == [] then [] else [Some(vs[0].s)] + Strings(vs[1..])
  }

  /** A reply that is a list of dicts whose `query` values are strings:
      exactly those values are enqueued (cleaned, in order, after the rows
      already there, as `enqueue_queries` does), and the list is returned
      unless the enqueue raises. */
  lemma RunOnStrings(content: Option<string>, loads: string -> Option<JValue>, q: QueryQueue.Queue,
                     fault: Option<nat>, items: seq<JValue>)
    requires QueryQueue.Valid(q)
    requires ParseReply(ReplyText(content), loads) == Some(JList(items))
    requires forall k | 0 <= k < |items| :: items[k].JObj?
    requires forall k | 0 <= k < |QueryValues(items)| :: QueryValues(items)[k].JStr?
    ensures var e := QueryQueue.EnqueueQueries(q, Strings(QueryValues(items)), fault);
      Run(content, loads, q, fault)
        == RunOutcome(if e.returned.Ok? then Ok(JList(items)) else Err(DatabaseError), e.queue)
  {
    DictsNeverRaise(items);
    QueriesOfValues(items);
    var vs := QueryValues(items);
    assert ExtractQueries(JList(items)) == Ok(vs);
    if vs == [] {
      assert Strings(vs) == [];
      assert QueryQueue.CleanQueries([]) == [];
    } else {
      ArgsOfStrings(vs);
    }
  }

  /** An INSERT that fails part-way: `run` raises the store's error and the
      queue keeps the first `k` cleaned queries as new pending rows. */
  lemma RunInsertFault(content: Option<string>, loads: string -> Option<JValue>, q: QueryQueue.Queue,
                       k: nat, items: seq<JValue>)
    requires QueryQueue.Valid(q)
    requires ParseReply(ReplyText(content), loads) == Some(JList(items))
    requires forall j | 0 <= j < |items| :: items[j].JObj?
    requires forall j | 0 <= j < |QueryValues(items)| :: QueryValues(items)[j].JStr?
    requires k < |QueryQueue.CleanQueries(Strings(QueryValues(items)))|
    ensures Run(content, loads, q, Some(k))
      == RunOutcome(Err(DatabaseError),
                    QueryQueue.InsertAll(q, QueryQueue.CleanQueries(Strings(QueryValues(items)))[..k], [], [], None))
  {
    RunOnStrings(content, loads, q, Some(k), items);
    QueryQueue.EnqueueFaultKeepsPrefix(q, Strings(QueryValues(items)), k);
  }

  /** String `query` values all pass as arguments, unchanged. */
  lemma ArgsOfStrings(vs: seq<JValue>)
    requires forall k | 0 <= k < |vs| :: vs[k].JStr?
    ensures QueryArgs(vs) == Ok(Strings(vs))
  {
    var r := QueryArgs(vs);
    assert r.Ok?;
    assert r.value == Strings(vs);
  }

  /** A reply without any `query` value enqueues nothing. */
  lemma NoQueriesNoRows(content: Option<string>, loads: string -> Option<JValue>, q: QueryQueue.Queue,
                        fault: Option<nat>, items: seq<JValue>)
    requires QueryQueue.Valid(q)
    requires ParseReply(ReplyText(content), loads) == Some(JList(items))
    requires forall k | 0 <= k < |items| :: items[k].JObj? && "query" !in items[k].fields
    ensures Run(content, loads, q, fault) == RunOutcome(Ok(JList(items)), q)
  {
    DictsNeverRaise(items);
    QueriesOfValues(items);
    assert QueryValues(items) == [] by {
      NoQueryValues(items);
    }
  }

  lemma {:induction false} NoQueryValues(items: seq<JValue>)
    requires forall k | 0 <= k < |items| :: items[k].JObj? && "query" !in items[k].fields
    ensures QueryValues(items) == []
  {
    if items != [] {
      NoQueryValues(items[1..]);
    }
  }
}

=== FILE: query_queue.dfy ===
/** The search-query queue table: rows keyed by an auto-increment id, each
    holding its query text, a status, and the parsed metadata attached when it
    was enqueued. Each row later serves as the `search_id` of the rows the
    search worker and the enrichment step write. */
module QueryQueue {
  import opened Wrappers
  import Text
  import Json

  /** The status column. The code writes only these three values: there is no
      `processing` state and no lease. */
  datatype Status = Pending | Done | Failed

  datatype QueueRow = QueueRow(
    query: string,
    status: Status,
    technologies: seq<string>,      // parsed_technologies_json, as the list it encodes
    locations: seq<string>,         // parsed_locations_json, as the list it encodes
    parserVersion: Option<string>,
    errorMessage: Option<string>)

  /** The table together with the next id AUTO_INCREMENT will hand out. */
  datatype Queue = Queue(rows: map<nat, QueueRow>, nextId: nat)

  /** Every existing id lies below the next one to be handed out. */
  predicate Valid(q: Queue) {
    forall id | id in q.rows :: id < q.nextId
  }

  /** The longest error message `mark_query_failed` stores. */
  const ErrorMessageLimit: nat := 2000

  /** The `[q.strip() for q in queries if q and q.strip()]` filter: `None`
      elements, empty strings and whitespace-only strings are dropped, the rest
      are stripped and kept in order, duplicates included. */
  function CleanQueries(queries: seq<Option<string>>): (r: seq<string>)
    ensures |r| <= |queries|
    ensures forall k | 0 <= k < |r| :: r[k] != [] && Text.IsStripped(r[k])
  {
    if queries == [] then []
    else
      var rest := CleanQueries(queries[1..]);
      match queries[0]
      case None => rest
      case Some(s) =>
        var t := Text.Strip(s);
        if t == [] then rest else [t] + rest
  }

  /** The filter works element by element: it distributes over concatenation. */
  lemma {:induction false} CleanQueriesAppend(a: seq<Option<string>>, b: seq<Option<string>>)
    ensures CleanQueries(a + b) == CleanQueries(a) + CleanQueries(b)
  {
    if a != [] {
      var ab := a + b;
      assert ab[0] == a[0];
      assert ab[1..] == a[1..] + b;
      CleanQueriesAppend(a[1..], b);
      match a[0]
      case None =>
      case Some(x) =>
        if Text.Strip(x) != [] {
          assert CleanQueries(ab) == [Text.Strip(x)] + CleanQueries(ab[1..]);
          assert CleanQueries(a) == [Text.Strip(x)] + CleanQueries(a[1..]);
        }
    } else {
      assert a + b == b;
    }
  }

  /** What one element contributes: nothing when it is `None` or blank, else its stripped text. */
  lemma CleanQueriesOne(x: Option<string>)
    ensures x.None? ==> CleanQueries([x]) == []
    ensures x.Some? && Text.AllSpace(x.value) ==> CleanQueries([x]) == []
    ensures x.Some? && !Text.AllSpace(x.value) ==> CleanQueries([x]) == [Text.Strip(x.value)]
  {
    assert [x][1..] == [];
  }

  /** A freshly inserted row. */
  function NewRow(query: string, technologies: seq<string>, locations: seq<string>,
                  parserVersion: Option<string>): QueueRow
  {
    QueueRow(query, Pending, technologies, locations, parserVersion, None)
  }

  /** One INSERT per query, in order, each taking the next auto-increment id. */
  function InsertAll(q: Queue, qs: seq<string>, technologies: seq<string>,
                     locations: seq<string>, parserVersion: Option<string>): (r: Queue)
    requires Valid(q)
    ensures Valid(r)
    ensures r.nextId == q.nextId + |qs|
    ensures forall id :: id in r.rows <==> id in q.rows || q.nextId <= id < r.nextId
    ensures forall id | id in q.rows :: r.rows[id] == q.rows[id]
    ensures forall k | 0 <= k < |qs| ::
      r.rows[q.nextId + k] == NewRow(qs[k], technologies, locations, parserVersion)
    decreases |qs|
  {
    if qs == [] then q
    else
      var q1 := Queue(q.rows[q.nextId := NewRow(qs[0], technologies, locations, parserVersion)], q.nextId + 1);
      var r := InsertAll(q1, qs[1..], technologies, locations, parserVersion);
      assert forall k | 1 <= k < |qs| ::
        r.rows[q.nextId + k] == NewRow(qs[k], technologies, locations, parserVersion)
      by {
        forall k | 1 <= k < |qs|
          ensures r.rows[q.nextId + k] == NewRow(qs[k], technologies, locations, parserVersion)
        {
          assert qs[k] == qs[1..][k - 1];
          assert q.nextId + k == q1.nextId + (k - 1);
        }
      }
      r
  }

  /** What an enqueue call leaves behind, and the count it returns or the
      error it raises. */
  datatype Enqueued = Enqueued(queue: Queue, returned: Result<nat, Json.Error>)

  /** How many rows an enqueue writes when `fault` names the cleaned query
      whose INSERT raises (`None`: none does). */
  function Stored(n: nat, fault: Option<nat>): (r: nat)
    ensures r <= n
    ensures r < n <==> fault.Some? && fault.value < n
    ensures r < n ==> r == fault.value
  {
    if fault.Some? && fault.value < n then fault.value else n
  }

  /** `enqueue_queries_with_parsed`: every non-blank query becomes a new
      `pending` row carrying the same metadata; `None` (or empty) technologies
      and locations are stored as empty lists. An empty cleaned list writes
      nothing and returns 0. A `None` query list behaves as an empty one.
      `fault` is the position, in the cleaned list, of the INSERT the store
      rejects (a connection that cannot be opened acts as a fault at 0): the
      call raises, and since the connection autocommits, the rows inserted
      before it stay. */
  function EnqueueWithParsed(q: Queue, queries: seq<Option<string>>,
                             techStack: Option<seq<string>>, locations: Option<seq<string>>,
                             parserVersion: Option<string>, fault: Option<nat>): (r: Enqueued)
    requires Valid(q)
    ensures Valid(r.queue)
    ensures r.returned.Ok? <==> !(fault.Some? && fault.value < |CleanQueries(queries)|)
    ensures r.returned.Ok? ==> r.returned.value == |CleanQueries(queries)|
    ensures r.returned.Err? ==> r.returned.error == Json.DatabaseError
    ensures CleanQueries(queries) == [] ==> r == Enqueued(q, Ok(0))
    ensures r.queue.nextId == q.nextId + Stored(|CleanQueries(queries)|, fault)
    ensures forall id :: id in r.queue.rows <==> id in q.rows || q.nextId <= id < r.queue.nextId
    ensures forall id | id in q.rows :: r.queue.rows[id] == q.rows[id]
    ensures forall k | 0 <= k < r.queue.nextId - q.nextId ::
      r.queue.rows[q.nextId + k]
        == NewRow(CleanQueries(queries)[k], techStack.GetOr([]), locations.GetOr([]), parserVersion)
  {
    var qlist := CleanQueries(queries);
    if qlist == [] then Enqueued(q, Ok(0))
    else
      var n := Stored(|qlist|, fault);
      var q1 := InsertAll(q, qlist[..n], techStack.GetOr([]), locations.GetOr([]), parserVersion);
      Enqueued(q1, if n < |qlist| then Err(Json.DatabaseError) else Ok(|qlist|))
  }

  /** `enqueue_queries`, the legacy entry point: the same insert with no
      technologies, no locations and no parser version. */
  function EnqueueQueries(q: Queue, queries: seq<Option<string>>, fault: Option<nat>): (r: Enqueued)
    requires Valid(q)
    ensures Valid(r.queue)
    ensures r.returned.Ok? <==> !(fault.Some? && fault.value < |CleanQueries(queries)|)
    ensures r.returned.Ok? ==> r.returned.value == |CleanQueries(queries)|
    ensures r.returned.Err? ==> r.returned.error == Json.DatabaseError
    ensures r.queue.nextId == q.nextId + Stored(|CleanQueries(queries)|, fault)
    ensures forall id :: id in r.queue.rows <==> id in q.rows || q.nextId <= id < r.queue.nextId
    ensures forall id | id in q.rows :: r.queue.rows[id] == q.rows[id]
    ensures forall k | 0 <= k < r.queue.nextId - q.nextId ::
      r.queue.rows[q.nextId + k] == NewRow(CleanQueries(queries)[k], [], [], None)
  {
    EnqueueWithParsed(q, queries, None, None, None, fault)
  }

  /** A failing INSERT keeps the rows before it: with the fault at `k`, the
      queue holds exactly the first `k` cleaned queries as new pending rows
      and the call raises. */
  lemma EnqueueFaultKeepsPrefix(q: Queue, queries: seq<Option<string>>, k: nat)
    requires Valid(q)
    requires k < |CleanQueries(queries)|
    ensures var r := EnqueueQueries(q, queries, Some(k));
      && r.returned == Err(Json.DatabaseError)
      && r.queue == InsertAll(q, CleanQueries(queries)[..k], [], [], None)
  {
  }

  /** The cleaning strips padding, drops blanks and `None`, and keeps a
      duplicate: `[pre + q + post, blank, None, q]` gives `[q, q]`. */
  lemma {:induction false} CleanKeepsDuplicates(q: string, pre: string, post: string, blank: string)
    requires q != [] && Text.IsStripped(q)
    requires Text.AllSpace(pre) && Text.AllSpace(post) && Text.AllSpace(blank)
    ensures CleanQueries([Some(pre + q + post), Some(blank), None, Some(q)]) == [q, q]
  {
    var a, b, c, d := Some(pre + q + post), Some(blank), None, Some(q);
    Text.StripPadded(pre, q, post);
    Text.StripOfStripped(q);
    CleanQueriesOne(d);
    var t1 := [d];
    assert CleanQueries(t1) == [q];
    CleanQueriesOne(c);
    CleanQueriesAppend([c], t1);
    var t2 := [c] + t1;
    assert CleanQueries(t2) == [q];
    CleanQueriesOne(b);
    CleanQueriesAppend([b], t2);
    var t3 := [b] + t2;
    assert CleanQueries(t3) == [q];
    CleanQueriesOne(a);
    CleanQueriesAppend([a], t3);
    assert CleanQueries([a] + t3) == [q, q];
    assert [a] + t3 == [a, b, c, d];
  }

  /** One row of `get_pending_queries`' result (`SELECT id, query`). */
  datatype PendingRow = PendingRow(id: nat, query: string)

  predicate IsPending(q: Queue, id: nat) {
    id in q.rows && q.rows[id].status == Pending
  }

  function Ids(rows: seq<PendingRow>): (r: seq<nat>)
    ensures |r| == |rows| && forall k | 0 <= k < |rows| :: r[k] == rows[k].id
  {
    if rows == [] then [] else [rows[0].id] + Ids(rows[1..])
  }

  /** The pending ids at or above `lo`, ascending. */
  function PendingFrom(q: Queue, lo: nat): (r: seq<nat>)
    ensures forall k | 0 <= k < |r| :: lo <= r[k] < q.nextId && IsPending(q, r[k])
    ensures forall i, j | 0 <= i < j < |r| :: r[i] < r[j]
    ensures forall id {:trigger id in r} | lo <= id < q.nextId && IsPending(q, id) :: id in r
    decreases q.nextId - lo
  {
    if lo >= q.nextId then []
    else if IsPending(q, lo) then [lo] + PendingFrom(q, lo + 1)
    else PendingFrom(q, lo + 1)
  }

  /** The `(id, query)` projection of the given rows. */
  function Project(q: Queue, ids: seq<nat>): (r: seq<PendingRow>)
    requires forall k | 0 <= k < |ids| :: ids[k] in q.rows
    ensures Ids(r) == ids
    ensures forall k | 0 <= k < |r| :: r[k].query == q.rows[ids[k]].query
  {
    if ids == [] then [] else [PendingRow(ids[0], q.rows[ids[0]].query)] + Project(q, ids[1..])
  }

  /** `get_pending_queries(limit)`: `WHERE status = 'pending' ORDER BY id ASC
      LIMIT limit`. A plain read: it claims nothing and changes nothing, so the
      queue is not part of its result. */
  function GetPendingQueries(q: Queue, limit: nat): (r: seq<PendingRow>)
    requires Valid(q)
    ensures |r| <= limit
    ensures forall k | 0 <= k < |r| :: IsPending(q, r[k].id) && r[k].query == q.rows[r[k].id].query
    ensures forall i, j | 0 <= i < j < |r| :: r[i].id < r[j].id
    // FIFO: a pending row is left out only when the limit is reached, and then
    // it comes after every row returned.
    ensures forall id | IsPending(q, id) && id !in Ids(r) ::
      |r| == limit && forall k | 0 <= k < |r| :: r[k].id < id
  {
    var all := PendingFrom(q, 0);
    var n := if |all| <= limit then |all| else limit;
    PendingPrefix(q, all, n);
    Project(q, all[..n])
  }

  /** The facts about the first `n` pending ids that GetPendingQueries promises. */
  lemma PendingPrefix(q: Queue, all: seq<nat>, n: nat)
    requires Valid(q) && all == PendingFrom(q, 0) && n <= |all|
    ensures forall k | 0 <= k < n :: all[..n][k] in q.rows
    ensures var r := Project(q, all[..n]);
      && (forall k | 0 <= k < |r| :: IsPending(q, r[k].id) && r[k].query == q.rows[r[k].id].query)
      && (forall i, j | 0 <= i < j < |r| :: r[i].id < r[j].id)
      && (forall id | IsPending(q, id) && id !in Ids(r) :: n < |all| && forall k | 0 <= k < |r| :: r[k].id < id)
  {
    PrefixIds(q, all, n);
    PrefixPending(q, all, n);
    PrefixOrdered(q, all, n);
    PrefixComplete(q, all, n);
  }

  /** The projected prefix carries the first `n` pending ids, in order. */
  lemma PrefixIds(q: Queue, all: seq<nat>, n: nat)
    requires Valid(q) && all == PendingFrom(q, 0) && n <= |all|
    ensures forall k | 0 <= k < n :: all[..n][k] in q.rows
    ensures var r := Project(q, all[..n]);
      |r| == n && forall k | 0 <= k < |r| :: r[k].id == all[k]
  {
    var r := Project(q, all[..n]);
    forall k | 0 <= k < |r| ensures r[k].id == all[k] {
      assert Ids(r)[k] == r[k].id;
    }
  }

  lemma PrefixPending(q: Queue, all: seq<nat>, n: nat)
    requires Valid(q) && all == PendingFrom(q, 0) && n <= |all|
    requires forall k | 0 <= k < n :: all[..n][k] in q.rows
    requires var r := Project(q, all[..n]); |r| == n && forall k | 0 <= k < |r| :: r[k].id == all[k]
    ensures var r := Project(q, all[..n]);
      forall k | 0 <= k < |r| :: IsPending(q, r[k].id) && r[k].query == q.rows[r[k].id].query
  {
  }

  lemma PrefixOrdered(q: Queue, all: seq<nat>, n: nat)
    requires Valid(q) && all == PendingFrom(q, 0) && n <= |all|
    requires forall k | 0 <= k < n :: all[..n][k] in q.rows
    requires var r := Project(q, all[..n]); |r| == n && forall k | 0 <= k < |r| :: r[k].id == all[k]
    ensures var r := Project(q, all[..n]);
      forall i, j | 0 <= i < j < |r| :: r[i].id < r[j].id
  {
  }

  lemma PrefixComplete(q: Queue, all: seq<nat>, n: nat)
    requires Valid(q) && all == PendingFrom(q, 0) && n <= |all|
    requires forall k | 0 <= k < n :: all[..n][k] in q.rows
    requires var r := Project(q, all[..n]); |r| == n && forall k | 0 <= k < |r| :: r[k].id == all[k]
    ensures var r := Project(q, all[..n]);
      forall id | IsPending(q, id) && id !in Ids(r) :: n < |all| && forall k | 0 <= k < |r| :: r[k].id < id
  {
    var r := Project(q, all[..n]);
    forall id | IsPending(q, id) && id !in Ids(r)
      ensures n < |all| && forall k | 0 <= k < |r| :: r[k].id < id
    {
      PrefixSkips(q, all, n, id);
    }
  }

  lemma PrefixSkips(q: Queue, all: seq<nat>, n: nat, id: nat)
    requires Valid(q) && all == PendingFrom(q, 0) && n <= |all|
    requires IsPending(q, id) && id !in all[..n]
    ensures n < |all| && forall k | 0 <= k < n :: all[k] < id
  {
    assert id in all;
    var j :| 0 <= j < |all| && all[j] == id;
  }

  /** Rows other than `id` are left exactly as they were. */
  predicate OthersUnchanged(q: Queue, q': Queue, id: nat) {
    && q'.nextId == q.nextId
    && q'.rows.Keys == q.rows.Keys
    && forall other | other in q.rows && other != id :: q'.rows[other] == q.rows[other]
  }

  /** `mark_query_done`: `UPDATE ... SET status = 'done' WHERE id = ...`,
      whatever the row's current status; an unknown id matches no row. */
  function MarkDone(q: Queue, id: nat): (r: Queue)
    ensures OthersUnchanged(q, r, id)
    ensures id in q.rows ==> r.rows[id] == q.rows[id].(status := Done)
    ensures id !in q.rows ==> r == q
  {
    if id in q.rows then q.(rows := q.rows[id := q.rows[id].(status := Done)]) else q
  }

  /** `mark_query_failed`. Without a message only the status changes. With a
      message the first 2000 characters are stored alongside; if that UPDATE
      fails (`messageWriteSucceeds` is false, e.g. the column does not exist)
      the status-only UPDATE runs instead. */
  function MarkFailed(q: Queue, id: nat, errorMessage: Option<string>,
                      messageWriteSucceeds: bool): (r: Queue)
    ensures OthersUnchanged(q, r, id)
    ensures id !in q.rows ==> r == q
    ensures id in q.rows ==>
      && r.rows[id].status == Failed
      && r.rows[id].(status := q.rows[id].status, errorMessage := q.rows[id].errorMessage) == q.rows[id]
    ensures id in q.rows && (errorMessage.None? || !messageWriteSucceeds) ==>
      r.rows[id].errorMessage == q.rows[id].errorMessage
    ensures id in q.rows && errorMessage.Some? && messageWriteSucceeds ==>
      && r.rows[id].errorMessage.Some?
      && r.rows[id].errorMessage.value <= errorMessage.value
      && |r.rows[id].errorMessage.value| == if |errorMessage.value| <= ErrorMessageLimit then |errorMessage.value| else ErrorMessageLimit
  {
    if id !in q.rows then q
    else
      var row := q.rows[id];
      var row' := match errorMessage
        case Some(m) =>
          if messageWriteSucceeds then row.(status := Failed, errorMessage := Some(Text.Take(m, ErrorMessageLimit)))
          else row.(status := Failed)
        case None => row.(status := Failed);
      q.(rows := q.rows[id := row'])
  }

  /** Marking done twice is the same as marking done once. */
  lemma MarkDoneIdempotent(q: Queue, id: nat)
    ensures MarkDone(MarkDone(q, id), id) == MarkDone(q, id)
  {
  }

  /** Marking failed twice with the same arguments is the same as once. */
  lemma MarkFailedIdempotent(q: Queue, id: nat, msg: Option<string>, ok: bool)
    ensures MarkFailed(MarkFailed(q, id, msg, ok), id, msg, ok) == MarkFailed(q, id, msg, ok)
  {
  }

  /** Neither transition checks for a terminal state: a failed row can be
      marked done and a done row failed. */
  lemma TerminalStatesAreOverwritten(q: Queue, id: nat)
    requires id in q.rows
    ensures q.rows[id].status == Failed ==> MarkDone(q, id).rows[id].status == Done
    ensures q.rows[id].status == Done ==> MarkFailed(q, id, None, true).rows[id].status == Failed
  {
  }

  /** The status updates keep the id bookkeeping intact. */
  lemma MarksPreserveValid(q: Queue, id: nat, msg: Option<string>, ok: bool)
    requires Valid(q)
    ensures Valid(MarkDone(q, id)) && Valid(MarkFailed(q, id, msg, ok))
  {
  }
}

=== FILE: salesql_client.dfy ===
/** The SalesQL person-enrichment client: LinkedIn URL normalisation, the
    API-key lookup, and how the HTTP status of an enrich call is turned into
    a payload, a not-found marker or an error. */
module SalesqlClient {
  import opened Wrappers
  import opened Json
  import opened Text

  /** `_normalize_url`: strip surrounding whitespace, cut at the first `?`,
      then at the first `#`, and drop trailing slashes. */
  function NormalizeUrl(url: string): (r: string)
    ensures '?' !in r && '#' !in r
    ensures r == [] || r[|r| - 1] != '/'
    ensures r <= Strip(url)
    ensures var s := Strip(url); '?' !in s && '#' !in s && (s == [] || s[|s| - 1] != '/') ==> r == s
    // the cut: what follows `r` is a run of slashes, then `?`, `#` or the end
    ensures exists j | |r| <= j <= |Strip(url)| :: CutAt(Strip(url), |r|, j)
  {
    var s := Strip(url);
    var noQuery := Before(s, '?');
    var noFragment := Before(noQuery, '#');
    var r := DropTrailing(noFragment, '/');
    PrefixLacks(r, noFragment, '?');
    CutPoint(s, noQuery, noFragment, r);
    r
  }

  /** `s[n..j]` is all slashes and `s` ends at `j` or goes on with `?` or `#`. */
  predicate CutAt(s: string, n: nat, j: nat)
    requires n <= j <= |s|
  {
    && (forall k | n <= k < j :: s[k] == '/')
    && (j == |s| || s[j] == '?' || s[j] == '#')
  }

  /** Cutting at the first `?`, then at the first `#`, then dropping
      trailing slashes leaves a cut point of `CutAt`. */
  lemma CutPoint(s: string, noQuery: string, noFragment: string, r: string)
    requires noQuery <= s && (noQuery == s || s[|noQuery|] == '?')
    requires noFragment <= noQuery && (noFragment == noQuery || noQuery[|noFragment|] == '#')
    requires r <= noFragment && forall k | |r| <= k < |noFragment| :: noFragment[k] == '/'
    ensures |r| <= |noFragment| <= |s| && CutAt(s, |r|, |noFragment|)
  {
    var j := |noFragment|;
    forall k | |r| <= k < j ensures s[k] == '/' {
      assert s[k] == noFragment[k];
    }
    if noFragment != noQuery {
      assert s[j] == noQuery[j];
    }
  }

  /** A prefix has no character its whole lacks. */
  lemma PrefixLacks(p: string, s: string, c: char)
    requires p <= s && c !in s
    ensures c !in p
  {
    forall k | 0 <= k < |p| ensures p[k] != c {
      assert p[k] == s[k];
    }
  }

  /** Normalising again changes nothing, unless the first pass left
      whitespace at the end (which the next `strip` removes). */
  lemma NormalizeStable(url: string)
    requires var r := NormalizeUrl(url); r == [] || !IsSpace(r[|r| - 1])
    ensures NormalizeUrl(NormalizeUrl(url)) == NormalizeUrl(url)
  {
    var r := NormalizeUrl(url);
    var s := Strip(url);
    if r != [] {
      assert r[0] == s[0];
    }
    assert IsStripped(r);
    StripOfStripped(r);
  }

  /** A trailing slash after a space: the slash goes, the space stays. */
  lemma NormalizeSlashAfterSpace(u: string)
    requires u != [] && IsStripped(u) && '?' !in u && '#' !in u && u[|u| - 1] != '/'
    ensures NormalizeUrl(u + [' ', '/']) == u + [' ']
  {
    var tail := [' ', '/'];
    var padded := u + tail;
    var spaced := u + [' '];
    assert IsStripped(padded) by {
      assert padded[0] == u[0] && padded[|padded| - 1] == '/';
    }
    StripOfStripped(padded);
    assert '?' !in tail && '#' !in tail;
    LacksAppend(u, tail, '?');
    LacksAppend(u, tail, '#');
    assert padded[..|padded| - 1] == spaced;
    assert DropTrailing(spaced, '/') == spaced;
  }

  /** A trailing space alone is stripped. */
  lemma NormalizeTrailingSpace(u: string)
    requires u != [] && IsStripped(u) && '?' !in u && '#' !in u && u[|u| - 1] != '/'
    ensures NormalizeUrl(u + [' ']) == u
  {
    var none: string := [];
    assert none + u + [' '] == u + [' '];
    StripPadded(none, u, [' ']);
    assert DropTrailing(u, '/') == u;
  }

  /** Normalisation is not idempotent: for a URL ending in a space and a
      slash, one pass leaves the space and only a second pass strips it. */
  lemma NotIdempotent(u: string)
    requires u != [] && IsStripped(u) && '?' !in u && '#' !in u && u[|u| - 1] != '/'
    ensures NormalizeUrl(u + [' ', '/']) == u + [' ']
    ensures NormalizeUrl(NormalizeUrl(u + [' ', '/'])) == u
    ensures NormalizeUrl(u + [' ', '/']) != NormalizeUrl(NormalizeUrl(u + [' ', '/']))
  {
    NormalizeSlashAfterSpace(u);
    NormalizeTrailingSpace(u);
    assert |u + [' ']| != |u|;
  }

  /** The three environment variables, in the order they are consulted. */
  datatype KeyEnv = KeyEnv(salesqlApiKey: Option<string>, salesqlToken: Option<string>, salesqlKey: Option<string>)

  function Truthful(v: Option<string>): bool {
    v.Some? && v.value != []
  }

  /** `getenv(A) or getenv(B) or getenv(C)`: the first set, non-empty value,
      else whatever the last lookup gave. */
  function ResolveApiKey(env: KeyEnv): (r: Option<string>)
    ensures Truthful(r) <==> Truthful(env.salesqlApiKey) || Truthful(env.salesqlToken) || Truthful(env.salesqlKey)
    ensures Truthful(env.salesqlApiKey) ==> r == env.salesqlApiKey
    ensures !Truthful(env.salesqlApiKey) && Truthful(env.salesqlToken) ==> r == env.salesqlToken
    ensures !Truthful(env.salesqlApiKey) && !Truthful(env.salesqlToken) ==> r == env.salesqlKey
  {
    if Truthful(env.salesqlApiKey) then env.salesqlApiKey
    else if Truthful(env.salesqlToken) then env.salesqlToken
    else env.salesqlKey
  }

  const BearerPrefix: string := "Bearer "

  /** `_auth_headers`: the bearer header, or SalesQLError without a key. */
  function AuthHeader(key: Option<string>): (r: Result<string, Error>)
    ensures r.Err? <==> !Truthful(key)
    ensures r.Err? ==> r.error == SalesQLMissingKey
    ensures r.Ok? ==> r.value == BearerPrefix + key.value && r.value[|BearerPrefix|..] == key.value
  {
    if !Truthful(key) then Err(SalesQLMissingKey) else Ok(BearerPrefix + key.value)
  }

  /** The GET the client sends: the normalised URL as a query parameter and
      the authorization header. */
  datatype EnrichRequest = EnrichRequest(linkedinUrl: string, authorization: string)

  /** What the server answered: the status, the body as JSON when it parses,
      and the body as text. */
  datatype HttpResponse = HttpResponse(status: int, json: Option<JValue>, text: string)

  /** The marker dict returned for a 404. */
  const NotFoundMarker: Dict :=
    map["_not_found" := JBool(true), "_status_code" := JInt(404), "_message" := JStr("No person found")]

  /** An enrich call: the request sent (if any) and what the call returns or raises. */
  datatype EnrichCall = EnrichCall(sent: Option<EnrichRequest>, result: Result<JValue, Error>)

  /** `enrich_person_by_linkedin_url`. `server` answers a request, or gives
      `None` when the request itself fails. */
  function Enrich(linkedinUrl: string, key: Option<string>, server: EnrichRequest -> Option<HttpResponse>): (r: EnrichCall)
    // no key: nothing is sent
    ensures !Truthful(key) <==> r.sent.None?
    ensures !Truthful(key) ==> r.result == Err(SalesQLMissingKey)
    ensures r.sent.Some? ==> r.sent.value == EnrichRequest(NormalizeUrl(linkedinUrl), BearerPrefix + key.value)
    ensures r.sent.Some? ==> match server(r.sent.value)
      case None => r.result == Err(TransportError)
      case Some(resp) =>
        if resp.status == 200 then
          r.result == (if resp.json.Some? then Ok(resp.json.value) else Err(JsonDecodeError))
        else if resp.status == 404 then r.result == Ok(JObj(NotFoundMarker))
        else r.result.Err? && r.result.error.SalesQLStatus? && r.result.error.status == resp.status
  {
    var params := NormalizeUrl(linkedinUrl);
    match AuthHeader(key)
    case Err(e) => EnrichCall(None, Err(e))
    case Ok(auth) =>
      var req := EnrichRequest(params, auth);
      match server(req)
      case None => EnrichCall(Some(req), Err(TransportError))
      case Some(resp) =>
        if resp.status == 200 then
          EnrichCall(Some(req), if resp.json.Some? then Ok(resp.json.value) else Err(JsonDecodeError))
        else if resp.status == 404 then EnrichCall(Some(req), Ok(JObj(NotFoundMarker)))
        else
          var detail := if resp.json.Some? then resp.json.value else JObj(map["text" := JStr(resp.text)]);
          EnrichCall(Some(req), Err(SalesQLStatus(resp.status, detail)))
  }

  /** An error status carries the body as JSON, or as `{"text": ...}` when it
      does not parse. */
  lemma ErrorDetail(linkedinUrl: string, key: Option<string>, server: EnrichRequest -> Option<HttpResponse>)
    requires Truthful(key)
    requires var req := EnrichRequest(NormalizeUrl(linkedinUrl), BearerPrefix + key.value);
      server(req).Some? && server(req).value.status != 200 && server(req).value.status != 404
    ensures var resp := server(EnrichRequest(NormalizeUrl(linkedinUrl), BearerPrefix + key.value)).value;
      Enrich(linkedinUrl, key, server).result
        == Err(SalesQLStatus(resp.status, if resp.json.Some? then resp.json.value else JObj(map["text" := JStr(resp.text)])))
  {
  }
}

=== FILE: salesql_results.dfy ===
/** The SalesQL enrichment table (`salesql_enriched_people`): which search
    results are profile links, which URLs a search already has, and how a
    SalesQL payload is flattened into one row and upserted. */
module SalesqlResults {
  import opened Wrappers
  import opened Json
  import opened Text
  import SearchResults
  import SerperSearch
  import PeopleSearch

  /** `_looks_like_profile`: `None` reads as the empty string. */
  function LooksLikeProfile(url: Option<string>): (r: bool)
    ensures r <==> url.Some? && SerperSearch.IsProfileLink(url.value)
  {
    SerperSearch.MissingLinkExcluded();
    SerperSearch.IsProfileLink(url.GetOr(""))
  }

  /** Lowercasing twice is lowercasing once. */
  lemma LowerTwice(s: string)
    ensures Lower(Lower(s)) == Lower(s)
  {
  }

  /** The check ignores case: a URL and its lowercase form agree. */
  lemma LooksLikeProfileIgnoresCase(url: string)
    ensures LooksLikeProfile(Some(Lower(url))) == LooksLikeProfile(Some(url))
  {
    LowerTwice(url);
  }

  /** A link of a search that `get_linkedin_urls_for_search_id` returns. */
  datatype LinkRow = LinkRow(id: nat, link: string)

  /** The SQL pattern of the profile-link filter. */
  const LinkPattern: string := "%linkedin.com/in%"

  lemma LinkPatternAroundMarker()
    ensures LinkPattern == "%" + SerperSearch.ProfileMarker + "%"
    ensures PeopleSearch.Plain(SerperSearch.ProfileMarker)
  {
  }

  /** A results row passes both filters: the SQL `search_id = %s AND link
      LIKE '%linkedin.com/in%'` (NULL links never match; the column collation
      is case-insensitive) and the `_looks_like_profile` recheck. The SQL
      filter alone already decides: the recheck drops no row it keeps. */
  predicate Selected(row: SearchResults.ResultRow, searchId: nat): (r: bool)
    ensures r <==> row.searchId == searchId && row.link.JStr?
                   && PeopleSearch.LikeMatch(Lower(row.link.s), LinkPattern)
  {
    var link := if row.link.JStr? then row.link.s else "";
    LinkPatternAroundMarker();
    PeopleSearch.ContainsLike(Lower(link), SerperSearch.ProfileMarker);
    row.searchId == searchId && row.link.JStr? && LooksLikeProfile(Some(row.link.s))
  }

  function LinkOf(row: SearchResults.ResultRow): LinkRow {
    LinkRow(row.id, if row.link.JStr? then row.link.s else "")
  }

  /** `x` is the link of some selected row. */
  predicate SelectedLink(rows: seq<SearchResults.ResultRow>, searchId: nat, x: LinkRow) {
    exists j | 0 <= j < |rows| :: Selected(rows[j], searchId) && x == LinkOf(rows[j])
  }

  /** How many selected rows carry the link row `x`. */
  function SelectedCount(rows: seq<SearchResults.ResultRow>, searchId: nat, x: LinkRow): nat {
    if rows == [] then 0
    else
      var here := if Selected(rows[0], searchId) && LinkOf(rows[0]) == x then 1 else 0;
      here + SelectedCount(rows[1..], searchId, x)
  }

  /** `get_linkedin_urls_for_search_id`, over the rows in table order: the
      links of exactly the selected rows. */
  function ProfileLinks(rows: seq<SearchResults.ResultRow>, searchId: nat): (r: seq<LinkRow>)
    ensures |r| <= |rows|
    ensures forall k | 0 <= k < |r| :: SelectedLink(rows, searchId, r[k])
    ensures forall j | 0 <= j < |rows| && Selected(rows[j], searchId) :: LinkOf(rows[j]) in r
    ensures forall k | 0 <= k < |r| :: LooksLikeProfile(Some(r[k].link))
  {
    if rows == [] then []
    else
      var rest := ProfileLinks(rows[1..], searchId);
      SelectedLinkShift(rows, searchId);
      assert forall j | 1 <= j < |rows| :: rows[j] == rows[1..][j - 1];
      assert Selected(rows[0], searchId) ==> SelectedLink(rows, searchId, LinkOf(rows[0]));
      if Selected(rows[0], searchId) then [LinkOf(rows[0])] + rest else rest
  }

  /** No link is repeated or dropped: each link row occurs in the result once
      per selected row that carries it. */
  lemma {:induction false} ProfileLinksCount(rows: seq<SearchResults.ResultRow>, searchId: nat, x: LinkRow)
    ensures multiset(ProfileLinks(rows, searchId))[x] == SelectedCount(rows, searchId, x)
  {
    if rows != [] {
      ProfileLinksCount(rows[1..], searchId, x);
      var rest := ProfileLinks(rows[1..], searchId);
      if Selected(rows[0], searchId) {
        assert ProfileLinks(rows, searchId) == [LinkOf(rows[0])] + rest;
        assert multiset([LinkOf(rows[0])] + rest) == multiset{LinkOf(rows[0])} + multiset(rest);
      }
    }
  }

  /** A link selected among all rows but the first is selected among all rows. */
  lemma SelectedLinkShift(rows: seq<SearchResults.ResultRow>, searchId: nat)
    requires rows != []
    ensures forall x | SelectedLink(rows[1..], searchId, x) :: SelectedLink(rows, searchId, x)
  {
    forall x | SelectedLink(rows[1..], searchId, x) ensures SelectedLink(rows, searchId, x) {
      var j :| 0 <= j < |rows[1..]| && Selected(rows[1..][j], searchId) && x == LinkOf(rows[1..][j]);
      assert rows[j + 1] == rows[1..][j];
    }
  }

  /** A person row: the search result it came from, set on first insert, and
      the flattened payload. */
  datatype PersonRow = PersonRow(googleResultId: Option<nat>, data: Enrichment)

  /** The table, keyed by its unique `(search_id, linkedin_url)` pair. */
  type PeopleTable = map<(nat, string), PersonRow>

  /** `get_existing_linkedin_urls` */
  function ExistingUrls(people: PeopleTable, searchId: nat): (r: set<string>)
    ensures forall url :: url in r <==> (searchId, url) in people
  {
    set key | key in people && key.0 == searchId :: key.1
  }

  /** `_get_nested(d, *path)`: `None` (here `JNull`) once a step meets a
      non-dict or a missing key. */
  function GetNested(d: JValue, path: seq<string>): (r: JValue)
    ensures path == [] ==> r == d
    ensures path != [] && !(d.JObj? && path[0] in d.fields) ==> r == JNull
    ensures path != [] && d.JObj? && path[0] in d.fields ==> r == GetNested(d.fields[path[0]], path[1..])
  {
    if path == [] then d
    else if d.JObj? && path[0] in d.fields then GetNested(d.fields[path[0]], path[1..])
    else JNull
  }

  /** Following a path in two legs is following it in one. */
  lemma {:induction false} GetNestedConcat(d: JValue, a: seq<string>, b: seq<string>)
    ensures GetNested(d, a + b) == GetNested(GetNested(d, a), b)
    decreases |a|
  {
    if a == [] {
      assert a + b == b;
    } else {
      assert (a + b)[0] == a[0] && (a + b)[1..] == a[1..] + b;
      if d.JObj? && a[0] in d.fields {
        GetNestedConcat(d.fields[a[0]], a[1..], b);
      } else {
        GetNestedNull(b);
      }
    }
  }

  /** Nothing is found below `None`. */
  lemma GetNestedNull(path: seq<string>)
    ensures GetNested(JNull, path) == JNull
  {
  }

  /** Values a SQL driver takes as they are. */
  predicate IsScalar(v: JValue) {
    v.JStr? || v.JInt? || v.JFloat? || v.JBool?
  }

  /** `_scalar_or_none`. A bool is an int in Python, so it passes through the
      `(str, int, float)` test unchanged and the bool branch after it never runs. */
  function ScalarOrNone(v: JValue): (r: JValue)
    ensures IsScalar(v) <==> r == v && v != JNull
    ensures !IsScalar(v) ==> r == JNull
    ensures v.JBool? ==> r == v
  {
    if v.JStr? || v.JInt? || v.JFloat? then v
    else if v.JBool? then v
    else JNull
  }

  /** What reaches a column is null or scalar, and sanitising it again keeps it. */
  lemma ScalarOrNoneSettles(v: JValue)
    ensures ScalarOrNone(v) == JNull || IsScalar(ScalarOrNone(v))
    ensures ScalarOrNone(ScalarOrNone(v)) == ScalarOrNone(v)
  {
  }

  /** A run of decimal digits with single underscores between digits, the
      form Python's `int()` accepts. */
  predicate UnderscoredDigits(s: string)
    decreases |s|
  {
    if |s| <= 1 then s != [] && IsDigit(s[0])
    else IsDigit(s[0]) && (if s[1] == '_' then UnderscoredDigits(s[2..]) else UnderscoredDigits(s[1..]))
  }

  /** Such a run holds only digits and underscores. */
  lemma {:induction false} UnderscoredChars(s: string)
    requires UnderscoredDigits(s)
    ensures forall k | 0 <= k < |s| :: IsDigit(s[k]) || s[k] == '_'
    decreases |s|
  {
    if |s| > 1 {
      var i := if s[1] == '_' then 2 else 1;
      UnderscoredChars(s[i..]);
      forall k | i <= k < |s| ensures IsDigit(s[k]) || s[k] == '_' {
        assert s[k] == s[i..][k - i];
      }
    }
  }

  /** Plain digits are such a run. */
  lemma {:induction false} DigitsUnderscored(s: string)
    requires IsDigits(s)
    ensures UnderscoredDigits(s)
    decreases |s|
  {
    if |s| > 1 {
      assert IsDigit(s[1]) && IsDigits(s[1..]) by {
        forall k | 0 <= k < |s[1..]| ensures IsDigit(s[1..][k]) {
          assert s[1..][k] == s[k + 1];
        }
      }
      DigitsUnderscored(s[1..]);
    }
  }

  /** The value of such a run, underscores skipped. */
  function UnderscoredValue(s: string): nat
    requires forall k | 0 <= k < |s| :: IsDigit(s[k]) || s[k] == '_'
  {
    if s == [] then 0
    else if s[|s| - 1] == '_' then UnderscoredValue(s[..|s| - 1])
    else
      assert IsDigit(s[|s| - 1]);
      UnderscoredValue(s[..|s| - 1]) * 10 + (s[|s| - 1] as int - '0' as int)
  }

  /** Without underscores the value is the plain decimal value. */
  lemma {:induction false} UnderscoredValuePlain(s: string)
    requires forall k | 0 <= k < |s| :: IsDigit(s[k])
    ensures UnderscoredValue(s) == DigitsValue(s)
  {
    if s != [] {
      UnderscoredValuePlain(s[..|s| - 1]);
    }
  }

  /** `int(s)` for a string: surrounding whitespace, then an optional sign,
      then digits; `None` where `int()` raises ValueError. */
  function ParseInt(s: string): (r: Option<int>)
    ensures r.Some? ==> Strip(s) != []
  {
    var t := Strip(s);
    if t == [] then None
    else
      var negative := t[0] == '-';
      var body := if t[0] == '-' || t[0] == '+' then t[1..] else t;
      if !UnderscoredDigits(body) then None
      else
        UnderscoredChars(body);
        var n := UnderscoredValue(body);
        var v: int := if negative then -(n as int) else n;
        Some(v)
  }

  /** `int(v)` on a decoded value, `None` where it raises. */
  function PyInt(v: JValue): (r: Option<int>)
    ensures v.JNull? || v.JList? || v.JObj? ==> r.None?
    ensures v.JInt? ==> r == Some(v.i)
    ensures v.JBool? ==> r == Some(if v.b then 1 else 0)
  {
    match v
    case JNull => None
    case JBool(b) => Some(if b then 1 else 0)
    case JInt(i) => Some(i)
    case JFloat(f) => f.truncated
    case JStr(s) => ParseInt(s)
    case JList(_) => None
    case JObj(_) => None
  }

  /** The keys `_to_int` tries on a dict, in order. */
  const RangeKeys: seq<string> := ["value", "max", "min", "approx"]

  /** `key in m` and `int(m[key])` does not raise. */
  predicate Converts(m: Dict, key: string) {
    key in m && PyInt(m[key]).Some?
  }

  /** The position of the first of `keys[i..]` that converts. */
  function FirstConverting(m: Dict, keys: seq<string>, i: nat): (r: Option<nat>)
    requires i <= |keys|
    ensures r.Some? ==> i <= r.value < |keys| && Converts(m, keys[r.value])
    ensures r.Some? ==> forall j | i <= j < r.value :: !Converts(m, keys[j])
    ensures r.None? ==> forall j | i <= j < |keys| :: !Converts(m, keys[j])
    decreases |keys| - i
  {
    if i == |keys| then None
    else if Converts(m, keys[i]) then Some(i)
    else FirstConverting(m, keys, i + 1)
  }

  /** The loop over `("value", "max", "min", "approx")`: the first key
      present whose value `int()` accepts, skipping those it rejects. */
  function FirstInt(m: Dict, keys: seq<string>): (r: Option<int>)
    ensures r.None? <==> forall j | 0 <= j < |keys| :: !Converts(m, keys[j])
    ensures r.Some? ==> exists k | 0 <= k < |keys| :: Converts(m, keys[k]) && r == PyInt(m[keys[k]])
                          && forall j | 0 <= j < k :: !Converts(m, keys[j])
  {
    match FirstConverting(m, keys, 0)
    case None => None
    case Some(k) => PyInt(m[keys[k]])
  }

  /** A string after `strip()` and `replace(",", "")`. */
  function Uncomma(s: string): string {
    RemoveAll(Strip(s), ',')
  }

  /** `_to_int`: best-effort conversion of a head count. */
  function ToInt(v: JValue): (r: Option<int>)
    ensures v.JNull? || v.JList? ==> r.None?
    ensures v.JBool? ==> r == Some(if v.b then 1 else 0)
    ensures v.JInt? ==> r == Some(v.i)
    // strings: only digits (and commas) convert, so never to a negative
    ensures v.JStr? ==> (r.Some? <==> IsDigits(Uncomma(v.s)))
    ensures v.JStr? && r.Some? ==> r.value >= 0 && r.value == DigitsValue(Uncomma(v.s))
    ensures v.JObj? ==> r == FirstInt(v.fields, RangeKeys)
  {
    match v
    case JNull => None
    case JBool(b) => Some(if b then 1 else 0)
    case JInt(i) => Some(i)
    case JFloat(f) => f.truncated
    case JStr(s) =>
      var t := Uncomma(s);
      if IsDigits(t) then Some(DigitsValue(t)) else None
    case JObj(m) => FirstInt(m, RangeKeys)
    case JList(_) => None
  }

  /** A number written in decimal converts back to itself. */
  lemma ToIntDecimal(n: nat)
    ensures ToInt(JStr(Decimal(n))) == Some(n)
  {
    var d := Decimal(n);
    assert IsStripped(d) by {
      assert !IsSpace(d[0]) && !IsSpace(d[|d| - 1]);
    }
    StripOfStripped(d);
    assert ',' !in d by {
      forall k | 0 <= k < |d| ensures d[k] != ',' {
        assert IsDigit(d[k]);
      }
    }
    DecimalValue(n);
  }

  /** Thousands separators are dropped: digits, a comma, digits read as the
      digits alone. */
  lemma ToIntCommas(a: string, b: string)
    requires IsDigits(a) && IsDigits(b)
    ensures ToInt(JStr(a + "," + b)) == Some(DigitsValue(a + b))
  {
    var s := a + "," + b;
    assert IsStripped(s) by {
      assert s[0] == a[0] && s[|s| - 1] == b[|b| - 1];
    }
    StripOfStripped(s);
    assert ',' !in a by {
      forall k | 0 <= k < |a| ensures a[k] != ',' {
        assert IsDigit(a[k]);
      }
    }
    assert ',' !in b by {
      forall k | 0 <= k < |b| ensures b[k] != ',' {
        assert IsDigit(b[k]);
      }
    }
    RemoveSeparator(a, b, ',');
    DigitsAppend(a, b);
  }

  /** A negative number in decimal, as `str()` writes it. */
  function Negative(n: nat): (r: string)
    ensures IsStripped(r) && ',' !in r
    ensures |r| >= 2 && r[0] == '-' && r[1..] == Decimal(n)
  {
    var d := Decimal(n);
    var r := "-" + d;
    assert r[|r| - 1] == d[|d| - 1] && IsDigit(d[|d| - 1]);
    assert ',' !in d by {
      forall k | 0 <= k < |d| ensures d[k] != ',' {
        assert IsDigit(d[k]);
      }
    }
    r
  }

  /** A sign makes a string unconvertible... */
  lemma ToIntSignedString(n: nat)
    ensures ToInt(JStr(Negative(n))) == None
  {
    var s := Negative(n);
    StripOfStripped(s);
    assert Uncomma(s) == s;
    assert !IsDigit(s[0]);
  }

  /** `int()` reads a negative decimal back. */
  lemma ParseIntNegative(n: nat)
    ensures ParseInt(Negative(n)) == Some(-(n as int))
  {
    var s := Negative(n);
    var d := Decimal(n);
    StripOfStripped(s);
    assert s[1..] == d;
    DigitsUnderscored(d);
    UnderscoredValuePlain(d);
    DecimalValue(n);
    assert UnderscoredValue(d) == n;
  }

  /** A dict holding only `"max"` converts as its value does. */
  lemma MaxOnly(v: JValue)
    requires PyInt(v).Some?
    ensures ToInt(JObj(map["max" := v])) == PyInt(v)
  {
    var m := map["max" := v];
    assert RangeKeys[0] == "value" && RangeKeys[1] == "max";
    assert !Converts(m, RangeKeys[0]);
    assert Converts(m, RangeKeys[1]);
    assert FirstConverting(m, RangeKeys, 0) == Some(1);
  }

  /** ...though a dict's value is read with `int()`, which accepts one. */
  lemma ToIntSignedInDict(n: nat)
    ensures ToInt(JObj(map["max" := JStr(Negative(n))])) == Some(-(n as int))
  {
    ParseIntNegative(n);
    MaxOnly(JStr(Negative(n)));
  }

  /** Location fields of a person or an organization. */
  datatype Place = Place(city: JValue, state: JValue, countryCode: JValue, country: JValue, region: JValue)

  datatype PersonFields = PersonFields(
    uuid: JValue, fullName: JValue, firstName: JValue, lastName: JValue,
    title: JValue, headline: JValue, industry: JValue, imageUrl: JValue, location: Place)

  datatype OrgFields = OrgFields(
    uuid: JValue, name: JValue, website: JValue, domain: JValue, linkedinUrl: JValue,
    employees: Option<int>, industry: JValue, location: Place)

  /** Everything `save_salesql_person` writes apart from the key columns:
      `emails_json`/`phones_json` are `None` for a missing or null value, and
      `raw_json` is the whole payload (the JSON text itself is not modelled). */
  datatype Enrichment = Enrichment(person: PersonFields, org: OrgFields,
                                   emails: Option<JValue>, phones: Option<JValue>, raw: JValue)

  const NullPlace := Place(JNull, JNull, JNull, JNull, JNull)
  const NullOrg := OrgFields(JNull, JNull, JNull, JNull, JNull, None, JNull, NullPlace)

  /** The payload keys copied into the person columns, in column order. */
  const PersonKeys: seq<string> := ["uuid", "full_name", "first_name", "last_name", "title", "headline", "industry", "image"]

  /** The person column a payload key is stored in. */
  function PersonColumn(p: PersonFields, key: string): JValue
    requires key in PersonKeys
  {
    if key == "uuid" then p.uuid
    else if key == "full_name" then p.fullName
    else if key == "first_name" then p.firstName
    else if key == "last_name" then p.lastName
    else if key == "title" then p.title
    else if key == "headline" then p.headline
    else if key == "industry" then p.industry
    else p.imageUrl
  }

  /** The organization keys copied into scalar organization columns. */
  const OrgKeys: seq<string> := ["uuid", "name", "website", "website_domain", "linkedin_url", "industry"]

  /** The organization column an organization key is stored in. */
  function OrgColumn(o: OrgFields, key: string): JValue
    requires key in OrgKeys
  {
    if key == "uuid" then o.uuid
    else if key == "name" then o.name
    else if key == "website" then o.website
    else if key == "website_domain" then o.domain
    else if key == "linkedin_url" then o.linkedinUrl
    else o.industry
  }

  /** The five location columns read from `v["location"]`. */
  function PlaceOf(v: JValue): Place {
    Place(ScalarOrNone(GetNested(v, ["location", "city"])),
          ScalarOrNone(GetNested(v, ["location", "state"])),
          ScalarOrNone(GetNested(v, ["location", "country_code"])),
          ScalarOrNone(GetNested(v, ["location", "country"])),
          ScalarOrNone(GetNested(v, ["location", "region"])))
  }

  predicate Column(v: JValue) {
    v == JNull || IsScalar(v)
  }

  predicate PlaceSanitized(p: Place) {
    Column(p.city) && Column(p.state) && Column(p.countryCode) && Column(p.country) && Column(p.region)
  }

  /** Every person and organization column holds a scalar or NULL. */
  predicate Sanitized(e: Enrichment) {
    var p, o := e.person, e.org;
    && Column(p.uuid) && Column(p.fullName) && Column(p.firstName) && Column(p.lastName)
    && Column(p.title) && Column(p.headline) && Column(p.industry) && Column(p.imageUrl)
    && PlaceSanitized(p.location)
    && Column(o.uuid) && Column(o.name) && Column(o.website) && Column(o.domain)
    && Column(o.linkedinUrl) && Column(o.industry) && PlaceSanitized(o.location)
  }

  /** `value or None`-style optional column: `None` exactly for a missing or null key. */
  function Optional(payload: Dict, key: string): (r: Option<JValue>)
    ensures r.None? <==> key !in payload || payload[key] == JNull
    ensures r.Some? ==> r.value == payload[key]
  {
    var v := Get(payload, key);
    if v == JNull then None else Some(v)
  }

  /** The person columns of a payload. */
  function PersonOf(payload: Dict): PersonFields {
    PersonFields(
      ScalarOrNone(Get(payload, "uuid")), ScalarOrNone(Get(payload, "full_name")),
      ScalarOrNone(Get(payload, "first_name")), ScalarOrNone(Get(payload, "last_name")),
      ScalarOrNone(Get(payload, "title")), ScalarOrNone(Get(payload, "headline")),
      ScalarOrNone(Get(payload, "industry")), ScalarOrNone(Get(payload, "image")),
      PlaceOf(JObj(payload)))
  }

  /** The organization columns of an organization dict. */
  function OrgOf(org: JValue): OrgFields
    requires org.JObj?
  {
    var o := org.fields;
    OrgFields(
      ScalarOrNone(Get(o, "uuid")), ScalarOrNone(Get(o, "name")),
      ScalarOrNone(Get(o, "website")), ScalarOrNone(Get(o, "website_domain")),
      ScalarOrNone(Get(o, "linkedin_url")), ToInt(Get(o, "number_of_employees")),
      ScalarOrNone(Get(o, "industry")), PlaceOf(org))
  }

  /** A falsy dict is the empty dict, so `or {}` keeps it. */
  lemma EmptyDict(m: Dict)
    requires |m| == 0
    ensures m == map[]
  {
    assert m.Keys == {};
  }

  /** Each person key reaches its own column. */
  lemma PersonOfColumns(payload: Dict)
    ensures forall key | key in PersonKeys :: PersonColumn(PersonOf(payload), key) == ScalarOrNone(Get(payload, key))
  {
    var p := PersonOf(payload);
    forall key | key in PersonKeys ensures PersonColumn(p, key) == ScalarOrNone(Get(payload, key)) {
      var i :| 0 <= i < |PersonKeys| && PersonKeys[i] == key;
      if i == 0 { assert PersonColumn(p, key) == p.uuid; }
      else if i == 1 { assert PersonColumn(p, key) == p.fullName; }
      else if i == 2 { assert PersonColumn(p, key) == p.firstName; }
      else if i == 3 { assert PersonColumn(p, key) == p.lastName; }
      else if i == 4 { assert PersonColumn(p, key) == p.title; }
      else if i == 5 { assert PersonColumn(p, key) == p.headline; }
      else if i == 6 { assert PersonColumn(p, key) == p.industry; }
      else { assert PersonColumn(p, key) == p.imageUrl; }
    }
  }

  /** Each organization key reaches its own column. */
  lemma OrgOfColumns(org: JValue)
    requires org.JObj?
    ensures forall key | key in OrgKeys :: OrgColumn(OrgOf(org), key) == ScalarOrNone(Get(org.fields, key))
  {
    var o := OrgOf(org);
    forall key | key in OrgKeys ensures OrgColumn(o, key) == ScalarOrNone(Get(org.fields, key)) {
      var i :| 0 <= i < |OrgKeys| && OrgKeys[i] == key;
      if i == 0 { assert OrgColumn(o, key) == o.uuid; }
      else if i == 1 { assert OrgColumn(o, key) == o.name; }
      else if i == 2 { assert OrgColumn(o, key) == o.website; }
      else if i == 3 { assert OrgColumn(o, key) == o.domain; }
      else if i == 4 { assert OrgColumn(o, key) == o.linkedinUrl; }
      else { assert OrgColumn(o, key) == o.industry; }
    }
  }

  /** The field mapping of `save_salesql_person`. `payload.get("organization")
      or {}` stands in an empty dict for a falsy organization; a truthy one
      that is not a dict makes `org.get` raise. */
  function Normalize(payload: Dict): (r: Result<Enrichment, Error>)
    ensures var org := Get(payload, "organization");
      r.Err? <==> Truthy(org) && !org.JObj?
    ensures r.Err? ==> r.error == AttributeError
    ensures r.Ok? ==> Sanitized(r.value)
    ensures r.Ok? && !Truthy(Get(payload, "organization")) ==> r.value.org == NullOrg
    ensures r.Ok? ==> r.value.emails == Optional(payload, "emails") && r.value.phones == Optional(payload, "phones")
    ensures r.Ok? ==> r.value.raw == JObj(payload)
    ensures r.Ok? ==> r.value.person.fullName == ScalarOrNone(Get(payload, "full_name"))
    // each person column holds its payload key, sanitized
    ensures r.Ok? ==> forall key | key in PersonKeys :: PersonColumn(r.value.person, key) == ScalarOrNone(Get(payload, key))
    ensures r.Ok? ==> r.value.person.location == PlaceOf(JObj(payload))
    // a dict organization fills the organization columns, the head count through `_to_int`
    ensures r.Ok? && Get(payload, "organization").JObj? ==>
      var o := Get(payload, "organization");
      && (forall key | key in OrgKeys :: OrgColumn(r.value.org, key) == ScalarOrNone(Get(o.fields, key)))
      && r.value.org.employees == ToInt(Get(o.fields, "number_of_employees"))
      && r.value.org.location == PlaceOf(o)
  {
    var orgValue := Get(payload, "organization");
    var org := if Truthy(orgValue) then orgValue else JObj(map[]);
    if !org.JObj? then Err(AttributeError)
    else
      assert orgValue.JObj? ==> org == orgValue by {
        if orgValue.JObj? && !Truthy(orgValue) {
          EmptyDict(orgValue.fields);
        }
      }
      PersonOfColumns(payload);
      OrgOfColumns(org);
      var person := PersonOf(payload);
      var orgFields := OrgOf(org);
      Ok(Enrichment(person, orgFields, Optional(payload, "emails"), Optional(payload, "phones"), JObj(payload)))
  }

  /** A scalar payload value lands in its person column unchanged. */
  lemma ScalarStored(payload: Dict, key: string)
    requires Normalize(payload).Ok?
    requires key in PersonKeys && key in payload && IsScalar(payload[key])
    ensures PersonColumn(Normalize(payload).value.person, key) == payload[key]
  {
  }

  /** A scalar organization value lands in its organization column unchanged,
      and a head count written with a thousands comma is stored as a number. */
  lemma OrgStored(payload: Dict, o: Dict, key: string, a: string, b: string)
    requires "organization" in payload && payload["organization"] == JObj(o)
    requires key in OrgKeys && key in o && IsScalar(o[key])
    requires "number_of_employees" in o && o["number_of_employees"] == JStr(a + "," + b)
    requires IsDigits(a) && IsDigits(b)
    ensures Normalize(payload).Ok?
    ensures OrgColumn(Normalize(payload).value.org, key) == o[key]
    ensures Normalize(payload).value.org.employees == Some(DigitsValue(a + b))
  {
    ToIntCommas(a, b);
  }

  /** `save_salesql_person`: INSERT, or on a duplicate `(search_id,
      linkedin_url)` overwrite every payload column while `google_result_id`
      keeps the value of the first insert. */
  function SavePerson(people: PeopleTable, searchId: nat, sourceRowId: Option<nat>, linkedinUrl: string, payload: Dict): (r: Result<PeopleTable, Error>)
    ensures r.Err? <==> Normalize(payload).Err?
    ensures r.Ok? ==> r.value.Keys == people.Keys + {(searchId, linkedinUrl)}
    ensures r.Ok? ==> r.value[(searchId, linkedinUrl)].data == Normalize(payload).value
    ensures r.Ok? ==> r.value[(searchId, linkedinUrl)].googleResultId
                        == if (searchId, linkedinUrl) in people then people[(searchId, linkedinUrl)].googleResultId else sourceRowId
    ensures r.Ok? ==> forall key | key in people && key != (searchId, linkedinUrl) :: r.value[key] == people[key]
  {
    match Normalize(payload)
    case Err(e) => Err(e)
    case Ok(data) =>
      var key := (searchId, linkedinUrl);
      var gid := if key in people then people[key].googleResultId else sourceRowId;
      Ok(people[key := PersonRow(gid, data)])
  }

  /** A second save of the same person: its payload wins, the first
      `google_result_id` stays. */
  lemma LastWriteWins(people: PeopleTable, searchId: nat, first: Option<nat>, second: Option<nat>, url: string, p1: Dict, p2: Dict)
    requires SavePerson(people, searchId, first, url, p1).Ok? && Normalize(p2).Ok?
    requires (searchId, url) !in people
    ensures var once := SavePerson(people, searchId, first, url, p1).value;
      var twice := SavePerson(once, searchId, second, url, p2);
      && twice.Ok?
      && twice.value[(searchId, url)] == PersonRow(first, Normalize(p2).value)
  {
  }

  /** Saving the same payload twice is saving it once. */
  lemma SaveIdempotent(people: PeopleTable, searchId: nat, sourceRowId: Option<nat>, url: string, payload: Dict)
    requires SavePerson(people, searchId, sourceRowId, url, payload).Ok?
    ensures var once := SavePerson(people, searchId, sourceRowId, url, payload).value;
      SavePerson(once, searchId, sourceRowId, url, payload) == Ok(once)
  {
    var once := SavePerson(people, searchId, sourceRowId, url, payload).value;
    assert once[(searchId, url) := once[(searchId, url)]] == once;
  }
}

=== FILE: search_results.dfy ===
/** The search-results table (`google_search_results`): one row per search hit,
    written only by appending. */
module SearchResults {
  import opened Json

  /** One row. `title`, `link` and `snippet` hold whatever the hit's dict had
      under those keys, `JNull` (SQL NULL) when the key was missing. */
  datatype ResultRow = ResultRow(id: nat, searchId: nat, query: string,
                                 title: JValue, link: JValue, snippet: JValue)

  /** The table in insertion order, with the next auto-increment id. */
  datatype ResultTable = ResultTable(rows: seq<ResultRow>, nextId: nat)

  /** The row inserted for `item`, which receives id `id`: it carries the
      given search id and query, and copies title, link and snippet, each NULL
      when the item lacks that key. */
  function RowFor(id: nat, searchId: nat, query: string, item: Dict): (r: ResultRow)
    ensures r.id == id && r.searchId == searchId && r.query == query
    ensures "title" in item ==> r.title == item["title"]
    ensures "link" in item ==> r.link == item["link"]
    ensures "snippet" in item ==> r.snippet == item["snippet"]
    ensures "title" !in item ==> r.title == JNull
    ensures "link" !in item ==> r.link == JNull
    ensures "snippet" !in item ==> r.snippet == JNull
  {
    ResultRow(id, searchId, query, Get(item, "title"), Get(item, "link"), Get(item, "snippet"))
  }

  /** `save_search_results`: an empty (or `None`) list is a no-op; otherwise
      one INSERT per item, in order, with no deduplication. */
  function SaveSearchResults(t: ResultTable, searchId: nat, query: string, results: seq<Dict>): (r: ResultTable)
    ensures results == [] ==> r == t
    ensures |r.rows| == |t.rows| + |results|
    ensures r.rows[..|t.rows|] == t.rows
    ensures r.nextId == t.nextId + |results|
    ensures forall k | 0 <= k < |results| ::
      r.rows[|t.rows| + k] == RowFor(t.nextId + k, searchId, query, results[k])
    decreases |results|
  {
    if results == [] then t
    else
      var t1 := ResultTable(t.rows + [RowFor(t.nextId, searchId, query, results[0])], t.nextId + 1);
      var r := SaveSearchResults(t1, searchId, query, results[1..]);
      assert r.rows[..|t.rows|] == r.rows[..|t1.rows|][..|t.rows|];
      assert r.rows[|t.rows|] == RowFor(t.nextId, searchId, query, results[0]) by {
        assert r.rows[|t.rows|] == r.rows[..|t1.rows|][|t.rows|];
      }
      forall k | 1 <= k < |results|
        ensures r.rows[|t.rows| + k] == RowFor(t.nextId + k, searchId, query, results[k])
      {
        assert results[k] == results[1..][k - 1];
        assert |t.rows| + k == |t1.rows| + (k - 1);
      }
      r
  }

  /** Saving a list in two calls is the same as saving it in one: the rows
      written so far survive a failure part-way through. */
  lemma {:induction false} SaveInTwoCalls(t: ResultTable, searchId: nat, query: string, a: seq<Dict>, b: seq<Dict>)
    ensures SaveSearchResults(SaveSearchResults(t, searchId, query, a), searchId, query, b)
         == SaveSearchResults(t, searchId, query, a + b)
    decreases |a|
  {
    if a != [] {
      var t1 := ResultTable(t.rows + [RowFor(t.nextId, searchId, query, a[0])], t.nextId + 1);
      assert (a + b)[0] == a[0];
      assert (a + b)[1..] == a[1..] + b;
      SaveInTwoCalls(t1, searchId, query, a[1..], b);
    } else {
      assert a + b == b;
    }
  }
  /** A hit together with the search id and query it is stored under. */
  datatype Tagged = Tagged(searchId: nat, query: string, item: Dict)

  /** The hits of one search, each tagged with that search's id and query. */
  function Tag(searchId: nat, query: string, items: seq<Dict>): (r: seq<Tagged>)
    ensures |r| == |items| && forall k | 0 <= k < |items| :: r[k] == Tagged(searchId, query, items[k])
  {
    if items == [] then [] else [Tagged(searchId, query, items[0])] + Tag(searchId, query, items[1..])
  }

  /** The table after inserting the tagged hits one by one, in order, each
      under its own search id. */
  function SaveTagged(t: ResultTable, xs: seq<Tagged>): (r: ResultTable)
    ensures |r.rows| == |t.rows| + |xs|
    ensures r.rows[..|t.rows|] == t.rows
    ensures r.nextId == t.nextId + |xs|
    ensures forall k | 0 <= k < |xs| ::
      r.rows[|t.rows| + k] == RowFor(t.nextId + k, xs[k].searchId, xs[k].query, xs[k].item)
    decreases |xs|
  {
    if xs == [] then t
    else
      var t1 := ResultTable(t.rows + [RowFor(t.nextId, xs[0].searchId, xs[0].query, xs[0].item)], t.nextId + 1);
      var r := SaveTagged(t1, xs[1..]);
      assert r.rows[..|t.rows|] == r.rows[..|t1.rows|][..|t.rows|];
      assert r.rows[|t.rows|] == r.rows[..|t1.rows|][|t.rows|];
      forall k | 1 <= k < |xs|
        ensures r.rows[|t.rows| + k] == RowFor(t.nextId + k, xs[k].searchId, xs[k].query, xs[k].item)
      {
        assert xs[k] == xs[1..][k - 1];
        assert |t.rows| + k == |t1.rows| + (k - 1);
      }
      r
  }

  /** One `save_search_results` call inserts its hits tagged with its
      search id and query. */
  lemma {:induction false} SaveIsTagged(t: ResultTable, searchId: nat, query: string, results: seq<Dict>)
    ensures SaveSearchResults(t, searchId, query, results) == SaveTagged(t, Tag(searchId, query, results))
  {
    var a, b := SaveSearchResults(t, searchId, query, results), SaveTagged(t, Tag(searchId, query, results));
    assert |a.rows| == |b.rows|;
    forall k | 0 <= k < |a.rows| ensures a.rows[k] == b.rows[k] {
      if k < |t.rows| {
        assert a.rows[k] == a.rows[..|t.rows|][k] && b.rows[k] == b.rows[..|t.rows|][k];
      } else {
        var j := k - |t.rows|;
        var xs := Tag(searchId, query, results);
        assert xs[j] == Tagged(searchId, query, results[j]);
        assert a.rows[|t.rows| + j] == RowFor(t.nextId + j, searchId, query, results[j]);
        assert b.rows[|t.rows| + j] == RowFor(t.nextId + j, xs[j].searchId, xs[j].query, xs[j].item);
      }
    }
    assert a.rows == b.rows;
  }

  /** Inserting two lists of tagged hits one after the other is inserting
      their concatenation. */
  lemma {:induction false} SaveTaggedAppend(t: ResultTable, a: seq<Tagged>, b: seq<Tagged>)
    ensures SaveTagged(SaveTagged(t, a), b) == SaveTagged(t, a + b)
  {
    var t1 := SaveTagged(t, a);
    var x, y := SaveTagged(t1, b), SaveTagged(t, a + b);
    assert |x.rows| == |y.rows|;
    forall k | 0 <= k < |x.rows| ensures x.rows[k] == y.rows[k] {
      if k < |t.rows| {
        assert x.rows[k] == x.rows[..|t1.rows|][k] == t1.rows[k] == t1.rows[..|t.rows|][k];
        assert y.rows[k] == y.rows[..|t.rows|][k];
      } else if k < |t1.rows| {
        assert x.rows[k] == x.rows[..|t1.rows|][k] == t1.rows[|t.rows| + (k - |t.rows|)];
        assert (a + b)[k - |t.rows|] == a[k - |t.rows|];
        assert y.rows[k] == y.rows[|t.rows| + (k - |t.rows|)];
      } else {
        assert x.rows[k] == x.rows[|t1.rows| + (k - |t1.rows|)];
        assert (a + b)[k - |t.rows|] == b[k - |t1.rows|];
        assert y.rows[k] == y.rows[|t.rows| + (k - |t.rows|)];
      }
    }
    assert x.rows == y.rows;
  }
}

=== FILE: search_worker.dfy ===
/** The LinkedIn search worker: one pass over at most five pending queue rows,
    in id order, each searched, saved and marked on its own, with a failure
    confined to the row it happened on. */
module SearchWorker {
  import opened Wrappers
  import opened Json
  import QueryQueue
  import SearchResults
  import SerperSearch

  /** `get_pending_queries(limit=5)`: the batch size is fixed, whatever
      `max_results_per_query` is. */
  const BatchLimit: nat := 5

  /** What the world outside the model does during a run. */
  datatype Env = Env(
    provider: (nat, string, int) -> Option<JValue>,  // Serper's decoded response to the call for (row id, query, num); None when it fails
    saveFault: nat -> Option<nat>,              // Some(k): for that row, inserting hit number k raises
    markDoneFault: nat -> bool)                 // for that row, `mark_query_done` raises

  /** Both tables the worker writes. */
  datatype Store = Store(queue: QueryQueue.Queue, results: SearchResults.ResultTable)

  /** One entry of the summary: `{"search_id", "query", "saved"}` for a
      processed row (`outcome` is `Ok(saved)`), `{"search_id", "query",
      "error"}` for a failed one (`outcome` is `Err(error)`). */
  datatype Report = Report(searchId: nat, query: string, outcome: Result<nat, Error>)
  datatype Summary = Summary(processed: seq<Report>, failed: seq<Report>)

  /** The Serper call the worker makes for a row. */
  function SearchFor(row: QueryQueue.PendingRow, maxResults: int, env: Env): Result<seq<Dict>, Error> {
    SerperSearch.Search(env.provider(row.id, row.query, maxResults))
  }

  /** Whether handling `row` gets through search, save and mark-done. */
  predicate Succeeds(row: QueryQueue.PendingRow, maxResults: int, env: Env) {
    var found := SearchFor(row, maxResults, env);
    && found.Ok?
    && !(env.saveFault(row.id).Some? && env.saveFault(row.id).value < |found.value|)
    && !env.markDoneFault(row.id)
  }

  /** The hits the worker writes for `row`: none when the search fails, the
      ones inserted before the failing INSERT when the save raises part-way,
      and all of them otherwise. */
  function Saved(row: QueryQueue.PendingRow, maxResults: int, env: Env): (r: seq<Dict>)
    ensures SearchFor(row, maxResults, env).Err? ==> r == []
    ensures SearchFor(row, maxResults, env).Ok? ==> r <= SearchFor(row, maxResults, env).value
    ensures SearchFor(row, maxResults, env).Ok? && r != SearchFor(row, maxResults, env).value
            ==> env.saveFault(row.id).Some? && |r| == env.saveFault(row.id).value
    ensures Succeeds(row, maxResults, env) ==> r == SearchFor(row, maxResults, env).value
  {
    match SearchFor(row, maxResults, env)
    case Err(_) => []
    case Ok(hits) =>
      var fault := env.saveFault(row.id);
      if fault.Some? && fault.value < |hits| then hits[..fault.value] else hits
  }

  /** The new results rows all belong to `row`. */
  predicate AppendedFor(t: SearchResults.ResultTable, t': SearchResults.ResultTable, ids: set<nat>) {
    && |t.rows| <= |t'.rows|
    && t'.rows[..|t.rows|] == t.rows
    && forall k | |t.rows| <= k < |t'.rows| :: t'.rows[k].searchId in ids
  }

  /** Two appends in a row are one append, for the union of their owners. */
  lemma AppendedTrans(t1: SearchResults.ResultTable, t2: SearchResults.ResultTable, t3: SearchResults.ResultTable, a: set<nat>, b: set<nat>)
    requires AppendedFor(t1, t2, a) && AppendedFor(t2, t3, b)
    ensures AppendedFor(t1, t3, a + b)
  {
    assert t3.rows[..|t1.rows|] == t3.rows[..|t2.rows|][..|t1.rows|];
    forall k | |t1.rows| <= k < |t3.rows| ensures t3.rows[k].searchId in a + b {
      if k < |t2.rows| {
        assert t3.rows[k] == t3.rows[..|t2.rows|][k];
      }
    }
  }

  /** Every row a save appends carries the id it was saved under. */
  lemma SavedRowsBelong(t: SearchResults.ResultTable, id: nat, query: string, items: seq<Dict>)
    ensures AppendedFor(t, SearchResults.SaveSearchResults(t, id, query, items), {id})
  {
    var t' := SearchResults.SaveSearchResults(t, id, query, items);
    forall k | |t.rows| <= k < |t'.rows| ensures t'.rows[k].searchId in {id} {
      var j := k - |t.rows|;
      assert t'.rows[|t.rows| + j] == SearchResults.RowFor(t.nextId + j, id, query, items[j]);
    }
  }

  /** One iteration of the loop body, inside its try/except: on success the
      row becomes `done` and the outcome is the number of hits; on any
      exception it becomes `failed`, with no stored message, and rows the save
      had already inserted stay. */
  function HandleRow(s: Store, row: QueryQueue.PendingRow, maxResults: int, env: Env): (r: (Store, Result<nat, Error>))
    requires row.id in s.queue.rows
    ensures r.1.Ok? <==> Succeeds(row, maxResults, env)
    ensures r.1.Ok? ==> r.1.value == |SearchFor(row, maxResults, env).value|
    ensures QueryQueue.OthersUnchanged(s.queue, r.0.queue, row.id)
    ensures r.0.queue.rows[row.id] == s.queue.rows[row.id].(status := StatusAfter(r.1))
    ensures AppendedFor(s.results, r.0.results, {row.id})
    ensures r.0.results == SearchResults.SaveSearchResults(s.results, row.id, row.query, Saved(row, maxResults, env))
  {
    var failed := QueryQueue.MarkFailed(s.queue, row.id, None, true);
    match SearchFor(row, maxResults, env)
    case Err(e) =>
      SavedRowsBelong(s.results, row.id, row.query, []);
      (Store(failed, s.results), Err(e))
    case Ok(hits) =>
      var fault := env.saveFault(row.id);
      if fault.Some? && fault.value < |hits| then
        var t := SearchResults.SaveSearchResults(s.results, row.id, row.query, hits[..fault.value]);
        SavedRowsBelong(s.results, row.id, row.query, hits[..fault.value]);
        (Store(failed, t), Err(DatabaseError))
      else
        var t := SearchResults.SaveSearchResults(s.results, row.id, row.query, hits);
        SavedRowsBelong(s.results, row.id, row.query, hits);
        if env.markDoneFault(row.id) then (Store(failed, t), Err(DatabaseError))
        else (Store(QueryQueue.MarkDone(s.queue, row.id), t), Ok(|hits|))
  }

  predicate Ascending(xs: seq<nat>) {
    forall i, j | 0 <= i < j < |xs| :: xs[i] < xs[j]
  }

  /** The id set of a list of rows. */
  function IdSet(rows: seq<QueryQueue.PendingRow>): set<nat> {
    set k | 0 <= k < |rows| :: rows[k].id
  }

  /** A later row's id is larger than the first one's. */
  lemma FirstIsSmallest(rows: seq<QueryQueue.PendingRow>)
    requires rows != [] && Ascending(QueryQueue.Ids(rows))
    ensures Ascending(QueryQueue.Ids(rows[1..]))
    ensures forall id | id in IdSet(rows[1..]) :: rows[0].id < id
  {
    var rest := rows[1..];
    var ids, later := QueryQueue.Ids(rows), QueryQueue.Ids(rest);
    forall i, j | 0 <= i < j < |later| ensures later[i] < later[j] {
      assert later[i] == ids[i + 1] && later[j] == ids[j + 1];
    }
    forall id | id in IdSet(rest) ensures rows[0].id < id {
      var k :| 0 <= k < |rest| && rest[k].id == id;
      assert ids[0] < ids[k + 1];
    }
  }

  /** The status a row's outcome leaves it in. */
  function StatusAfter(out: Result<nat, Error>): QueryQueue.Status {
    if out.Ok? then QueryQueue.Done else QueryQueue.Failed
  }

  /** `q'` is `q` with each of `rows` marked as its outcome says, and
      nothing else changed. */
  predicate MarkedAs(q: QueryQueue.Queue, q': QueryQueue.Queue, rows: seq<QueryQueue.PendingRow>, outs: seq<Result<nat, Error>>)
    requires |outs| == |rows|
  {
    && q'.nextId == q.nextId
    && q'.rows.Keys == q.rows.Keys
    && (forall id | id in q.rows && id !in IdSet(rows) :: q'.rows[id] == q.rows[id])
    && (forall k | 0 <= k < |rows| && rows[k].id in q.rows ::
          q'.rows[rows[k].id] == q.rows[rows[k].id].(status := StatusAfter(outs[k])))
  }

  /** Marking the first row, then the rest, marks them all. */
  lemma MarkedStep(q0: QueryQueue.Queue, q1: QueryQueue.Queue, q2: QueryQueue.Queue,
                   rows: seq<QueryQueue.PendingRow>, out: Result<nat, Error>, outs: seq<Result<nat, Error>>)
    requires rows != [] && |outs| == |rows| - 1
    requires rows[0].id in q0.rows && rows[0].id !in IdSet(rows[1..])
    requires QueryQueue.OthersUnchanged(q0, q1, rows[0].id)
    requires q1.rows[rows[0].id] == q0.rows[rows[0].id].(status := StatusAfter(out))
    requires MarkedAs(q1, q2, rows[1..], outs)
    requires IdSet(rows) == {rows[0].id} + IdSet(rows[1..])
    ensures MarkedAs(q0, q2, rows, [out] + outs)
  {
    MarkedStepOthers(q0, q1, q2, rows, out, outs);
    MarkedStepRows(q0, q1, q2, rows, out, outs);
  }

  /** Rows outside the batch keep their state through both steps. */
  lemma MarkedStepOthers(q0: QueryQueue.Queue, q1: QueryQueue.Queue, q2: QueryQueue.Queue,
                         rows: seq<QueryQueue.PendingRow>, out: Result<nat, Error>, outs: seq<Result<nat, Error>>)
    requires rows != [] && |outs| == |rows| - 1
    requires QueryQueue.OthersUnchanged(q0, q1, rows[0].id)
    requires MarkedAs(q1, q2, rows[1..], outs)
    requires IdSet(rows) == {rows[0].id} + IdSet(rows[1..])
    ensures forall id | id in q0.rows && id !in IdSet(rows) :: q2.rows[id] == q0.rows[id]
  {
    forall id | id in q0.rows && id !in IdSet(rows) ensures q2.rows[id] == q0.rows[id] {
      assert id != rows[0].id && id !in IdSet(rows[1..]);
    }
  }

  /** Each batch row ends as its own outcome says. */
  lemma MarkedStepRows(q0: QueryQueue.Queue, q1: QueryQueue.Queue, q2: QueryQueue.Queue,
                       rows: seq<QueryQueue.PendingRow>, out: Result<nat, Error>, outs: seq<Result<nat, Error>>)
    requires rows != [] && |outs| == |rows| - 1
    requires rows[0].id in q0.rows && rows[0].id !in IdSet(rows[1..])
    requires QueryQueue.OthersUnchanged(q0, q1, rows[0].id)
    requires q1.rows[rows[0].id] == q0.rows[rows[0].id].(status := StatusAfter(out))
    requires MarkedAs(q1, q2, rows[1..], outs)
    ensures forall k | 0 <= k < |rows| && rows[k].id in q0.rows ::
      q2.rows[rows[k].id] == q0.rows[rows[k].id].(status := StatusAfter(([out] + outs)[k]))
  {
    var rest, all := rows[1..], [out] + outs;
    forall k | 0 <= k < |rows| && rows[k].id in q0.rows
      ensures q2.rows[rows[k].id] == q0.rows[rows[k].id].(status := StatusAfter(all[k]))
    {
      if k > 0 {
        assert rows[k] == rest[k - 1] && all[k] == outs[k - 1];
        assert rows[k].id in IdSet(rest);
        if rows[k].id == rows[0].id {
          assert false;
        }
      }
    }
  }

  /** The loop: rows handled one after another, one outcome per row. */
  function Fold(s: Store, rows: seq<QueryQueue.PendingRow>, maxResults: int, env: Env): (r: (Store, seq<Result<nat, Error>>))
    requires Ascending(QueryQueue.Ids(rows))
    requires forall k | 0 <= k < |rows| :: rows[k].id in s.queue.rows
    ensures |r.1| == |rows|
    ensures MarkedAs(s.queue, r.0.queue, rows, r.1)
    ensures forall k | 0 <= k < |rows| :: (r.1[k].Ok? <==> Succeeds(rows[k], maxResults, env))
    ensures forall k | 0 <= k < |rows| :: r.1[k].Ok? ==>
      SearchFor(rows[k], maxResults, env).Ok? && r.1[k].value == |SearchFor(rows[k], maxResults, env).value|
    ensures AppendedFor(s.results, r.0.results, IdSet(rows))
    ensures r.0.results == SearchResults.SaveTagged(s.results, Written(rows, maxResults, env))
    decreases |rows|
  {
    if rows == [] then (s, [])
    else
      var (s1, out) := HandleRow(s, rows[0], maxResults, env);
      var rest := rows[1..];
      FirstIsSmallest(rows);
      var (s2, outs) := Fold(s1, rest, maxResults, env);
      IdSetCons(rows);
      MarkedStep(s.queue, s1.queue, s2.queue, rows, out, outs);
      AppendedTrans(s.results, s1.results, s2.results, {rows[0].id}, IdSet(rest));
      var mine := SearchResults.Tag(rows[0].id, rows[0].query, Saved(rows[0], maxResults, env));
      assert Written(rows, maxResults, env) == mine + Written(rest, maxResults, env);
      SearchResults.SaveIsTagged(s.results, rows[0].id, rows[0].query, Saved(rows[0], maxResults, env));
      assert s1.results == SearchResults.SaveTagged(s.results, mine);
      SearchResults.SaveTaggedAppend(s.results, mine, Written(rest, maxResults, env));
      var all := [out] + outs;
      forall k | 0 <= k < |rows|
        ensures (all[k].Ok? <==> Succeeds(rows[k], maxResults, env))
        ensures all[k].Ok? ==> SearchFor(rows[k], maxResults, env).Ok? && all[k].value == |SearchFor(rows[k], maxResults, env).value|
      {
        if k > 0 {
          assert rows[k] == rest[k - 1] && all[k] == outs[k - 1];
        }
      }
      (s2, all)
  }

  /** Everything a batch writes to the results table, row after row: each
      row's saved hits tagged with its id and query. */
  function Written(rows: seq<QueryQueue.PendingRow>, maxResults: int, env: Env): (r: seq<SearchResults.Tagged>)
    ensures forall k | 0 <= k < |r| :: r[k].searchId in IdSet(rows)
  {
    if rows == [] then []
    else
      var rest := Written(rows[1..], maxResults, env);
      IdSetCons(rows);
      SearchResults.Tag(rows[0].id, rows[0].query, Saved(rows[0], maxResults, env)) + rest
  }

  /** The ids of a non-empty list are its first id and those of the rest. */
  lemma IdSetCons(rows: seq<QueryQueue.PendingRow>)
    requires rows != []
    ensures IdSet(rows) == {rows[0].id} + IdSet(rows[1..])
  {
    var rest := rows[1..];
    forall id | id in IdSet(rows) ensures id in {rows[0].id} + IdSet(rest) {
      var k :| 0 <= k < |rows| && rows[k].id == id;
      if k > 0 { assert rest[k - 1].id == id; }
    }
    forall id | id in IdSet(rest) ensures id in IdSet(rows) {
      var k :| 0 <= k < |rest| && rest[k].id == id;
      assert rows[k + 1].id == id;
    }
  }

  /** The summary the Python loop builds by appending to `processed` or `failed`. */
  function Summarize(rows: seq<QueryQueue.PendingRow>, outs: seq<Result<nat, Error>>): (r: Summary)
    requires |outs| == |rows|
    ensures |r.processed| + |r.failed| == |rows|
    decreases |rows|
  {
    if rows == [] then Summary([], [])
    else
      var rest := Summarize(rows[1..], outs[1..]);
      var entry := Report(rows[0].id, rows[0].query, outs[0]);
      if outs[0].Ok? then Summary([entry] + rest.processed, rest.failed)
      else Summary(rest.processed, [entry] + rest.failed)
  }

  /** The search ids of a list of summary entries, in order. */
  function SearchIds(rs: seq<Report>): (r: seq<nat>)
    ensures |r| == |rs| && forall k | 0 <= k < |rs| :: r[k] == rs[k].searchId
  {
    if rs == [] then [] else [rs[0].searchId] + SearchIds(rs[1..])
  }

  /** The reported ids all come from the handled rows. */
  lemma {:induction false} SummaryIdsHandled(rows: seq<QueryQueue.PendingRow>, outs: seq<Result<nat, Error>>)
    requires |outs| == |rows|
    ensures forall k | 0 <= k < |Summarize(rows, outs).processed| ::
      Summarize(rows, outs).processed[k].searchId in IdSet(rows)
    ensures forall k | 0 <= k < |Summarize(rows, outs).failed| ::
      Summarize(rows, outs).failed[k].searchId in IdSet(rows)
    decreases |rows|
  {
    if rows != [] {
      var rest := rows[1..];
      SummaryIdsHandled(rest, outs[1..]);
      IdSetCons(rows);
      var sub := Summarize(rest, outs[1..]);
      var r := Summarize(rows, outs);
      var entry := Report(rows[0].id, rows[0].query, outs[0]);
      if outs[0].Ok? {
        assert r.processed == [entry] + sub.processed;
        forall k | 1 <= k < |r.processed| ensures r.processed[k].searchId in IdSet(rows) {
          assert r.processed[k] == sub.processed[k - 1];
        }
      } else {
        assert r.failed == [entry] + sub.failed;
        forall k | 1 <= k < |r.failed| ensures r.failed[k].searchId in IdSet(rows) {
          assert r.failed[k] == sub.failed[k - 1];
        }
      }
    }
  }

  /** Each list keeps handling order, which is ascending id order. */
  lemma {:induction false} SummaryOrdered(rows: seq<QueryQueue.PendingRow>, outs: seq<Result<nat, Error>>)
    requires |outs| == |rows|
    requires Ascending(QueryQueue.Ids(rows))
    ensures Ascending(SearchIds(Summarize(rows, outs).processed))
    ensures Ascending(SearchIds(Summarize(rows, outs).failed))
    decreases |rows|
  {
    if rows != [] {
      var rest := rows[1..];
      FirstIsSmallest(rows);
      SummaryOrdered(rest, outs[1..]);
      SummaryIdsHandled(rest, outs[1..]);
      var sub := Summarize(rest, outs[1..]);
      var r := Summarize(rows, outs);
      if outs[0].Ok? {
        assert SearchIds(r.processed) == [rows[0].id] + SearchIds(sub.processed);
      } else {
        assert SearchIds(r.failed) == [rows[0].id] + SearchIds(sub.failed);
      }
    }
  }

  /** Every handled row lands in exactly one of the two lists, the one its
      outcome selects. */
  lemma {:induction false} SummaryPartition(rows: seq<QueryQueue.PendingRow>, outs: seq<Result<nat, Error>>)
    requires |outs| == |rows|
    requires Ascending(QueryQueue.Ids(rows))
    ensures forall k | 0 <= k < |rows| ::
      && (rows[k].id in SearchIds(Summarize(rows, outs).processed) <==> outs[k].Ok?)
      && (rows[k].id in SearchIds(Summarize(rows, outs).failed) <==> outs[k].Err?)
    decreases |rows|
  {
    if rows != [] {
      var rest := rows[1..];
      FirstIsSmallest(rows);
      SummaryPartition(rest, outs[1..]);
      SummaryIdsHandled(rest, outs[1..]);
      var sub := Summarize(rest, outs[1..]);
      var r := Summarize(rows, outs);
      var x := rows[0].id;
      forall k | 0 <= k < |sub.processed| ensures sub.processed[k].searchId != x {
        assert sub.processed[k].searchId in IdSet(rest);
      }
      forall k | 0 <= k < |sub.failed| ensures sub.failed[k].searchId != x {
        assert sub.failed[k].searchId in IdSet(rest);
      }
      assert x !in SearchIds(sub.processed) && x !in SearchIds(sub.failed);
      var pi, fi := SearchIds(r.processed), SearchIds(r.failed);
      if outs[0].Ok? {
        assert pi == [x] + SearchIds(sub.processed);
        assert fi == SearchIds(sub.failed);
      } else {
        assert fi == [x] + SearchIds(sub.failed);
        assert pi == SearchIds(sub.processed);
      }
      forall k | 1 <= k < |rows|
        ensures (rows[k].id in pi <==> outs[k].Ok?) && (rows[k].id in fi <==> outs[k].Err?)
      {
        assert rows[k] == rest[k - 1] && outs[k] == outs[1..][k - 1];
        assert rows[k].id in IdSet(rest);
      }
    }
  }

  /** `e` is the summary entry of one of `rows`: its id, its query and its outcome. */
  predicate Reports(rows: seq<QueryQueue.PendingRow>, outs: seq<Result<nat, Error>>, e: Report)
    requires |outs| == |rows|
  {
    exists j | 0 <= j < |rows| :: e == Report(rows[j].id, rows[j].query, outs[j])
  }

  /** Processed entries report a row's query and hit count, failed entries a
      row's query and error. */
  lemma {:induction false} SummaryEntries(rows: seq<QueryQueue.PendingRow>, outs: seq<Result<nat, Error>>)
    requires |outs| == |rows|
    ensures forall k | 0 <= k < |Summarize(rows, outs).processed| ::
      Summarize(rows, outs).processed[k].outcome.Ok? && Reports(rows, outs, Summarize(rows, outs).processed[k])
    ensures forall k | 0 <= k < |Summarize(rows, outs).failed| ::
      Summarize(rows, outs).failed[k].outcome.Err? && Reports(rows, outs, Summarize(rows, outs).failed[k])
    decreases |rows|
  {
    if rows != [] {
      var rest, orest := rows[1..], outs[1..];
      SummaryEntries(rest, orest);
      var sub := Summarize(rest, orest);
      var r := Summarize(rows, outs);
      forall e | Reports(rest, orest, e) ensures Reports(rows, outs, e) {
        var j :| 0 <= j < |rest| && e == Report(rest[j].id, rest[j].query, orest[j]);
        assert rows[j + 1] == rest[j] && outs[j + 1] == orest[j];
      }
      var entry := Report(rows[0].id, rows[0].query, outs[0]);
      assert Reports(rows, outs, entry);
      if outs[0].Ok? {
        assert r.processed == [entry] + sub.processed;
        forall k | 1 <= k < |r.processed|
          ensures r.processed[k].outcome.Ok? && Reports(rows, outs, r.processed[k])
        {
          assert r.processed[k] == sub.processed[k - 1];
        }
      } else {
        assert r.failed == [entry] + sub.failed;
        forall k | 1 <= k < |r.failed|
          ensures r.failed[k].outcome.Err? && Reports(rows, outs, r.failed[k])
        {
          assert r.failed[k] == sub.failed[k - 1];
        }
      }
    }
  }

  /** With the outcomes of the loop, the partition is by whether a row
      succeeds. */
  lemma PartitionBySuccess(rows: seq<QueryQueue.PendingRow>, outs: seq<Result<nat, Error>>, maxResults: int, env: Env)
    requires |outs| == |rows|
    requires Ascending(QueryQueue.Ids(rows))
    requires forall k | 0 <= k < |rows| :: (outs[k].Ok? <==> Succeeds(rows[k], maxResults, env))
    ensures forall k | 0 <= k < |rows| ::
      && (rows[k].id in SearchIds(Summarize(rows, outs).processed) <==> Succeeds(rows[k], maxResults, env))
      && (rows[k].id in SearchIds(Summarize(rows, outs).failed) <==> !Succeeds(rows[k], maxResults, env))
  {
    SummaryPartition(rows, outs);
  }

  /** A processed row had all of its hits saved. */
  lemma ProcessedSavedAll(rows: seq<QueryQueue.PendingRow>, outs: seq<Result<nat, Error>>, maxResults: int, env: Env)
    requires |outs| == |rows|
    requires forall k | 0 <= k < |rows| :: (outs[k].Ok? <==> Succeeds(rows[k], maxResults, env))
    ensures forall k | 0 <= k < |Summarize(rows, outs).processed| ::
      var p := Summarize(rows, outs).processed[k];
      && SearchFor(QueryQueue.PendingRow(p.searchId, p.query), maxResults, env).Ok?
      && Saved(QueryQueue.PendingRow(p.searchId, p.query), maxResults, env)
         == SearchFor(QueryQueue.PendingRow(p.searchId, p.query), maxResults, env).value
  {
    SummaryEntries(rows, outs);
    forall k | 0 <= k < |Summarize(rows, outs).processed|
      ensures var p := Summarize(rows, outs).processed[k];
        && SearchFor(QueryQueue.PendingRow(p.searchId, p.query), maxResults, env).Ok?
        && Saved(QueryQueue.PendingRow(p.searchId, p.query), maxResults, env)
           == SearchFor(QueryQueue.PendingRow(p.searchId, p.query), maxResults, env).value
    {
      var p := Summarize(rows, outs).processed[k];
      var j :| 0 <= j < |rows| && p == Report(rows[j].id, rows[j].query, outs[j]);
      assert rows[j] == QueryQueue.PendingRow(p.searchId, p.query);
      assert Succeeds(rows[j], maxResults, env);
    }
  }

  /** The entries of the summary against the queue before and after the loop:
      each names a row of the batch with its query, and that row ends done
      (processed, with every hit counted) or failed. */
  lemma SummaryQueueFacts(q: QueryQueue.Queue, q': QueryQueue.Queue, rows: seq<QueryQueue.PendingRow>,
                          outs: seq<Result<nat, Error>>, maxResults: int, env: Env)
    requires |outs| == |rows|
    requires forall k | 0 <= k < |rows| :: rows[k].id in q.rows && rows[k].query == q.rows[rows[k].id].query
    requires MarkedAs(q, q', rows, outs)
    requires forall k | 0 <= k < |rows| :: outs[k].Ok? ==>
      SearchFor(rows[k], maxResults, env).Ok? && outs[k].value == |SearchFor(rows[k], maxResults, env).value|
    ensures forall k | 0 <= k < |Summarize(rows, outs).processed| ::
      var p := Summarize(rows, outs).processed[k];
      && p.searchId in q.rows
      && q'.rows[p.searchId] == q.rows[p.searchId].(status := QueryQueue.Done)
      && p.query == q.rows[p.searchId].query
      && SerperSearch.Search(env.provider(p.searchId, p.query, maxResults)).Ok?
      && p.outcome == Ok(|SerperSearch.Search(env.provider(p.searchId, p.query, maxResults)).value|)
    ensures forall k | 0 <= k < |Summarize(rows, outs).failed| ::
      var f := Summarize(rows, outs).failed[k];
      && f.searchId in q.rows
      && q'.rows[f.searchId] == q.rows[f.searchId].(status := QueryQueue.Failed)
      && f.query == q.rows[f.searchId].query
      && f.outcome.Err?
  {
    var summary := Summarize(rows, outs);
    SummaryEntries(rows, outs);
    forall k | 0 <= k < |summary.processed|
      ensures var p := summary.processed[k];
        && p.searchId in q.rows
        && q'.rows[p.searchId] == q.rows[p.searchId].(status := QueryQueue.Done)
        && p.query == q.rows[p.searchId].query
        && SerperSearch.Search(env.provider(p.searchId, p.query, maxResults)).Ok?
        && p.outcome == Ok(|SerperSearch.Search(env.provider(p.searchId, p.query, maxResults)).value|)
    {
      var p := summary.processed[k];
      var j :| 0 <= j < |rows| && p == Report(rows[j].id, rows[j].query, outs[j]);
      assert StatusAfter(outs[j]) == QueryQueue.Done;
    }
    forall k | 0 <= k < |summary.failed|
      ensures var f := summary.failed[k];
        && f.searchId in q.rows
        && q'.rows[f.searchId] == q.rows[f.searchId].(status := QueryQueue.Failed)
        && f.query == q.rows[f.searchId].query
        && f.outcome.Err?
    {
      var f := summary.failed[k];
      var j :| 0 <= j < |rows| && f == Report(rows[j].id, rows[j].query, outs[j]);
      assert StatusAfter(outs[j]) == QueryQueue.Failed;
    }
  }

  /** What a run leaves behind: the store, the summary, and the rows it handled. */
  datatype Run = Run(store: Store, summary: Summary, handled: seq<QueryQueue.PendingRow>)

  /** The loop of the worker over one batch of pending rows, and the summary
      it returns. */
  function RunBatch(s: Store, rows: seq<QueryQueue.PendingRow>, maxResults: int, env: Env): (r: Run)
    requires Ascending(QueryQueue.Ids(rows))
    requires forall k | 0 <= k < |rows| :: rows[k].id in s.queue.rows && rows[k].query == s.queue.rows[rows[k].id].query
    ensures r.handled == rows
    ensures |r.summary.processed| + |r.summary.failed| == |r.handled|
    // each handled row is reported exactly once, in the list its outcome selects
    ensures forall k | 0 <= k < |r.handled| ::
      && (r.handled[k].id in SearchIds(r.summary.processed) <==> Succeeds(r.handled[k], maxResults, env))
      && (r.handled[k].id in SearchIds(r.summary.failed) <==> !Succeeds(r.handled[k], maxResults, env))
    ensures Ascending(SearchIds(r.summary.processed)) && Ascending(SearchIds(r.summary.failed))
    ensures r.store.queue.nextId == s.queue.nextId && r.store.queue.rows.Keys == s.queue.rows.Keys
    // processed rows are done, report their hit count, and had every hit saved
    ensures forall k | 0 <= k < |r.summary.processed| ::
      var p := r.summary.processed[k];
      && p.searchId in s.queue.rows
      && r.store.queue.rows[p.searchId] == s.queue.rows[p.searchId].(status := QueryQueue.Done)
      && p.query == s.queue.rows[p.searchId].query
      && SerperSearch.Search(env.provider(p.searchId, p.query, maxResults)).Ok?
      && p.outcome == Ok(|SerperSearch.Search(env.provider(p.searchId, p.query, maxResults)).value|)
      && Saved(QueryQueue.PendingRow(p.searchId, p.query), maxResults, env)
         == SerperSearch.Search(env.provider(p.searchId, p.query, maxResults)).value
    // failed rows are failed and report an error
    ensures forall k | 0 <= k < |r.summary.failed| ::
      var f := r.summary.failed[k];
      && f.searchId in s.queue.rows
      && r.store.queue.rows[f.searchId] == s.queue.rows[f.searchId].(status := QueryQueue.Failed)
      && f.query == s.queue.rows[f.searchId].query
      && f.outcome.Err?
    // rows outside the batch are untouched
    ensures forall id | id in s.queue.rows && id !in IdSet(r.handled) :: r.store.queue.rows[id] == s.queue.rows[id]
    // the results table gains exactly the saved hits of the batch, row after row
    ensures AppendedFor(s.results, r.store.results, IdSet(r.handled))
    ensures r.store.results == SearchResults.SaveTagged(s.results, Written(r.handled, maxResults, env))
  {
    var (s', outs) := Fold(s, rows, maxResults, env);
    var summary := Summarize(rows, outs);
    SummaryIdsHandled(rows, outs);
    SummaryOrdered(rows, outs);
    PartitionBySuccess(rows, outs, maxResults, env);
    SummaryEntries(rows, outs);
    ProcessedSavedAll(rows, outs, maxResults, env);
    SummaryQueueFacts(s.queue, s'.queue, rows, outs, maxResults, env);
    Run(s', summary, rows)
  }

  /** `run_linkedin_search_worker(max_results_per_query)`. */
  function RunWorker(s: Store, maxResults: int, env: Env): (r: Run)
    requires QueryQueue.Valid(s.queue)
    ensures r.handled == QueryQueue.GetPendingQueries(s.queue, BatchLimit)
    ensures |r.handled| <= BatchLimit
    ensures |r.summary.processed| + |r.summary.failed| == |r.handled|
    // each handled row is reported exactly once, in the list its outcome selects
    ensures forall k | 0 <= k < |r.handled| ::
      && (r.handled[k].id in SearchIds(r.summary.processed) <==> Succeeds(r.handled[k], maxResults, env))
      && (r.handled[k].id in SearchIds(r.summary.failed) <==> !Succeeds(r.handled[k], maxResults, env))
    ensures Ascending(SearchIds(r.summary.processed)) && Ascending(SearchIds(r.summary.failed))
    ensures r.store.queue.nextId == s.queue.nextId && r.store.queue.rows.Keys == s.queue.rows.Keys
    // processed rows are done, report their hit count, and had every hit saved
    ensures forall k | 0 <= k < |r.summary.processed| ::
      var p := r.summary.processed[k];
      && p.searchId in s.queue.rows
      && r.store.queue.rows[p.searchId] == s.queue.rows[p.searchId].(status := QueryQueue.Done)
      && p.query == s.queue.rows[p.searchId].query
      && SerperSearch.Search(env.provider(p.searchId, p.query, maxResults)).Ok?
      && p.outcome == Ok(|SerperSearch.Search(env.provider(p.searchId, p.query, maxResults)).value|)
      && Saved(QueryQueue.PendingRow(p.searchId, p.query), maxResults, env)
         == SerperSearch.Search(env.provider(p.searchId, p.query, maxResults)).value
    // failed rows are failed and report an error
    ensures forall k | 0 <= k < |r.summary.failed| ::
      var f := r.summary.failed[k];
      && f.searchId in s.queue.rows
      && r.store.queue.rows[f.searchId] == s.queue.rows[f.searchId].(status := QueryQueue.Failed)
      && f.query == s.queue.rows[f.searchId].query
      && f.outcome.Err?
    // rows outside the batch are untouched
    ensures forall id | id in s.queue.rows && id !in IdSet(r.handled) :: r.store.queue.rows[id] == s.queue.rows[id]
    // the results table gains exactly the saved hits of the batch, row after row
    ensures AppendedFor(s.results, r.store.results, IdSet(r.handled))
    ensures r.store.results == SearchResults.SaveTagged(s.results, Written(r.handled, maxResults, env))
  {
    var rows := QueryQueue.GetPendingQueries(s.queue, BatchLimit);
    assert Ascending(QueryQueue.Ids(rows));
    RunBatch(s, rows, maxResults, env)
  }
}

=== FILE: serper_search.dfy ===
/** The Serper search call: organic results filtered down to LinkedIn profile
    links. The HTTP exchange is an input: the decoded response body, or `None`
    when the request, the status check or the JSON decoding failed. */
module SerperSearch {
  import opened Wrappers
  import opened Json
  import Text
  import GoogleSearch

  /** The path fragment that marks an individual profile link. */
  const ProfileMarker: string := "linkedin.com/in"

  /** `"linkedin.com/in" in link.lower()` */
  predicate IsProfileLink(link: string) {
    Text.Contains(Text.Lower(link), ProfileMarker)
  }

  /** A profile link is one whose lower-cased form has the marker at some
      position; case does not matter. */
  lemma ProfileLinkAt(link: string)
    ensures IsProfileLink(link) <==> exists i :: Text.OccursAt(Text.Lower(link), ProfileMarker, i)
    ensures IsProfileLink(Text.Lower(link)) == IsProfileLink(link)
  {
    Text.ContainsAt(Text.Lower(link), ProfileMarker);
    assert Text.Lower(Text.Lower(link)) == Text.Lower(link);
  }

  /** The dict appended for a kept item. */
  function Hit(item: Dict, link: string): (r: Dict)
    ensures r.Keys == {"title", "link", "snippet"}
    ensures r["title"] == Get(item, "title") && r["link"] == JStr(link)
    ensures r["snippet"] == (if "snippet" in item then item["snippet"] else JStr(""))
  {
    map["title" := Get(item, "title"), "link" := JStr(link), "snippet" := GetOr(item, "snippet", JStr(""))]
  }

  /** A Serper hit has the same shape as a Google Custom Search entry: for the
      item's own string link, the two tools build the same result. */
  lemma HitIsEntry(item: Dict, link: string)
    requires "link" in item && item["link"] == JStr(link)
    ensures Hit(item, link) == GoogleSearch.Entry(item)
  {
  }

  /** The loop over organic items. A missing link reads as `""`; a link that
      is present but not a string (`null` included) makes `.lower()` raise. */
  function FilterOrganic(items: seq<Dict>): (r: Result<seq<Dict>, Error>)
    ensures r.Ok? <==> forall k | 0 <= k < |items| :: GetOr(items[k], "link", JStr("")).JStr?
    ensures r.Err? ==> r.error == AttributeError
    ensures r.Ok? ==> |r.value| <= |items|
    ensures r.Ok? ==> forall k | 0 <= k < |r.value| ::
      "link" in r.value[k] && r.value[k]["link"].JStr? && IsProfileLink(r.value[k]["link"].s)
  {
    if items == [] then Ok([])
    else
      var link := GetOr(items[0], "link", JStr(""));
      if !link.JStr? then Err(AttributeError)
      else match FilterOrganic(items[1..])
        case Err(e) => Err(e)
        case Ok(rest) => Ok((if IsProfileLink(link.s) then [Hit(items[0], link.s)] else []) + rest)
  }

  /** What a single organic item contributes. */
  lemma FilterOrganicOne(item: Dict)
    ensures "link" !in item ==> FilterOrganic([item]) == Ok([])
    ensures "link" in item && item["link"].JStr? ==>
      FilterOrganic([item]) == Ok(if IsProfileLink(item["link"].s) then [Hit(item, item["link"].s)] else [])
    ensures "link" in item && !item["link"].JStr? ==> FilterOrganic([item]) == Err(AttributeError)
  {
    assert [item][1..] == [];
    assert FilterOrganic([item][1..]) == Ok([]);
    MissingLinkExcluded();
    if "link" in item && item["link"].JStr? {
      var link := item["link"].s;
      if IsProfileLink(link) {
        assert [Hit(item, link)] + [] == [Hit(item, link)];
      }
    }
  }

  /** The filter works item by item, keeping provider order. */
  lemma {:induction false} FilterOrganicAppend(a: seq<Dict>, b: seq<Dict>)
    ensures FilterOrganic(a + b).Ok? <==> FilterOrganic(a).Ok? && FilterOrganic(b).Ok?
    ensures FilterOrganic(a + b).Ok? ==>
      FilterOrganic(a + b).value == FilterOrganic(a).value + FilterOrganic(b).value
  {
    if a == [] {
      assert a + b == b;
    } else {
      assert (a + b)[0] == a[0];
      assert (a + b)[1..] == a[1..] + b;
      FilterOrganicAppend(a[1..], b);
    }
  }

  /** The empty string is not a profile link, so items without a link are dropped. */
  lemma MissingLinkExcluded()
    ensures !IsProfileLink("")
  {
    Text.ContainsAt(Text.Lower(""), ProfileMarker);
  }

  /** `serper_linkedin_search`. A failed request yields `[]`. A decoded body
      that is not a dict fails at `data.get`; `organic` defaults to `[]` and is
      iterated as Python would. No cap from `num_results` is applied locally. */
  function Search(response: Option<JValue>): (r: Result<seq<Dict>, Error>)
    ensures response.None? ==> r == Ok([])
    ensures response.Some? && !response.value.JObj? ==> r == Err(AttributeError)
    ensures r.Ok? && response.Some? ==> response.value.JObj?
    ensures r.Ok? && response.Some? && "organic" in response.value.fields
              && response.value.fields["organic"].JList? ==>
      |r.value| <= |response.value.fields["organic"].items|
    ensures r.Ok? ==> forall k | 0 <= k < |r.value| ::
      "link" in r.value[k] && r.value[k]["link"].JStr? && IsProfileLink(r.value[k]["link"].s)
  {
    match response
    case None => Ok([])
    case Some(data) =>
      if !data.JObj? then Err(AttributeError)
      else match DictItems(GetOr(data.fields, "organic", JList([])))
        case Err(e) => Err(e)
        case Ok(items) => FilterOrganic(items)
  }

  /** A dict body whose organic results are a list of dicts is filtered item
      by item, so FilterOrganicOne and FilterOrganicAppend describe the call. */
  lemma SearchOrganic(fields: Dict, xs: seq<JValue>, items: seq<Dict>)
    requires GetOr(fields, "organic", JList([])) == JList(xs)
    requires |items| == |xs| && forall k | 0 <= k < |xs| :: xs[k] == JObj(items[k])
    ensures Search(Some(JObj(fields))) == FilterOrganic(items)
  {
    var r := ListDicts(xs);
    assert r.Ok?;
    assert r.value == items by {
      forall k | 0 <= k < |xs| ensures r.value[k] == items[k] {
        assert JObj(r.value[k]) == xs[k];
      }
    }
  }

  /** A body without organic results gives no hits. */
  lemma SearchNoOrganic(fields: Dict)
    requires "organic" !in fields
    ensures Search(Some(JObj(fields))) == Ok([])
  {
  }

  /** An organic value that is not a list of dicts raises: an element that is
      not a dict fails at `.get`, and a non-iterable value fails at `for`. */
  lemma SearchOrganicMalformed(fields: Dict)
    requires "organic" in fields
    requires var v := fields["organic"];
      (v.JList? && exists k | 0 <= k < |v.items| :: !v.items[k].JObj?)
      || v.JNull? || v.JInt? || v.JBool? || v.JFloat?
    ensures Search(Some(JObj(fields))).Err?
  {
  }
}

=== FILE: sql.dfy ===
/** SQL statements as the driver sees them: text with `%s` placeholders that
    `cursor.execute(sql, params)` fills from a parameter list, and the cell
    values a fetch returns. */
module Sql {
  import opened Wrappers
  import opened Json
  import Text

  /** Statement text without any `%`, so that the driver's `%`-formatting
      sees no conversion in it. Identifiers and fixed SQL are of this kind. */
  type SqlText = s: string | '%' !in s

  /** A piece of a statement: fixed text, or a `%s` placeholder. */
  datatype Tok = Text(t: SqlText) | Hole

  /** The statement text handed to the driver. */
  function Render(ts: seq<Tok>): string {
    if ts == [] then []
    else (match ts[0] case Text(t) => t case Hole => "%s") + Render(ts[1..])
  }

  /** The number of placeholders. */
  function Holes(ts: seq<Tok>): nat {
    if ts == [] then 0 else (if ts[0].Hole? then 1 else 0) + Holes(ts[1..])
  }

  /** The number of arguments Python's `%`-formatting consumes from a
      statement: one per `%s`, none for an escaped `%%`. */
  function Placeholders(s: string): (r: nat)
    ensures '%' !in s ==> r == 0
    ensures 2 * r <= |s|
    decreases |s|
  {
    if |s| < 2 then 0
    else if s[0] == '%' && s[1] == 's' then 1 + Placeholders(s[2..])
    else if s[0] == '%' && s[1] == '%' then Placeholders(s[2..])
    else Placeholders(s[1..])
  }

  /** Text without `%` consumes no argument. */
  lemma {:induction false} PlaceholdersSkipText(t: string, rest: string)
    requires '%' !in t
    ensures Placeholders(t + rest) == Placeholders(rest)
    decreases |t|
  {
    if t == [] {
      assert t + rest == rest;
    } else {
      assert (t + rest)[0] == t[0] != '%';
      assert (t + rest)[1..] == t[1..] + rest;
      if |t + rest| >= 2 {
        PlaceholdersSkipText(t[1..], rest);
      } else {
        assert rest == [] && |t| == 1;
        assert t[1..] + rest == [];
      }
    }
  }

  /** The rendered statement asks the driver for exactly one argument per
      placeholder, so it formats without error exactly when the parameter
      list is that long. */
  lemma {:induction false} RenderCount(ts: seq<Tok>)
    ensures Placeholders(Render(ts)) == Holes(ts)
  {
    if ts != [] {
      RenderCount(ts[1..]);
      match ts[0]
      case Text(t) => PlaceholdersSkipText(t, Render(ts[1..]));
      case Hole =>
        var rest := Render(ts[1..]);
        assert ("%s" + rest)[2..] == rest;
    }
  }

  lemma {:induction false} HolesAppend(a: seq<Tok>, b: seq<Tok>)
    ensures Holes(a + b) == Holes(a) + Holes(b)
  {
    if a == [] {
      assert a + b == b;
    } else {
      assert (a + b)[0] == a[0] && (a + b)[1..] == a[1..] + b;
      HolesAppend(a[1..], b);
    }
  }

  lemma {:induction false} RenderAppend(a: seq<Tok>, b: seq<Tok>)
    ensures Render(a + b) == Render(a) + Render(b)
  {
    if a == [] {
      assert a + b == b;
    } else {
      assert (a + b)[0] == a[0] && (a + b)[1..] == a[1..] + b;
      RenderAppend(a[1..], b);
    }
  }

  /** Fixed text alone has no placeholder. */
  lemma {:induction false} NoHoles(ts: seq<Tok>)
    requires forall k | 0 <= k < |ts| :: ts[k].Text?
    ensures Holes(ts) == 0
  {
    if ts != [] {
      NoHoles(ts[1..]);
    }
  }

  /** Total placeholders of a list of fragments. */
  function SumHoles(parts: seq<seq<Tok>>): nat {
    if parts == [] then 0 else Holes(parts[0]) + SumHoles(parts[1..])
  }

  /** `sep.join(parts)` on fragments; `sep` is fixed text. */
  function JoinToks(sep: SqlText, parts: seq<seq<Tok>>): (r: seq<Tok>)
    ensures Holes(r) == SumHoles(parts)
  {
    if parts == [] then []
    else if |parts| == 1 then parts[0]
    else
      var rest := JoinToks(sep, parts[1..]);
      HolesAppend(parts[0], [Text(sep)]);
      HolesAppend(parts[0] + [Text(sep)], rest);
      parts[0] + [Text(sep)] + rest
  }

  /** The text of each fragment. */
  function RenderAll(parts: seq<seq<Tok>>): (r: seq<string>)
    ensures |r| == |parts| && forall k | 0 <= k < |parts| :: r[k] == Render(parts[k])
  {
    if parts == [] then [] else [Render(parts[0])] + RenderAll(parts[1..])
  }

  /** Joining fragments and rendering is rendering them and joining the text. */
  lemma {:induction false} RenderJoin(sep: SqlText, parts: seq<seq<Tok>>)
    ensures Render(JoinToks(sep, parts)) == Text.Join(sep, RenderAll(parts))
  {
    if |parts| > 1 {
      RenderJoin(sep, parts[1..]);
      var rest := JoinToks(sep, parts[1..]);
      RenderAppend(parts[0] + [Text(sep)], rest);
      RenderAppend(parts[0], [Text(sep)]);
      assert Render([Text(sep)]) == sep by {
        assert Render([Text(sep)][1..]) == [];
        assert sep + [] == sep;
      }
      assert RenderAll(parts)[1..] == RenderAll(parts[1..]);
    }
  }

  /** A driver parameter. `json.dumps` of a string is kept as the string it
      encodes. */
  datatype Param = PInt(i: int) | PStr(s: string) | PJsonString(of: string)

  /** The same parameter `n` times, as `(p,) * n` or a repeated tuple entry. */
  function Copies(n: nat, p: Param): (r: seq<Param>)
    ensures |r| == n && forall k | 0 <= k < n :: r[k] == p
  {
    if n == 0 then [] else [p] + Copies(n - 1, p)
  }

  /** A statement and the parameters it is executed with. */
  datatype Statement = Statement(sql: seq<Tok>, params: seq<Param>)

  /** The driver can format the statement: as many `%s` as parameters. */
  predicate Executable(st: Statement) {
    Placeholders(Render(st.sql)) == |st.params|
  }

  /** A cell as fetched: NULL, a number, text, raw bytes, or a value already
      decoded from JSON. */
  datatype Cell = CNull | CInt(i: int) | CText(s: string) | CBytes(b: seq<bv8>) | CJson(v: JValue)

  /** A decoded JSON value as the cell Python holds afterwards: `null` is
      `None`, a string is text, an integer is a number. */
  function FromJson(v: JValue): Cell {
    match v
    case JNull => CNull
    case JStr(s) => CText(s)
    case JInt(i) => CInt(i)
    case _ => CJson(v)
  }

  /** A fetched row, by column name. */
  type Row = map<string, Cell>

  /** The three columns that hold JSON text. */
  const JsonColumns: seq<string> := ["emails_json", "phones_json", "raw_json"]
}

=== FILE: text.dfy ===
/** The ASCII string operations the Python code relies on: `strip`, `lower`,
    `in` (substring), `split`/`join`, `isdigit`, `replace` and slicing. */
module Text {

  /** The ASCII characters Python's `str.isspace()` accepts, which are the ones
      `str.strip()` removes: tab through carriage return, the four information
      separators (0x1C-0x1F), and space. */
  predicate IsSpace(c: char) {
    (9 <= c as int <= 13) || (28 <= c as int <= 32)
  }

  /** `str.isdigit()` on one ASCII character. */
  predicate IsDigit(c: char) {
    '0' <= c <= '9'
  }

  predicate AllSpace(s: string) {
    forall k | 0 <= k < |s| :: IsSpace(s[k])
  }

  /** No whitespace at either end. */
  predicate IsStripped(s: string) {
    s == [] || (!IsSpace(s[0]) && !IsSpace(s[|s| - 1]))
  }

  /** `s.lstrip()` */
  function TrimStart(s: string): (r: string)
    ensures |r| <= |s|
    ensures r == [] || !IsSpace(r[0])
    ensures r == [] <==> AllSpace(s)
  {
    if |s| > 0 && IsSpace(s[0]) then
      var r := TrimStart(s[1..]);
      assert AllSpace(s[1..]) ==> AllSpace(s) by {
        if AllSpace(s[1..]) {
          forall k | 1 <= k < |s| ensures IsSpace(s[k]) {
            assert s[k] == s[1..][k - 1];
          }
        }
      }
      r
    else s
  }

  /** `s.rstrip()` */
  function TrimEnd(s: string): (r: string)
    ensures |r| <= |s|
    ensures r == [] || !IsSpace(r[|r| - 1])
    ensures r == [] <==> AllSpace(s)
  {
    if |s| > 0 && IsSpace(s[|s| - 1]) then
      var r := TrimEnd(s[..|s| - 1]);
      assert AllSpace(s[..|s| - 1]) ==> AllSpace(s) by {
        if AllSpace(s[..|s| - 1]) {
          forall k | 0 <= k < |s| - 1 ensures IsSpace(s[k]) {
            assert s[k] == s[..|s| - 1][k];
          }
        }
      }
      r
    else s
  }

  /** What `lstrip` keeps is a suffix of its input. */
  lemma {:induction false} TrimStartSuffix(s: string)
    ensures TrimStart(s) == s[|s| - |TrimStart(s)|..]
  {
    if |s| > 0 && IsSpace(s[0]) {
      TrimStartSuffix(s[1..]);
      var r := TrimStart(s[1..]);
      assert s[|s| - |r|..] == s[1..][|s[1..]| - |r|..];
    }
  }

  /** What `rstrip` keeps is a prefix of its input. */
  lemma {:induction false} TrimEndPrefix(s: string)
    ensures TrimEnd(s) == s[..|TrimEnd(s)|]
  {
    if |s| > 0 && IsSpace(s[|s| - 1]) {
      TrimEndPrefix(s[..|s| - 1]);
      var r := TrimEnd(s[..|s| - 1]);
      assert s[..|r|] == s[..|s| - 1][..|r|];
    }
  }

  /** `s.strip()` */
  function Strip(s: string): (r: string)
    ensures IsStripped(r)
    ensures r == [] <==> AllSpace(s)
  {
    var t := TrimStart(s);
    assert t != [] ==> !AllSpace(t);
    TrimEndPrefix(t);
    var r := TrimEnd(t);
    assert r != [] ==> r[0] == t[0];
    r
  }

  /** Strip removes exactly the surrounding whitespace: padding a stripped
      string with whitespace on both sides and stripping gives it back. Every
      string has this shape, so this pins Strip down completely. */
  lemma {:induction false} StripPadded(pre: string, s: string, post: string)
    requires AllSpace(pre) && AllSpace(post) && IsStripped(s)
    ensures Strip(pre + s + post) == s
  {
    if s == [] {
      AllSpaceAppend(pre, post);
      assert pre + s + post == pre + post;
    } else {
      StripPaddedSome(pre, s, post);
    }
  }

  lemma AllSpaceAppend(a: string, b: string)
    requires AllSpace(a) && AllSpace(b)
    ensures AllSpace(a + b)
  {
    var x := a + b;
    forall k | 0 <= k < |x| ensures IsSpace(x[k]) {
      if k < |a| {
        assert x[k] == a[k];
      } else {
        assert x[k] == b[k - |a|];
      }
    }
  }

  lemma StripPaddedSome(pre: string, s: string, post: string)
    requires AllSpace(pre) && AllSpace(post) && s != [] && IsStripped(s)
    ensures Strip(pre + s + post) == s
  {
    TrimStartPadded(pre, s + post);
    assert pre + s + post == pre + (s + post);
    TrimEndPadded(s, post);
    assert Strip(pre + s + post) == TrimEnd(TrimStart(pre + s + post));
  }

  lemma {:induction false} TrimStartPadded(pre: string, s: string)
    requires AllSpace(pre) && s != [] && !IsSpace(s[0])
    ensures TrimStart(pre + s) == s
  {
    if pre != [] {
      assert (pre + s)[1..] == pre[1..] + s;
      TrimStartPadded(pre[1..], s);
    }
  }

  lemma {:induction false} TrimEndPadded(s: string, post: string)
    requires AllSpace(post) && s != [] && !IsSpace(s[|s| - 1])
    ensures TrimEnd(s + post) == s
  {
    if post != [] {
      var x := s + post;
      assert x[..|x| - 1] == s + post[..|post| - 1];
      TrimEndPadded(s, post[..|post| - 1]);
    }
  }

  lemma {:induction false} StripOfStripped(s: string)
    requires IsStripped(s)
    ensures Strip(s) == s
  {
    var none: string := [];
    assert AllSpace(none);
    assert none + s + none == s;
    StripPadded(none, s, none);
  }

  /** Stripping only removes characters: what was absent stays absent. */
  lemma StripWithin(s: string, c: char)
    requires c !in s
    ensures c !in Strip(s)
  {
    var t := TrimStart(s);
    var r := TrimEnd(t);
    TrimStartSuffix(s);
    TrimEndPrefix(t);
    forall k | 0 <= k < |r| ensures r[k] != c {
      assert r[k] == t[k] == s[|s| - |t| + k];
    }
  }

  /** `s.strip(c)`: the longest middle part that neither starts nor ends
      with `c`. */
  function StripChar(s: string, c: char): (r: string)
    ensures r == [] || (r[0] != c && r[|r| - 1] != c)
    ensures |r| <= |s|
    ensures c !in s ==> r == s
    decreases |s|
  {
    if s != [] && s[0] == c then StripChar(s[1..], c)
    else if s != [] && s[|s| - 1] == c then StripChar(s[..|s| - 1], c)
    else s
  }

  /** Every character of `s` is `c`. */
  predicate AllChar(s: string, c: char) {
    forall k | 0 <= k < |s| :: s[k] == c
  }

  /** What `strip(c)` keeps is a slice of its input with only `c` cut away
      on either side. */
  lemma {:induction false} StripCharSlice(s: string, c: char)
    ensures exists i, j | 0 <= i <= j <= |s| ::
      && StripChar(s, c) == s[i..j] && AllChar(s[..i], c) && AllChar(s[j..], c)
    decreases |s|
  {
    if s != [] && s[0] == c {
      var t := s[1..];
      StripCharSlice(t, c);
      var i, j :| 0 <= i <= j <= |t| && StripChar(t, c) == t[i..j] && AllChar(t[..i], c) && AllChar(t[j..], c);
      SliceAfterFirst(s, c, i, j);
      assert StripChar(s, c) == s[i + 1..j + 1];
    } else if s != [] && s[|s| - 1] == c {
      var t := s[..|s| - 1];
      StripCharSlice(t, c);
      var i, j :| 0 <= i <= j <= |t| && StripChar(t, c) == t[i..j] && AllChar(t[..i], c) && AllChar(t[j..], c);
      SliceBeforeLast(s, c, i, j);
      assert StripChar(s, c) == s[i..j];
    } else {
      assert s[0..|s|] == s && AllChar(s[..0], c) && AllChar(s[|s|..], c);
    }
  }

  /** A cut of `s[1..]` shifted by one is a cut of `s` when `s[0]` is `c`. */
  lemma SliceAfterFirst(s: string, c: char, i: nat, j: nat)
    requires s != [] && s[0] == c && i <= j <= |s| - 1
    requires AllChar(s[1..][..i], c) && AllChar(s[1..][j..], c)
    ensures s[1..][i..j] == s[i + 1..j + 1] && AllChar(s[..i + 1], c) && AllChar(s[j + 1..], c)
  {
    var t, front := s[1..], s[..i + 1];
    forall k | 0 <= k < |front| ensures front[k] == c {
      if k > 0 {
        assert front[k] == t[..i][k - 1];
      }
    }
    assert t[j..] == s[j + 1..];
  }

  /** A cut of `s[..|s| - 1]` is a cut of `s` when `s` ends with `c`. */
  lemma SliceBeforeLast(s: string, c: char, i: nat, j: nat)
    requires s != [] && s[|s| - 1] == c && i <= j <= |s| - 1
    requires AllChar(s[..|s| - 1][..i], c) && AllChar(s[..|s| - 1][j..], c)
    ensures s[..|s| - 1][i..j] == s[i..j] && AllChar(s[..i], c) && AllChar(s[j..], c)
  {
    var t, back := s[..|s| - 1], s[j..];
    forall k | 0 <= k < |back| ensures back[k] == c {
      if k < |t| - j {
        assert back[k] == t[j..][k];
      }
    }
    assert t[..i] == s[..i];
  }

  /** Conversely, `strip(c)` removes exactly the `c`s around a middle part
      that neither starts nor ends with `c`. */
  lemma {:induction false} StripCharPadded(pre: string, t: string, post: string, c: char)
    requires AllChar(pre, c) && AllChar(post, c)
    requires t == [] || (t[0] != c && t[|t| - 1] != c)
    ensures StripChar(pre + t + post, c) == t
    decreases |pre| + |post|
  {
    if pre != [] {
      StripCharPadded(pre[1..], t, post, c);
      PaddedFront(pre, t, post, c);
    } else if t == [] && post != [] {
      StripCharPadded([], [], post[1..], c);
      PaddedOnly(post, c);
    } else if post != [] {
      StripCharPadded([], t, post[..|post| - 1], c);
      PaddedBack(t, post, c);
    } else {
      assert pre + t + post == t;
    }
  }

  /** One leading `c` more is stripped away. */
  lemma PaddedFront(pre: string, t: string, post: string, c: char)
    requires pre != [] && pre[0] == c
    requires StripChar(pre[1..] + t + post, c) == t
    ensures StripChar(pre + t + post, c) == t
  {
    var s := pre + t + post;
    assert s[0] == c && s[1..] == pre[1..] + t + post;
  }

  /** A run of `c` alone strips to nothing. */
  lemma PaddedOnly(post: string, c: char)
    requires post != [] && post[0] == c
    requires StripChar([] + [] + post[1..], c) == []
    ensures StripChar([] + [] + post, c) == []
  {
    assert [] + [] + post == post && [] + [] + post[1..] == post[1..];
  }

  /** One trailing `c` more is stripped away once the front is not `c`. */
  lemma PaddedBack(t: string, post: string, c: char)
    requires t != [] && t[0] != c && post != [] && post[|post| - 1] == c
    requires StripChar([] + t + post[..|post| - 1], c) == t
    ensures StripChar([] + t + post, c) == t
  {
    var s := [] + t + post;
    assert s[0] == t[0];
    assert s[..|s| - 1] == [] + t + post[..|post| - 1];
    StripLast(s, c);
  }

  /** A string that does not start with `c` but ends with it loses that
      last character first. */
  lemma StripLast(s: string, c: char)
    requires s != [] && s[0] != c && s[|s| - 1] == c
    ensures StripChar(s, c) == StripChar(s[..|s| - 1], c)
  {
  }

  /** ASCII `str.lower()` on one character. */
  function LowerChar(c: char): char {
    if 'A' <= c <= 'Z' then (c as int + 32) as char else c
  }

  /** ASCII `str.lower()` */
  function Lower(s: string): (r: string)
    ensures |r| == |s|
    ensures forall k | 0 <= k < |s| :: r[k] == LowerChar(s[k])
  {
    if s == [] then [] else [LowerChar(s[0])] + Lower(s[1..])
  }

  /** `sub in s` for strings: `sub` occurs somewhere in `s`. */
  predicate Contains(s: string, sub: string)
    decreases |s|
  {
    sub <= s || (s != [] && Contains(s[1..], sub))
  }

  /** `sub` occurs in `s` starting at position `i`. */
  predicate OccursAt(s: string, sub: string, i: int) {
    0 <= i <= |s| - |sub| && s[i..i + |sub|] == sub
  }

  /** Contains agrees with the positional reading of substring occurrence. */
  lemma {:induction false} ContainsAt(s: string, sub: string)
    ensures Contains(s, sub) <==> exists i :: OccursAt(s, sub, i)
    decreases |s|
  {
    if sub <= s {
      assert OccursAt(s, sub, 0);
    } else if s != [] {
      ContainsAt(s[1..], sub);
      if exists i :: OccursAt(s, sub, i) {
        var i :| OccursAt(s, sub, i);
        assert i != 0;
        OccursShift(s, sub, i);
      }
      if exists i :: OccursAt(s[1..], sub, i) {
        var i :| OccursAt(s[1..], sub, i);
        OccursShift(s, sub, i + 1);
      }
    }
  }

  /** An occurrence past the first character is an occurrence in the tail. */
  lemma OccursShift(s: string, sub: string, i: int)
    requires s != [] && 1 <= i
    ensures OccursAt(s, sub, i) <==> OccursAt(s[1..], sub, i - 1)
  {
    if i <= |s| - |sub| {
      assert s[1..][i - 1..i - 1 + |sub|] == s[i..i + |sub|];
    }
  }

  /** `s.split(c)`: the pieces between occurrences of `c`; always at least one. */
  function Split(s: string, c: char): (r: seq<string>)
    ensures |r| >= 1
    ensures forall k | 0 <= k < |r| :: c !in r[k]
  {
    if s == [] then [[]]
    else
      var rest := Split(s[1..], c);
      if s[0] == c then [[]] + rest else [[s[0]] + rest[0]] + rest[1..]
  }

  /** `sep.join(xs)` */
  function Join(sep: string, xs: seq<string>): (r: string)
    ensures xs != [] ==> xs[0] <= r
  {
    if xs == [] then []
    else if |xs| == 1 then xs[0]
    else xs[0] + sep + Join(sep, xs[1..])
  }

  /** The summed lengths of the pieces. */
  function TotalLength(xs: seq<string>): nat {
    if xs == [] then 0 else |xs[0]| + TotalLength(xs[1..])
  }

  /** The joined text holds every piece and one separator between each two. */
  lemma {:induction false} JoinLength(sep: string, xs: seq<string>)
    ensures |Join(sep, xs)| == TotalLength(xs) + (if xs == [] then 0 else |sep| * (|xs| - 1))
  {
    if |xs| > 1 {
      JoinLength(sep, xs[1..]);
    }
  }

  /** Joining the pieces with the separator gives back the text. */
  lemma {:induction false} SplitJoin(s: string, c: char)
    ensures Join([c], Split(s, c)) == s
  {
    if s != [] {
      var rest := Split(s[1..], c);
      SplitJoin(s[1..], c);
      if s[0] == c {
        assert ([[]] + rest)[1..] == rest;
        assert Join([c], Split(s, c)) == [] + [c] + Join([c], rest);
      } else if |rest| == 1 {
        assert Join([c], Split(s, c)) == [s[0]] + rest[0];
      } else {
        assert ([[s[0]] + rest[0]] + rest[1..])[1..] == rest[1..];
        assert Join([c], Split(s, c)) == [s[0]] + rest[0] + [c] + Join([c], rest[1..]);
        assert Join([c], rest) == rest[0] + [c] + Join([c], rest[1..]);
      }
      assert [s[0]] + s[1..] == s;
    }
  }

  /** Splitting at a first occurrence: the part before it, then the rest. */
  lemma {:induction false} SplitAtFirst(a: string, c: char, b: string)
    requires c !in a
    ensures Split(a + [c] + b, c) == [a] + Split(b, c)
  {
    if a == [] {
      assert [c] + b == a + [c] + b;
      assert ([c] + b)[1..] == b;
    } else {
      var x := a + [c] + b;
      assert x[0] == a[0] && x[0] != c;
      assert x[1..] == a[1..] + [c] + b;
      SplitAtFirst(a[1..], c, b);
      assert Split(x[1..], c)[0] == a[1..];
      assert [a[0]] + a[1..] == a;
    }
  }

  lemma SplitNoSep(a: string, c: char)
    requires c !in a
    ensures Split(a, c) == [a]
  {
    if a != [] {
      assert a[0] != c;
      SplitNoSep(a[1..], c);
      assert [a[0]] + a[1..] == a;
    }
  }

  lemma LacksAppend(a: string, b: string, c: char)
    requires c !in a && c !in b
    ensures c !in a + b
  {
    forall k | 0 <= k < |a + b| ensures (a + b)[k] != c {
      if k < |a| {
        assert (a + b)[k] == a[k];
      } else {
        assert (a + b)[k] == b[k - |a|];
      }
    }
  }

  /** `s.split(c, 1)[0]`: everything before the first `c`, or all of `s`. */
  function Before(s: string, c: char): (r: string)
    ensures r <= s
    ensures c !in r
    ensures c !in s ==> r == s
    ensures r == s || s[|r|] == c
  {
    if s == [] || s[0] == c then [] else [s[0]] + Before(s[1..], c)
  }

  /** `while s.endswith(c): s = s[:-1]` */
  function DropTrailing(s: string, c: char): (r: string)
    ensures r <= s
    ensures r == [] || r[|r| - 1] != c
    ensures forall k | |r| <= k < |s| :: s[k] == c
  {
    if s != [] && s[|s| - 1] == c then DropTrailing(s[..|s| - 1], c) else s
  }

  /** `s.replace(c, "")` for a one-character `c`. */
  function RemoveAll(s: string, c: char): (r: string)
    ensures c !in r
    ensures |r| <= |s|
    ensures c !in s ==> r == s
  {
    if s == [] then []
    else if s[0] == c then RemoveAll(s[1..], c)
    else [s[0]] + RemoveAll(s[1..], c)
  }

  /** Removing a character from a concatenation removes it from each part. */
  lemma {:induction false} RemoveAllAppend(a: string, b: string, c: char)
    ensures RemoveAll(a + b, c) == RemoveAll(a, c) + RemoveAll(b, c)
  {
    if a == [] {
      assert a + b == b;
    } else {
      assert (a + b)[0] == a[0] && (a + b)[1..] == a[1..] + b;
      RemoveAllAppend(a[1..], b, c);
    }
  }

  /** Removing the one separator between two parts that lack it joins them. */
  lemma RemoveSeparator(a: string, b: string, c: char)
    requires c !in a && c !in b
    ensures RemoveAll(a + [c] + b, c) == a + b
  {
    RemoveAllAppend(a + [c], b, c);
    RemoveAllAppend(a, [c], c);
    assert [c][1..] == [];
    assert RemoveAll([c], c) == [];
    assert a + [] == a;
  }

  /** `s[:n]` for a non-negative `n`. */
  function Take(s: string, n: nat): (r: string)
    ensures r <= s
    ensures |r| == if |s| <= n then |s| else n
  {
    if |s| <= n then s else s[..n]
  }

  /** `str.isdigit()` over ASCII: non-empty and every character a digit. */
  predicate IsDigits(s: string) {
    s != [] && forall k | 0 <= k < |s| :: IsDigit(s[k])
  }

  lemma DigitsAppend(a: string, b: string)
    requires IsDigits(a) && IsDigits(b)
    ensures IsDigits(a + b)
  {
    forall k | 0 <= k < |a + b| ensures IsDigit((a + b)[k]) {
      if k < |a| {
        assert (a + b)[k] == a[k];
      } else {
        assert (a + b)[k] == b[k - |a|];
      }
    }
  }

  /** The value of a string of decimal digits (leading zeros allowed). */
  function DigitsValue(s: string): nat
    requires forall k | 0 <= k < |s| :: IsDigit(s[k])
  {
    if s == [] then 0
    else
      assert IsDigit(s[|s| - 1]);
      DigitsValue(s[..|s| - 1]) * 10 + (s[|s| - 1] as int - '0' as int)
  }

  /** `str(n)` for a non-negative integer. */
  function Decimal(n: nat): (r: string)
    ensures IsDigits(r)
  {
    if n < 10 then [('0' as int + n) as char]
    else Decimal(n / 10) + [('0' as int + n % 10) as char]
  }

  /** Reading back the decimal form of `n` gives `n`. */
  lemma {:induction false} DecimalValue(n: nat)
    ensures DigitsValue(Decimal(n)) == n
  {
    if n >= 10 {
      var d := Decimal(n);
      assert d[..|d| - 1] == Decimal(n / 10);
      DecimalValue(n / 10);
    }
  }
}

=== FILE: wrappers.dfy ===
/** Option and Result, the two failure-carrying shapes the rest of the model uses. */
module Wrappers {

  /** Python's `None` versus a present value. */
  datatype Option<+T> = None | Some(value: T) {

    /** The present value, or `default` when there is none. */
    function GetOr(default: T): T {
      match this
      case Some(v) => v
      case None => default
    }
  }

  /** A normal return versus a raised exception. */
  datatype Result<+T, +E> = Ok(value: T) | Err(error: E)
}
